=== FILE: README.md ===
# Instagram user-ranking agent, modelled in Dafny

The backend ranks a list of Instagram accounts with an LLM-driven agent.
`analyze_instagram_users` runs a bounded loop. Each iteration goes through four layers:

- **Perception** sends the current query and the memory's context to the model. It parses the reply by its markers (`THINKING:`, `FUNCTION_CALL:`, `VERIFICATION:`, `FINAL_ANSWER:`, or thinking followed by a call).
- **Decision** turns the parsed reply into an action. A verification reply is checked against the profile-card schema.
- **Action** runs one of three tools:
  - `get_user_metrics` fetches a profile, or a placeholder record on failure;
  - `calculate_user_score` computes a weighted 0-100 score;
  - `rank_users` sorts by score, highest first.

  It also formats the transcript line of the iteration and the final report.
- **Memory** holds the fetched records, the processed and scored usernames, the transcript, and the flag that ranking is done.

The orchestrator stores each tool's result in memory. It skips ranking until every record is scored, and skips it again once ranking is complete. It steers the next query. It returns on a verified answer or a final answer, or with the memory's records when the iterations run out.

The model follows the layering:

- `models.dfy`: the Python values (`Json`, `Dict`), the response, parameter and memory records, and the exceptions the code raises (`Fault`).
- `pystr.dfy`: the string builtins used (`strip`, `find`, `replace`, `split`, `str(int)`).
- `schema.dfy`: the card schema.
- `instagram_tools.dfy`: the URL cleaner and the profile fetch.
- `memory.dfy`: `AgentMemory` as a class whose methods update its fields in place, specified by pure functions on its lists and sets.
- `perception.dfy`: the reply parser.
- `decision.dfy`: verification and dispatch.
- `action.dfy`: scoring, ranking, the tool dispatcher and the formatters. The verbose report is built by a loop.
- `agent.dfy`: the loop. `AgentMemory` is updated in place by `RunIteration`. Each iteration is proved equal to the value-level function `Iterate`, which decides on the reply and then takes `StepSpec`'s step. The whole loop is proved equal to `Run`.

The model, the Instagram client, `json.loads`, `json.dumps` and `str()` are parameters. The model is a function of the iteration, the query and the context.

The code behaves as follows, and so does the model:

- A function call is never redirected.
- A final answer that does not decode becomes an `error` action, not an exception.
- A final answer that decodes to a number, a bool or `null` raises `TypeError` from the `len` in its log line, and the exception ends the run.
- Error and unknown replies both become `unknown`.
- A mixed reply keeps its thinking text.
- `update_users_list` does not keep the processed set a superset of the scored set.
- Fetching a user again drops that user's score but leaves them in the scored set.

## Model

| member | source | states |
|---|---|---|
| InstagramTools.ConvertInstagramProfilePicUrl | ai/agents/instagram_tools/instagram_tools.py:123-135 | an empty URL or one without `instagram.com` is returned unchanged; otherwise the result is the part before the first `?` with every `s150x150` replaced by `s1080x1080`, so it has no `?` and no `s150x150` |
| PyStr.BeforeIsLongestPrefix | ai/agents/instagram_tools/instagram_tools.py:130 | `split('?')[0]` is the longest prefix without a `?`: every prefix free of `?` is at most as long |
| InstagramTools.ReplaceLeavesNoSmallSize | ai/agents/instagram_tools/instagram_tools.py:133 | after the size replacement no `s150x150` token remains, including across the inserted text |
| InstagramTools.ConvertIdempotent | ai/agents/instagram_tools/instagram_tools.py:123-135 | cleaning an already cleaned URL changes nothing |
| InstagramTools.UserInfoByUsername | ai/agents/instagram_tools/instagram_tools.py:141-230 | the record always names the requested user, passes the card schema and has exactly the eight card keys, plus `error` exactly when the fetch failed; on failure every count is 0, both flags are false and the picture URL is empty; on success the counts, flags and engagement rate are those of the fetched profile and the picture URL is cleaned |
| InstagramTools.FetchedMetrics | ai/agents/instagram_tools/instagram_tools.py:161-170 | the record of a fetched profile has exactly the eight card keys: it names the user, passes the card schema, copies the profile's counts, flags and stored engagement rate, and carries the cleaned picture URL |
| InstagramTools.RateValue | ai/agents/instagram_tools/instagram_tools.py:154-159 | the stored engagement rate is the computed float, or the int 0 exactly when computing it raised |
| InstagramTools.PlaceholderMetrics | ai/agents/instagram_tools/instagram_tools.py:220-230 | the placeholder has exactly the eight card keys plus `error`: it names the user, passes the card schema and carries the error text, zero counts, both flags false and an empty picture URL |
| InstagramTools.FetchedRecordHasNoScore | ai/agents/instagram_tools/instagram_tools.py:141-230 | no record the fetch returns, placeholder or not, has a `score` key |
| ProfileSchema.ValidProfileIffAllFields | ai/agents/instagram_tools_models/instagram_card_profile_schema.py:3-11 | a value validates exactly when it is a dict holding every one of the eight fields with its declared type |
| ProfileSchema.MissingFieldFails | ai/agents/instagram_tools_models/instagram_card_profile_schema.py:3-11 | every field is required: a dict lacking one fails |
| ProfileSchema.MistypedFieldFails | ai/agents/instagram_tools_models/instagram_card_profile_schema.py:3-11 | a field of the wrong type fails |
| ProfileSchema.NonDictFails | ai/agents/instagram_tools_models/instagram_card_profile_schema.py:3 | only dicts validate |
| ProfileSchema.ScoreIsIrrelevant | ai/agents/instagram_tools_models/instagram_card_profile_schema.py:3-11 | adding, changing or removing `score` does not change validity |
| ProfileSchema.ExtraKeyKeepsProfile | ai/agents/instagram_tools_models/instagram_card_profile_schema.py:3-11 | setting any key outside the eight schema fields does not change validity |
| ProfileSchema.UserMetricsValidIffPicture | ai/agents/instagram_tools/models.py:111-121 | a typed `UserMetrics` record passes the card schema exactly when its optional picture URL is present |
| Models.DictListRoundTrip | ai/agents/instagram_tools/models.py:134 | a list of records converted to a Python list and back is the same list |
| Models.PyIn | ai/agents/instagram_tools/action.py:30 | `"error" in v` is key membership on a dict; it raises on a value that is not a dict, list or string |
| Models.TypeTagDeterminesVariant | ai/agents/instagram_tools/models.py:20-73 | each perception variant has its own literal `type`, so the tag determines the variant |
| Models.WithResult | ai/agents/instagram_tools/insta_agent.py:160 | filling in the call's result keeps the function name and parameters and sets only the result |
| Models.UserMetricsRoundTrip | ai/agents/instagram_tools/models.py:111-121 | validating the dict of a `UserMetrics` record gives the record back, absent optional fields included |
| Models.DefaultMemoryState | ai/agents/instagram_tools/models.py:124-129 | every list of a fresh memory state is empty |
| Memory.FindUser | ai/agents/instagram_tools/memory.py:39-40 | the index found is the first record with that username; none exactly when no record has it |
| Memory.UpsertMetrics | ai/agents/instagram_tools/memory.py:26-49 | a record without a truthy username is ignored; a known user's first record is replaced in place; a new user is appended |
| Memory.ProcessedAfterStore | ai/agents/instagram_tools/memory.py:33-48 | only a new user is added to the processed set |
| Memory.AttachScore | ai/agents/instagram_tools/memory.py:51-66 | the first record of the user gains `score` and nothing else changes; an unknown user changes nothing |
| Memory.ScoredAfterStore | ai/agents/instagram_tools/memory.py:51-66 | a user enters the scored set only when the memory holds a record for them |
| Memory.Unprocessed | ai/agents/instagram_tools/memory.py:120-130 | exactly the targets whose username is not processed |
| Memory.UnprocessedAppend | ai/agents/instagram_tools/memory.py:120-130 | the filter keeps the targets' order: it distributes over concatenation |
| Memory.AllProcessedIffNoneUnprocessed | ai/agents/instagram_tools/memory.py:141-151 | every target is processed exactly when none is unprocessed |
| Memory.Unscored | ai/agents/instagram_tools/memory.py:132-139 | the result is exactly the held records, in order, whose username is not in the scored set |
| Memory.UnscoredAppend | ai/agents/instagram_tools/memory.py:132-139 | the filter keeps the records' order |
| Memory.AllScoredIffNoneUnscored | ai/agents/instagram_tools/memory.py:153-160 | every record is scored exactly when none is unscored; an empty memory counts as all scored |
| Memory.EmptyConsistent | ai/agents/instagram_tools/memory.py:19-24 | a fresh memory is consistent: every record has a truthy username, no two share one, the processed set is exactly the held usernames and the scored set lies within it |
| Memory.StoreMetricsKeepsConsistent | ai/agents/instagram_tools/memory.py:26-49 | storing metrics keeps the memory consistent: usernames stay truthy and unique and the processed set stays exactly the held usernames |
| Memory.StoreScoreKeepsConsistent | ai/agents/instagram_tools/memory.py:51-66 | storing a score keeps the memory consistent |
| Memory.RestoreDropsScoreButKeepsScored | ai/agents/instagram_tools/memory.py:39-44 | fetching a scored user again replaces the record without its score while the user stays in the scored set |
| Memory.AgentMemory.constructor | ai/agents/instagram_tools/memory.py:19-24 | every collection starts empty and ranking is not completed |
| Memory.AgentMemory.StoreUserMetrics | ai/agents/instagram_tools/memory.py:26-49 | the records and the processed set become `UpsertMetrics` and `ProcessedAfterStore` of the old ones; nothing else changes |
| Memory.AgentMemory.StoreUserScore | ai/agents/instagram_tools/memory.py:51-66 | the records and the scored set become `AttachScore` and `ScoredAfterStore` of the old ones; nothing else changes |
| Memory.AgentMemory.UpdateUsersList | ai/agents/instagram_tools/memory.py:68-76 | the record list is replaced wholesale; neither set changes |
| Memory.AgentMemory.AddIterationResponse | ai/agents/instagram_tools/memory.py:78-85 | the transcript grows by exactly that line at the end |
| Memory.AgentMemory.GetUserMetrics | ai/agents/instagram_tools/memory.py:87-100 | a record is found exactly when one with that username is held, and it is such a record |
| Perception.FirstLine | ai/agents/instagram_tools/perception.py:48 | the first line has no line break and is a prefix of the text |
| Perception.SplitCall | ai/agents/instagram_tools/perception.py:69-74 | the name holds no pipe character; without one the parameters are empty; both parts are stripped and made of the input's characters |
| Perception.ParseLlmResponse | ai/agents/instagram_tools/perception.py:32-90 | parsing never yields an error response; an unknown reply carries the stripped text |
| Perception.ParseClassification | ai/agents/instagram_tools/perception.py:42-90 | which of the six variants a reply parses to, as an exact condition on its markers in each direction |
| Perception.ParseTagIsOneOfSix | ai/agents/instagram_tools/perception.py:32-90 | the parser's tag is one of the six non-error tags |
| Perception.FunctionCallShape | ai/agents/instagram_tools/perception.py:45-75 | a call's name holds no pipe character; both parts are stripped; a marker found after the start keeps only its line |
| Perception.MixedShape | ai/agents/instagram_tools/perception.py:45-60 | a mixed reply keeps the thinking before the first call marker and, as its call, the rest of that marker's line |
| Perception.CallLineParsesAsCall | ai/agents/instagram_tools/perception.py:45-75 | the call line of a reply, parsed alone, is the function call made of its call text |
| Perception.ParseIgnoresSurroundingSpace | ai/agents/instagram_tools/perception.py:42 | whitespace around a reply does not change how it parses |
| Perception.ProcessInput | ai/agents/instagram_tools/perception.py:117-134 | a failed model call gives an error response with the exception text, and only then; a reply is parsed |
| Decision.FinalAnswerSpan | ai/agents/instagram_tools/decision.py:28-31 | the greedy bracket capture: it exists exactly when a `]` follows the first marker's bracket, starts at that bracket and ends at the last `]` of the content |
| Decision.VerifyJsonOutputSound | ai/agents/instagram_tools/decision.py:18-49 | a content that verifies has a span decoding to a non-empty list whose first record passes the schema |
| Decision.VerifyJsonOutputReadsFirstOnly | ai/agents/instagram_tools/decision.py:33-44 | only the first element of the decoded list is validated |
| Decision.DetermineNextAction | ai/agents/instagram_tools/decision.py:51-127 | the action type is one of the eight the orchestrator knows; it raises exactly for a final answer that decodes to a value without a length; a final answer it returns carries a value with a length |
| Decision.DecisionRaisesOnlyOnLen | ai/agents/instagram_tools/decision.py:95-99 | the only exception is the `TypeError` of `len` on a decoded final answer that is an int, a float, a bool or `null` |
| Decision.CallsOnlyForCallReplies | ai/agents/instagram_tools/decision.py:87-122 | a function is requested exactly for function-call and mixed replies, with no result yet |
| Decision.FunctionCallPassedThrough | ai/agents/instagram_tools/decision.py:87-92 | a function call keeps its name and parameters unchanged |
| Decision.ContentPassedThrough | ai/agents/instagram_tools/decision.py:70-72 | thinking keeps its text; error and unknown replies become `unknown` with their text |
| Decision.VerificationOutcome | ai/agents/instagram_tools/decision.py:75-84 | a verification reply succeeds exactly when its content verifies and fails exactly when it does not; the content is kept |
| Decision.FinalAnswerOutcome | ai/agents/instagram_tools/decision.py:95-103 | a final answer that decodes to a value with a length carries it; one that decodes to a value without a length raises `TypeError`; one that does not decode becomes the fixed error message |
| Decision.MixedCallsLikeItsCallLine | ai/agents/instagram_tools/decision.py:106-122 | a mixed reply calls the same function with the same parameters as its call line parsed alone |
| Decision.EvaluateProgress | ai/agents/instagram_tools/decision.py:129-155 | the counts, the unprocessed targets, both completion flags and the unscored usernames are those of the memory; ready for ranking exactly when nothing is left unprocessed or unscored |
| Action.Round2 | ai/agents/instagram_tools/action.py:50 | rounding to two decimals moves the value by at most half a cent, keeps it on the 0-100 scale and leaves at most two decimals |
| Action.CountField | ai/agents/instagram_tools/action.py:39-41 | a missing count raises `KeyError`; a present number is read as its value |
| Action.RateField | ai/agents/instagram_tools/action.py:40 | the same for the engagement rate |
| Action.ScoreInputs | ai/agents/instagram_tools/action.py:39-41 | the three inputs succeed together or not at all |
| Action.WeightedScoreBounds | ai/agents/instagram_tools/action.py:33-48 | each sub-score is capped at 100, so the score is at most 100; non-negative inputs give a non-negative score |
| Action.WeightedScoreMonotone | ai/agents/instagram_tools/action.py:33-48 | more followers, engagement or posts never lower the score |
| Action.WeightedScoreSaturates | ai/agents/instagram_tools/action.py:39-41 | at 10000 followers, rate 10 and 100 posts the score is exactly 100 |
| Action.CalculateUserScore | ai/agents/instagram_tools/action.py:20-51 | a value holding `error` is returned unchanged; a dict gains exactly `score` and keeps every other entry, or raises when an input is missing or not a number; a list or string raises |
| Action.ScoreOnScale | ai/agents/instagram_tools/action.py:38-50 | a score from non-negative inputs lies in 0-100 with at most two decimals |
| Action.ScoringIsIdempotent | ai/agents/instagram_tools/action.py:20-51 | scoring a scored record again gives the same record |
| Action.Insert | ai/agents/instagram_tools/action.py:63 | insertion adds exactly one record and keeps the others |
| Action.SortByScoreDesc | ai/agents/instagram_tools/action.py:63 | the sort is a permutation of its input |
| Action.SortIsOrdered | ai/agents/instagram_tools/action.py:63 | the sorted list has non-increasing scores, a missing score counting as 0 |
| Action.SortIsStable | ai/agents/instagram_tools/action.py:63 | records with equal scores keep their input order, as Python's stable sort with `reverse=True` does |
| Action.SortKeepsSorted | ai/agents/instagram_tools/action.py:63 | an already ordered list is left unchanged |
| Action.SortIsIdempotent | ai/agents/instagram_tools/action.py:63 | ranking a ranking changes nothing |
| Action.RankUsers | ai/agents/instagram_tools/action.py:53-64 | on a list, success exactly when every item is a dict and, when two or more, every score is absent or a number; the result is an ordered, stable permutation of the input |
| Action.RankRecords | ai/agents/instagram_tools/action.py:63 | on a list of records, success exactly when there is at most one record or every score is comparable; the result is in non-increasing score order, a permutation of the input, and keeps the input order among equal scores |
| Action.ExecuteFunction | ai/agents/instagram_tools/action.py:66-93 | the dispatch by name; an unknown name, an undecodable parameter or any raised exception gives an error record and never propagates |
| Action.RankCallReorders | ai/agents/instagram_tools/action.py:84-87 | a successful ranking call returns a permutation of its input list in non-increasing score order |
| Action.FailedRankIsNotAList | ai/agents/instagram_tools/action.py:84-93 | a failed ranking call returns a one-key error dict, never a list of records |
| Action.FormatIterationResponse | ai/agents/instagram_tools/action.py:95-137 | an action type without its own line gives the unknown-action line |
| Action.CallLineNamesIterationAndFunction | ai/agents/instagram_tools/action.py:114-118 | a function-call line starts with the iteration lead, reads back the iteration number it was written from, and contains the function name |
| Action.FirstUnreportable | ai/agents/instagram_tools/action.py:153-163 | the first item without a username, if any; none exactly when every item has one |
| Action.ReportOfRecords | ai/agents/instagram_tools/action.py:139-165 | the report of records that all have usernames is the header followed by one section per record, numbered from 1 in list order |
| Action.FormatFinalResults | ai/agents/instagram_tools/action.py:139-165 | nothing when not verbose; otherwise the report built by the loop, or the exception of the first item without a username |
| Agent.NameList | ai/agents/instagram_tools/insta_agent.py:104 | the usernames as a Python list: same length, and item k is the string of the k-th username |
| Agent.InitialQuery | ai/agents/instagram_tools/insta_agent.py:104 | the first query is the ranking request followed by `str` of the username list |
| Agent.UnscoredNames | ai/agents/instagram_tools/insta_agent.py:154 | every name is the username of an unscored record, every unscored record that has a username contributes it, and none is lost when every record has one |
| Agent.SteeredQuery | ai/agents/instagram_tools/insta_agent.py:207-212 | after the first iteration and before ranking, the next-step prompt; once ranked and complete, the verification prompt; otherwise the query stays |
| Agent.Subscript | ai/agents/instagram_tools/insta_agent.py:167 | indexing a dict by a present key gives its value; indexing a non-dict raises |
| Agent.Report | ai/agents/instagram_tools/insta_agent.py:193-201 | the ranked list is returned unless the verbose report raises |
| Agent.RunIteration | ai/agents/instagram_tools/insta_agent.py:116-212 | one iteration on a reply updates the memory object to `Iterate`'s memory and ends with `Iterate`'s control, raising when the decision raises |
| Agent.CallIteration | ai/agents/instagram_tools/insta_agent.py:129-186 | a call iteration on the memory object equals `CallStep` |
| Agent.Store | ai/agents/instagram_tools/insta_agent.py:162-186 | storing a tool result on the memory object equals `StoreResult`: metrics upserted, a score attached, a ranking stored, or only the transcript line added |
| Agent.StoreScore | ai/agents/instagram_tools/insta_agent.py:165-171 | storing a score on the memory object equals `ScoreStep` |
| Agent.StoreRanking | ai/agents/instagram_tools/insta_agent.py:172-186 | storing a ranking on the memory object equals the corrected `RankStep` |
| Agent.Conclude | ai/agents/instagram_tools/insta_agent.py:203-212 | the transcript line and query steering on the memory object equal `Finish` |
| Agent.AnalyzeInstagramUsers | ai/agents/instagram_tools/insta_agent.py:88-220 | the loop returns exactly the outcome of `Run` from a fresh memory and the initial query |
| Agent.RankSkippedOnceCompleted | ai/agents/instagram_tools/insta_agent.py:136-143 | after completion a ranking call changes no record and prompts for verification |
| Agent.RankSkippedUntilAllScored | ai/agents/instagram_tools/insta_agent.py:145-156 | while a record is unscored, a ranking call changes no record and the next query names the unscored users |
| Agent.RankStepOrdersRecords | ai/agents/instagram_tools/insta_agent.py:172-186 | a ranking call leaves both sets alone and keeps the records or replaces them by a non-increasing list; it completes ranking only when everything is processed and scored |
| Agent.RankStepStores | ai/agents/instagram_tools/insta_agent.py:172-186 | storing a ranking leaves both sets alone; a value that is not a list of records changes no record and keeps the ranked flag; a list replaces the records; ranking completes only with every target processed and every record scored, and then the model is asked to verify |
| Agent.FailedRankKeepsMemory | ai/agents/instagram_tools/insta_agent.py:172-177 | corrected: a failed ranking call changes no record and does not mark the users ranked |
| Agent.StepKeepsConsistent | ai/agents/instagram_tools/insta_agent.py:159-171 | every iteration other than a ranking keeps the memory consistent |
| Agent.RefetchDropsScore | ai/agents/instagram_tools/insta_agent.py:163-164 | fetching a held, scored user again replaces their record by the fetched one, which has no `score`, while the user stays in the scored set |
| Agent.ReturnsOnlyOnAnswers | ai/agents/instagram_tools/insta_agent.py:124-201 | an iteration on a reply returns only when the decision succeeds with a verified answer (with the memory's records) or a final answer (with the decoded value, which has a length), and an iteration that stops changes no memory |
| Agent.StepReturnsOnlyOnAnswers | ai/agents/instagram_tools/insta_agent.py:188-201 | the same for the step taken on a decision already made |
| Agent.RaisesOnlyOnScoresOrReport | ai/agents/instagram_tools/insta_agent.py:124-201 | an iteration on a reply raises only when the decision raises (and then changes no memory), when storing a score fails or when the verbose report fails; thinking, failed verification, error and unknown actions always continue |
| Agent.StepRaisesOnlyOnScoresOrReport | ai/agents/instagram_tools/insta_agent.py:165-201 | the same for the step taken on a decision already made |
| Agent.StepMonotone | ai/agents/instagram_tools/insta_agent.py:116-212 | every step keeps the transcript, adds at most one line and never undoes a completed ranking or the ranked flag |
| Agent.IterateMonotone | ai/agents/instagram_tools/insta_agent.py:116-212 | the same for an iteration on a reply, including one whose decision raises |
| Agent.IterateOnMonotone | ai/agents/instagram_tools/insta_agent.py:116-212 | the same once the decision is made, whether it raised or not |
| Agent.ScoreStepAddsItsLine | ai/agents/instagram_tools/insta_agent.py:165-171 | a stored score that goes on adds exactly the iteration's formatted line |
| Agent.StoreAddsItsLine | ai/agents/instagram_tools/insta_agent.py:159-186 | a stored tool result that goes on without completing the ranking adds exactly the iteration's formatted line |
| Agent.StepAddsItsLine | ai/agents/instagram_tools/insta_agent.py:203-205 | an iteration that goes on, whose ranking call is not skipped and which does not complete the ranking, adds exactly its own line, formatted from its action type and its parameters with the call's result filled in |
| Agent.RankPromptIsOverwritten | ai/agents/instagram_tools/insta_agent.py:170-171 | after the first iteration and before ranking, the prompt to rank set by scoring is always replaced by the next-step prompt |
| Agent.RunMonotone | ai/agents/instagram_tools/insta_agent.py:111-220 | across the remaining iterations the transcript grows by at most one line each and a completed ranking stays completed |
| Agent.NoIterationsReturnsEmpty | ai/agents/instagram_tools/insta_agent.py:111-220 | with no iterations allowed the empty list is returned without asking the model |
| Agent.RunTranscriptBound | ai/agents/instagram_tools/insta_agent.py:111-220 | a run leaves at most one transcript line per allowed iteration |
| Agent.AllScoredOverRecords | ai/agents/instagram_tools/memory.py:153-160 | on a real list of records the as-written completion test agrees with `AllScored` |
| Agent.FailedRankRaisesAsWritten | ai/agents/instagram_tools/insta_agent.py:172-177 | as written, a failed ranking call with every target processed makes the completion test raise |
| Agent.SuccessfulRankAgrees | ai/agents/instagram_tools/insta_agent.py:172-177 | as written and corrected, a successful ranking reaches the same completion test |
| Agent.FailedRankExample | ai/agents/instagram_tools/insta_agent.py:172-177 | as written, the concrete input below makes the completion test raise `AttributeError` |

## Left out

- The system prompt, its assembly with the query and context, and the Gemini client setup (perception.py:20-30 and 92-116) are left out. The model call is a parameter that gets the iteration, the query and the context.
- Logging, the verbose progress prints, and `time.sleep` with random delays have no effect on the results, so they are left out. The one exception is the `len` in the final-answer log line (decision.py:98), which is modelled because it can raise.
- The Instagram client is left out: `configure`, session validation, `user_id_by_username`, the followers, following and media fetchers, and `_calculate_engagement_rate`. Its outcome is a parameter: a fetched profile with its engagement rate (none when computing the rate raised), or the failure text.
- InstagramTools.UserInfoByUsername: the login-retry path is folded into that one outcome.
- InstagramTools.ConvertInstagramProfilePicUrl: the `except` branch is not modelled, because `split` and `replace` cannot raise on a string.
- Action.Round2: works on exact reals with round-half-even. Binary floating point, and the representation error it brings, is not modelled.
- Action.CalculateUserScore: the exception texts are approximations of CPython's messages.
- Action.CalculateUserScore: does not model the mutation of the caller's dict. A new dict is returned, and aliasing is not modelled. The orchestrator only uses the returned value.
- Action.RankUsers: scores are compared as numbers. Python could also sort lists whose scores are all strings (by code point) or all lists (lexicographically, as long as the elements met along the way compare). The model treats both as an error.
- Action.RankRecords: the same restriction for all-string and all-list scores, since it is the sort inside Action.RankUsers.
- Memory.ScoredAfterStore: the scored set is a `set<Json>` that accepts any username. `scored_users.add` (memory.py:62) raises `TypeError: unhashable type` for a list or dict username, and that exception is not modelled.
- Memory.Unscored: the `not in scored_users` test (memory.py:139) raises `TypeError: unhashable type` on a record whose username is a list or dict. That exception is not modelled: the model's membership test always answers.
- Memory.AllScored: the same for the `in scored_users` test of memory.py:160, which stops at the first record whose username is unscored or unhashable.
- Memory.AgentMemory.StoreUserScore, Memory.AgentMemory.GetUnscoredUsers and Memory.AgentMemory.AllUsersScored inherit that gap from the three functions above.
- Agent.RankStep, Agent.ScoreStep, Agent.Finish and Agent.CallStep: a record with a list or dict username can only enter the memory through a successful `rank_users` store. Once it is there, the completion tests at insta_agent.py:147, 170, 177 and 210 raise `TypeError` in the source, while the model goes on. An example is a scored target `a` followed by `FUNCTION_CALL: rank_users|[{"username": ["a"], "score": 1}]`.
- RaisesOnlyOnScoresOrReport (Agent.RaisesOnlyOnScoresOrReport) and StepRaisesOnlyOnScoresOrReport (Agent.StepRaisesOnlyOnScoresOrReport): they hold for the model, which lacks that `TypeError`. In the source, an iteration can also raise on a ranking, a fetch or any other step's completion test once such a record is held.
- Python's numeric equalities (`1 == 1.0 == True`) are not modelled. `Json` values compare structurally, except that bools and ints count as numbers when scoring.
- Pydantic's lax coercions (for example the string "5" accepted as an int) are not modelled. The schema check is strict-typed.
- Dict and set iteration order is not modelled. The processed and scored name lists in the context are sets.
- Decision.DetermineNextAction: the source returns a tuple of a type and a dict, while the orchestrator reads `.action_type` and `.action_params` from it. The model uses the `DecisionOutput` shape the orchestrator expects, with mixed, error and unknown parameter variants. The source's models lack those variants. A mixed reply is treated like a function call in the `isinstance` test.
- Agent.RunIteration: the `verification_success` branch tests `action_params.success`. `VerificationActionParams` has no such field. The model takes a successful verification as success.
- Agent.RunIteration: after the failed ranking of the Finding below, the model follows the corrected behaviour. It does not model the later iterations of a memory whose record list holds an error dict.
- Decision.VerifyJsonOutput, Action.FinalReport, Agent.Decide, Agent.Finish, Agent.ScoreStep, Agent.RankStep, Agent.StoreResult, Agent.CallStep, Agent.StepSpec, Agent.Iterate, Agent.IterateOn, Agent.RunFrom, Agent.Run and Agent.RankStepAsWritten are specification functions without a contract of their own. What they promise is stated by the lemmas and methods about them in the table above, so they have no row.
- Accessors without a property of their own (`get_all_users_metrics`, `get_iteration_responses`, `get_context_dict`) are modelled as plain functions and have no row.
- The `FunctionResult` models (models.py:141-158) are not used by the core and are not modelled.

## Findings

| source | as written | input that shows it | evidently intended | confidence | as-written member | corrected member |
|---|---|---|---|---|---|---|
| ai/agents/instagram_tools/insta_agent.py:172-177 | A `rank_users` call stores its result with `update_users_list` and sets `users_ranked`, even when the tool returned an error record. The completion test then iterates that dict's keys and calls `.get` on a string, which raises `AttributeError`. | Targets `["a"]`, with "a" fetched and scored. The reply is `FUNCTION_CALL: rank_users`, then a pipe character, then `not json`. | A failed ranking leaves the records and the ranked flag alone, and the model is asked again. | not executed | Agent.FailedRankRaisesAsWritten, Agent.FailedRankExample | Agent.FailedRankKeepsMemory (on Agent.RankStep) |

=== FILE: action.dfy ===
/**
 * The action layer: the scoring and ranking tools the agent can call, the
 * dispatcher that runs them by name and turns every exception into an
 * error record, and the transcript and report formatters.
 *
 * The library calls the layer makes are the fields of `Host`: `json.loads`,
 * `json.dumps`, `str()` on a value, and the Instagram fetch.
 */
module Action {
  import opened Wrappers
  import opened PyStr
  import opened Models
  import opened InstagramTools

  /** The library behaviour the action layer depends on. */
  datatype Host = Host(
    loads: string -> Result<Json, string>,
    dumps: Json -> string,
    str: Json -> string,
    fetch: string -> FetchResult)

  // ---- calculate_user_score (action.py lines 20-51) ----

  /**
   * `round(x, 2)`: the nearest multiple of 0.01, a tie going to the even
   * multiple.
   */
  function Round2(x: real): (r: real)
    ensures -0.005 <= r - x <= 0.005
    ensures 0.0 <= x ==> 0.0 <= r
    ensures x <= 100.0 ==> r <= 100.0
    ensures (r * 100.0).Floor as real == r * 100.0
  {
    var y := x * 100.0;
    var n := y.Floor;
    var frac := y - n as real;
    var m := if frac < 0.5 then n else if frac > 0.5 then n + 1 else if n % 2 == 0 then n else n + 1;
    assert -0.5 <= m as real - y <= 0.5;
    assert 0.0 <= x ==> 0 <= n;
    assert x <= 100.0 ==> n <= 10000 && (n == 10000 ==> frac == 0.0);
    var r := m as real / 100.0;
    assert r * 100.0 == m as real;
    assert r - x == (m as real - y) / 100.0;
    r
  }

  /** `min(100, v)` */
  function Cap(v: real): (r: real)
    ensures r <= 100.0 && r <= v
    ensures r == v || r == 100.0
  {
    if v < 100.0 then v else 100.0
  }

  const FollowersWeight := 0.4
  const EngagementWeight := 0.5
  const MediaCountWeight := 0.1

  function FollowersSubScore(followers: real): real { Cap(followers / 1000.0 * 10.0) }
  function EngagementSubScore(rate: real): real { Cap(rate * 10.0) }
  function MediaSubScore(media: real): real { Cap(media / 10.0 * 10.0) }

  /** The weighted sum of the three capped sub-scores, before rounding. */
  function WeightedScore(followers: real, rate: real, media: real): real {
    FollowersSubScore(followers) * FollowersWeight
    + EngagementSubScore(rate) * EngagementWeight
    + MediaSubScore(media) * MediaCountWeight
  }

  /** Every sub-score is at most 100, so the score is at most 100; non-negative inputs give a non-negative score. */
  lemma WeightedScoreBounds(followers: real, rate: real, media: real)
    ensures FollowersSubScore(followers) <= 100.0 && EngagementSubScore(rate) <= 100.0 && MediaSubScore(media) <= 100.0
    ensures WeightedScore(followers, rate, media) <= 100.0
    ensures 0.0 <= followers && 0.0 <= rate && 0.0 <= media ==> 0.0 <= WeightedScore(followers, rate, media)
  {
  }

  /** More followers, engagement or media never lower the score. */
  lemma WeightedScoreMonotone(f1: real, r1: real, m1: real, f2: real, r2: real, m2: real)
    requires f1 <= f2 && r1 <= r2 && m1 <= m2
    ensures WeightedScore(f1, r1, m1) <= WeightedScore(f2, r2, m2)
  {
  }

  /** Past 10000 followers, a rate of 10 and 100 posts, every sub-score is capped: the score is 100. */
  lemma WeightedScoreSaturates(followers: real, rate: real, media: real)
    requires followers >= 10000.0 && rate >= 10.0 && media >= 100.0
    ensures WeightedScore(followers, rate, media) == 100.0
  {
  }

  /** A count field read for the score: missing raises KeyError; a non-number raises TypeError at the division. */
  function CountField(d: Dict, key: string): (r: Result<real, Fault>)
    ensures r.Ok? <==> key in d && NumberValue(d[key]).Some?
    ensures r.Ok? ==> Some(r.value) == NumberValue(d[key])
    ensures key !in d ==> r == Err(KeyError(key))
  {
    if key !in d then Err(KeyError(key))
    else match NumberValue(d[key])
      case Some(v) => Ok(v)
      case None => Err(TypeError("unsupported operand type(s) for /: '" + TypeName(d[key]) + "' and 'int'"))
  }

  /**
   * The engagement rate read for the score: a str or list survives `* 10`
   * (repetition) and fails at the comparison inside `min`; anything else
   * that is not a number fails at the multiplication.
   */
  function RateField(d: Dict): (r: Result<real, Fault>)
    ensures r.Ok? <==> "engagement_rate" in d && NumberValue(d["engagement_rate"]).Some?
    ensures r.Ok? ==> Some(r.value) == NumberValue(d["engagement_rate"])
    ensures "engagement_rate" !in d ==> r == Err(KeyError("engagement_rate"))
  {
    if "engagement_rate" !in d then Err(KeyError("engagement_rate"))
    else
      var v := d["engagement_rate"];
      match NumberValue(v)
      case Some(x) => Ok(x)
      case None =>
        if v.JStr? || v.JArr? then Err(TypeError("'<' not supported between instances of '" + TypeName(v) + "' and 'int'"))
        else Err(TypeError("unsupported operand type(s) for *: '" + TypeName(v) + "' and 'int'"))
  }

  /** The three inputs of the score, read in the order the source reads them. */
  function ScoreInputs(d: Dict): (r: Result<(real, real, real), Fault>)
    ensures r.Ok? <==> CountField(d, "followers_count").Ok? && RateField(d).Ok? && CountField(d, "media_count").Ok?
    ensures r.Ok? ==> r.value == (CountField(d, "followers_count").value, RateField(d).value, CountField(d, "media_count").value)
  {
    match CountField(d, "followers_count")
    case Err(e) => Err(e)
    case Ok(f) =>
      match RateField(d)
      case Err(e) => Err(e)
      case Ok(e) =>
        match CountField(d, "media_count")
        case Err(e) => Err(e)
        case Ok(m) => Ok((f, e, m))
  }

  /** The score `calculate_user_score` stores for a dict whose three inputs are numbers. */
  function ScoreOf(d: Dict): real
    requires ScoreInputs(d).Ok?
  {
    var (f, e, m) := ScoreInputs(d).value;
    Round2(WeightedScore(f, e, m))
  }

  /**
   * `calculate_user_score`. A value that holds `error` (`"error" in metrics`)
   * is returned unchanged; a dict without it gains exactly one key,
   * `score`, every other entry kept; a missing or non-numeric input, or a
   * value on which `in` or indexing by a key fails, raises.
   */
  function CalculateUserScore(metrics: Json): (r: Result<Json, Fault>)
    ensures PyIn("error", metrics) == Ok(true) ==> r == Ok(metrics)
    ensures PyIn("error", metrics).Err? ==> r.Err?
    ensures metrics.JObj? && "error" !in metrics.fields ==>
              (r.Ok? <==> ScoreInputs(metrics.fields).Ok?)
    ensures metrics.JObj? && "error" !in metrics.fields && r.Ok? ==>
              && r.value.JObj?
              && r.value.fields.Keys == metrics.fields.Keys + {"score"}
              && (forall k :: k in metrics.fields && k != "score" ==> r.value.fields[k] == metrics.fields[k])
              && r.value.fields["score"] == JReal(ScoreOf(metrics.fields))
    ensures (metrics.JArr? || metrics.JStr?) && PyIn("error", metrics) == Ok(false) ==> r.Err?
  {
    match PyIn("error", metrics)
    case Err(e) => Err(e)
    case Ok(hasError) =>
      if hasError then Ok(metrics)
      else match metrics
        case JObj(d) =>
          (match ScoreInputs(d)
           case Err(e) => Err(e)
           case Ok(_) => Ok(JObj(d["score" := JReal(ScoreOf(d))])))
        case JStr(_) => Err(TypeError("string indices must be integers, not 'str'"))
        case JArr(_) => Err(TypeError("list indices must be integers or slices, not str"))
        case _ => Err(TypeError("'" + TypeName(metrics) + "' object is not subscriptable"))
  }

  /** A score computed from non-negative counts and rate lies on the 0-100 scale and has at most two decimals. */
  lemma ScoreOnScale(d: Dict)
    requires ScoreInputs(d).Ok?
    requires ScoreInputs(d).value.0 >= 0.0 && ScoreInputs(d).value.1 >= 0.0 && ScoreInputs(d).value.2 >= 0.0
    ensures 0.0 <= ScoreOf(d) <= 100.0
    ensures (ScoreOf(d) * 100.0).Floor as real == ScoreOf(d) * 100.0
  {
    var (f, e, m) := ScoreInputs(d).value;
    WeightedScoreBounds(f, e, m);
  }

  /** Scoring an already scored dict again gives the same dict: the score depends only on the other fields. */
  lemma {:induction false} ScoringIsIdempotent(metrics: Json)
    requires CalculateUserScore(metrics).Ok?
    ensures CalculateUserScore(CalculateUserScore(metrics).value) == CalculateUserScore(metrics)
  {
    var r := CalculateUserScore(metrics).value;
    if metrics.JObj? && "error" !in metrics.fields {
      var d := metrics.fields;
      var d2 := r.fields;
      assert d2 == d["score" := JReal(ScoreOf(d))];
      assert "error" !in d2;
      assert CountField(d2, "followers_count") == CountField(d, "followers_count");
      assert RateField(d2) == RateField(d);
      assert CountField(d2, "media_count") == CountField(d, "media_count");
      assert ScoreOf(d2) == ScoreOf(d);
      assert d2["score" := JReal(ScoreOf(d2))] == d2;
    }
  }

  // ---- rank_users (action.py lines 53-64) ----

  /** `x.get("score", 0)` as a number; a present non-number counts as 0 here and is rejected by `RankUsers`. */
  function ScoreKey(u: Dict): real {
    match NumberValue(GetOr(u, "score", JInt(0)))
    case Some(v) => v
    case None => 0.0
  }

  /** The score of a record is absent or a number. */
  predicate HasSortableScore(u: Dict) {
    NumberValue(GetOr(u, "score", JInt(0))).Some?
  }

  predicate NonIncreasing(s: seq<Dict>) {
    forall i, j :: 0 <= i < j < |s| ==> ScoreKey(s[i]) >= ScoreKey(s[j])
  }

  /** Each record's score is at least the next one's. */
  predicate Ordered(s: seq<Dict>) {
    |s| <= 1 || (ScoreKey(s[0]) >= ScoreKey(s[1]) && Ordered(s[1..]))
  }

  /** Ordered neighbours make the whole list non-increasing. */
  lemma {:induction false} OrderedIsNonIncreasing(s: seq<Dict>)
    requires Ordered(s)
    ensures NonIncreasing(s)
  {
    if |s| > 1 {
      OrderedIsNonIncreasing(s[1..]);
      forall i, j | 0 <= i < j < |s|
        ensures ScoreKey(s[i]) >= ScoreKey(s[j])
      {
        if i == 0 {
          if j > 1 {
            assert ScoreKey(s[1..][0]) >= ScoreKey(s[1..][j - 1]);
          }
        } else {
          assert ScoreKey(s[1..][i - 1]) >= ScoreKey(s[1..][j - 1]);
        }
      }
    }
  }

  /** `u` placed before the first record of `s` whose key does not exceed its own. */
  function Insert(u: Dict, s: seq<Dict>): (r: seq<Dict>)
    ensures multiset(r) == multiset(s) + multiset{u}
    ensures |r| == |s| + 1
    ensures r[0] == u || (s != [] && r[0] == s[0])
  {
    if s == [] || ScoreKey(u) >= ScoreKey(s[0]) then [u] + s
    else
      var rest := Insert(u, s[1..]);
      assert s == [s[0]] + s[1..];
      assert multiset([s[0]] + rest) == multiset{s[0]} + multiset(rest);
      [s[0]] + rest
  }

  /** Inserting into an ordered list keeps it ordered. */
  lemma {:induction false} InsertKeepsOrder(u: Dict, s: seq<Dict>)
    requires Ordered(s)
    ensures Ordered(Insert(u, s))
  {
    if s != [] && ScoreKey(u) < ScoreKey(s[0]) {
      InsertKeepsOrder(u, s[1..]);
      var rest := Insert(u, s[1..]);
      assert ([s[0]] + rest)[1..] == rest;
    } else {
      assert ([u] + s)[1..] == s;
    }
  }

  /**
   * `sorted(users, key=lambda x: x.get("score", 0), reverse=True)`: a
   * permutation of its input, non-increasing by score.
   */
  function SortByScoreDesc(s: seq<Dict>): (r: seq<Dict>)
    ensures multiset(r) == multiset(s) && |r| == |s|
  {
    if s == [] then []
    else
      assert s == [s[0]] + s[1..];
      Insert(s[0], SortByScoreDesc(s[1..]))
  }

  lemma {:induction false} SortIsOrderedNeighbours(s: seq<Dict>)
    ensures Ordered(SortByScoreDesc(s))
  {
    if s != [] {
      SortIsOrderedNeighbours(s[1..]);
      InsertKeepsOrder(s[0], SortByScoreDesc(s[1..]));
    }
  }

  /** The ranking is ordered by non-increasing score. */
  lemma SortIsOrdered(s: seq<Dict>)
    ensures NonIncreasing(SortByScoreDesc(s))
  {
    SortIsOrderedNeighbours(s);
    OrderedIsNonIncreasing(SortByScoreDesc(s));
  }

  /** The records of `s` whose key is `k`, in their order in `s`. */
  function WithKey(s: seq<Dict>, k: real): (r: seq<Dict>)
    ensures |r| <= |s|
  {
    if s == [] then []
    else if ScoreKey(s[0]) == k then [s[0]] + WithKey(s[1..], k)
    else WithKey(s[1..], k)
  }

  lemma {:induction false} WithKeyInsert(u: Dict, s: seq<Dict>, k: real)
    ensures WithKey(Insert(u, s), k) == if ScoreKey(u) == k then [u] + WithKey(s, k) else WithKey(s, k)
  {
    if s == [] || ScoreKey(u) >= ScoreKey(s[0]) {
      assert ([u] + s)[1..] == s;
    } else {
      WithKeyInsert(u, s[1..], k);
      assert ([s[0]] + Insert(u, s[1..]))[1..] == Insert(u, s[1..]);
    }
  }

  /** The sort is stable: records with equal scores keep their input order. */
  lemma {:induction false} SortIsStable(s: seq<Dict>, k: real)
    ensures WithKey(SortByScoreDesc(s), k) == WithKey(s, k)
  {
    if s != [] {
      SortIsStable(s[1..], k);
      WithKeyInsert(s[0], SortByScoreDesc(s[1..]), k);
    }
  }

  /** A list that is already in order is left as it is. */
  lemma {:induction false} SortKeepsSorted(s: seq<Dict>)
    requires NonIncreasing(s)
    ensures SortByScoreDesc(s) == s
  {
    if s != [] {
      assert NonIncreasing(s[1..]);
      SortKeepsSorted(s[1..]);
      assert s == [s[0]] + s[1..];
    }
  }

  /** Ranking a ranked list changes nothing. */
  lemma SortIsIdempotent(s: seq<Dict>)
    ensures SortByScoreDesc(SortByScoreDesc(s)) == SortByScoreDesc(s)
  {
    SortIsOrdered(s);
    SortKeepsSorted(SortByScoreDesc(s));
  }

  /** The first element that is not a dict, if any. */
  function FirstNonDict(items: seq<Json>): (r: Option<nat>)
    ensures r.None? <==> forall k :: 0 <= k < |items| ==> items[k].JObj?
    ensures r.Some? ==> r.value < |items| && !items[r.value].JObj?
  {
    if items == [] then None
    else if !items[0].JObj? then Some(0)
    else match FirstNonDict(items[1..])
      case None => None
      case Some(k) => Some(k + 1)
  }

  /**
   * The sort of `rank_users` on a list of records: one record or none is
   * returned as it is; otherwise every score must be comparable, and the
   * records come back in non-increasing score order, a permutation that
   * keeps the order of the records of each score.
   */
  function RankRecords(users: seq<Dict>): (r: Result<seq<Dict>, Fault>)
    ensures r.Ok? <==> |users| <= 1 || forall k :: 0 <= k < |users| ==> HasSortableScore(users[k])
    ensures r.Ok? ==> && NonIncreasing(r.value) && multiset(r.value) == multiset(users)
                      && forall k :: WithKey(r.value, k) == WithKey(users, k)
  {
    if |users| <= 1 then
      Ok(users)
    else if forall k :: 0 <= k < |users| ==> HasSortableScore(users[k]) then
      SortIsOrdered(users);
      assert forall k :: WithKey(SortByScoreDesc(users), k) == WithKey(users, k) by {
        forall k ensures WithKey(SortByScoreDesc(users), k) == WithKey(users, k) {
          SortIsStable(users, k);
        }
      }
      Ok(SortByScoreDesc(users))
    else Err(TypeError("'<' not supported between the scores of the ranked users"))
  }

  /**
   * `rank_users` on the decoded parameter. Every element must be a dict,
   * since the key is computed for each; with two or more, the scores are
   * compared, so each must be absent or a number. An empty dict or an
   * empty string iterates as nothing.
   */
  function RankUsers(usersList: Json): (r: Result<seq<Dict>, Fault>)
    ensures r.Ok? ==> NonIncreasing(r.value)
    ensures r.Ok? && !usersList.JArr? ==> r.value == []
    ensures usersList.JArr? ==>
              (r.Ok? <==> && AsDictList(usersList).Some?
                          && (|usersList.items| <= 1 || forall k :: 0 <= k < |usersList.items| ==> HasSortableScore(usersList.items[k].fields)))
    ensures r.Ok? && usersList.JArr? ==>
              && AsDictList(usersList).Some?
              && multiset(r.value) == multiset(AsDictList(usersList).value)
              && forall k :: WithKey(r.value, k) == WithKey(AsDictList(usersList).value, k)
  {
    match usersList
    case JArr(items) =>
      (match AsDictList(usersList)
       case None =>
         var k := FirstNonDict(items).value;
         Err(AttributeError("'" + TypeName(items[k]) + "' object has no attribute 'get'"))
       case Some(users) =>
         assert forall k :: 0 <= k < |items| ==> items[k].fields == users[k];
         RankRecords(users))
    case JObj(m) => if m == map[] then Ok([]) else Err(AttributeError("'str' object has no attribute 'get'"))
    case JStr(s) => if s == [] then Ok([]) else Err(AttributeError("'str' object has no attribute 'get'"))
    case _ => Err(TypeError("'" + TypeName(usersList) + "' object is not iterable"))
  }

  // ---- execute_function (action.py lines 66-93) ----

  /** The record every failure is reported in. */
  function ErrorRecord(message: string): Json {
    JObj(map["error" := JStr(message)])
  }

  /** The reported form of an exception raised by `name`. */
  function ExecutionError(name: string, reason: string): Json {
    ErrorRecord("Error executing " + name + ": " + reason)
  }

  /** The names `execute_function` dispatches on. */
  const KnownFunctions: set<string> := {"get_user_metrics", "calculate_user_score", "rank_users"}

  /**
   * `execute_function`: run the named tool on its parameter text. An
   * unknown name gives an error record naming it; any exception inside a
   * tool (a decode error, a KeyError, a TypeError) gives an error record
   * naming the function and the exception, and never propagates.
   */
  function ExecuteFunction(name: string, params: string, host: Host): (r: Json)
    ensures name !in KnownFunctions ==> r == ErrorRecord("Unknown function " + name)
    ensures name == "get_user_metrics" ==> r == JObj(UserInfoByUsername(params, host.fetch(params)))
    ensures name == "calculate_user_score" ==>
              match host.loads(params)
              case Err(msg) => r == ExecutionError(name, msg)
              case Ok(v) => match CalculateUserScore(v)
                            case Err(f) => r == ExecutionError(name, FaultText(f))
                            case Ok(scored) => r == scored
    ensures name == "rank_users" ==>
              match host.loads(params)
              case Err(msg) => r == ExecutionError(name, msg)
              case Ok(v) => match RankUsers(v)
                            case Err(f) => r == ExecutionError(name, FaultText(f))
                            case Ok(users) => r == DictList(users)
  {
    if name == "get_user_metrics" then JObj(UserInfoByUsername(params, host.fetch(params)))
    else if name == "calculate_user_score" then
      match host.loads(params)
      case Err(msg) => ExecutionError(name, msg)
      case Ok(v) =>
        (match CalculateUserScore(v)
         case Err(f) => ExecutionError(name, FaultText(f))
         case Ok(scored) => scored)
    else if name == "rank_users" then
      match host.loads(params)
      case Err(msg) => ExecutionError(name, msg)
      case Ok(v) =>
        (match RankUsers(v)
         case Err(f) => ExecutionError(name, FaultText(f))
         case Ok(users) => DictList(users))
    else ErrorRecord("Unknown function " + name)
  }

  /** A successful `rank_users` call returns its input list reordered, by non-increasing score. */
  lemma RankCallReorders(params: string, host: Host)
    requires host.loads(params).Ok? && host.loads(params).value.JArr?
    requires RankUsers(host.loads(params).value).Ok?
    ensures var r := ExecuteFunction("rank_users", params, host);
            && AsDictList(r).Some?
            && multiset(AsDictList(r).value) == multiset(AsDictList(host.loads(params).value).value)
            && NonIncreasing(AsDictList(r).value)
  {
    DictListRoundTrip(RankUsers(host.loads(params).value).value);
  }

  /** A failed tool call never yields a list, so it can be told apart from a ranking. */
  lemma FailedRankIsNotAList(params: string, host: Host)
    requires host.loads(params).Err? || RankUsers(host.loads(params).value).Err?
    ensures var r := ExecuteFunction("rank_users", params, host);
            r.JObj? && r.fields.Keys == {"error"} && AsDictList(r).None?
  {
  }

  // ---- format_iteration_response (action.py lines 95-137) ----

  /** An f-string field that may be `None`. */
  function OrNone(s: Option<string>): string {
    match s
    case Some(v) => v
    case None => "None"
  }

  /** `action_result.get(key)` on the dict form of the parameters, for the text fields. */
  function TextField(p: ActionParams, key: string): Option<string> {
    match p
    case ThinkingActionParams(c) => if key == "content" then Some(c) else None
    case VerificationActionParams(c) => if key == "content" then Some(c) else None
    case UnknownActionParams(c) => if key == "content" then Some(c) else None
    case ErrorActionParams(m) => if key == "message" then Some(m) else None
    case FunctionCallActionParams(f, ps, _) =>
      if key == "function" then Some(f) else if key == "params" then Some(ps) else None
    case MixedActionParams(t, f, ps, _) =>
      if key == "thinking" then Some(t) else if key == "function" then Some(f) else if key == "params" then Some(ps) else None
    case FinalAnswerActionParams(_) => None
  }

  /** `action_result.get("result", {})`: the call's result, `None` before it is filled in. */
  function ResultField(p: ActionParams): Json {
    if (p.FunctionCallActionParams? || p.MixedActionParams?) && p.result.Some? then p.result.value
    else if p.FunctionCallActionParams? || p.MixedActionParams? then JNull
    else JObj(map[])
  }

  /** What follows the iteration number in the transcript sentence for a function call. */
  function CallTail(p: ActionParams, dumps: Json -> string): string {
    " you called " + OrNone(TextField(p, "function")) + " with " + OrNone(TextField(p, "params"))
    + " parameters, and the function returned " + dumps(ResultField(p)) + "."
  }

  /** The transcript sentence for a function call. */
  function CallSentence(iteration: int, p: ActionParams, dumps: Json -> string): string {
    "In iteration " + IntToString(iteration) + CallTail(p, dumps)
  }

  /** The action types that have their own transcript line. */
  const FormattedTypes: set<string> := {
    "thinking", "function_call", "verification_success", "verification_failed", "mixed", "error"}

  /** `format_iteration_response`: the transcript line for one iteration's action. */
  function FormatIterationResponse(iteration: int, actionType: string, p: ActionParams, dumps: Json -> string): (r: string)
    ensures actionType !in FormattedTypes ==> r == "Unknown action type: " + actionType
  {
    if actionType == "thinking" then "You thought: " + OrNone(TextField(p, "content"))
    else if actionType == "function_call" then CallSentence(iteration, p, dumps)
    else if actionType == "verification_success" then
      "You verified: " + OrNone(TextField(p, "content")) + " + proceed with FINAL ANSWER"
    else if actionType == "verification_failed" then "Verification failed: " + OrNone(TextField(p, "content"))
    else if actionType == "mixed" then
      "You thought: " + OrNone(TextField(p, "thinking")) + "\n" + CallSentence(iteration, p, dumps)
    else if actionType == "error" then "Error occurred: " + OrNone(TextField(p, "message"))
    else "Unknown action type: " + actionType
  }

  const IterationLead := "In iteration "

  /** A word without spaces, followed by a space, is what comes before the first space. */
  lemma BeforeFirstSpace(word: string, rest: string)
    requires ' ' !in word && rest != [] && rest[0] == ' '
    ensures Before(word + rest, ' ') == word
  {
    var s := word + rest;
    assert s[..|word|] == word;
    FindCharAt(s, ' ', |word|);
  }

  /** The middle part of a three-part concatenation occurs where the first part ends. */
  lemma OccursInMiddle(a: string, m: string, b: string)
    ensures OccursAt(a + m + b, m, |a|)
  {
    assert (a + m + b)[|a|..|a| + |m|] == m;
  }

  /** The transcript line of a function call, cut at the iteration number and around the function name. */
  lemma CallLineParts(iteration: int, p: ActionParams, dumps: Json -> string)
    requires p.FunctionCallActionParams?
    ensures var line := FormatIterationResponse(iteration, "function_call", p, dumps);
            && line == IterationLead + IntToString(iteration) + CallTail(p, dumps)
            && CallTail(p, dumps) == " you called " + p.funcName + CallRest(p, dumps)
  {
  }

  /** What follows the function name in the transcript sentence for a function call. */
  function CallRest(p: ActionParams, dumps: Json -> string): string {
    " with " + OrNone(TextField(p, "params")) + " parameters, and the function returned " + dumps(ResultField(p)) + "."
  }

  /** A sentence made of the lead, a word without spaces and a call tail reads back the word and the name. */
  lemma SentenceReadsBack(n: string, f: string, rest: string)
    requires ' ' !in n
    ensures var line := IterationLead + n + " you called " + f + rest;
            && StartsWith(line, IterationLead)
            && Before(line[|IterationLead|..], ' ') == n
            && Contains(line, f)
  {
    var tail := " you called " + f + rest;
    var line := IterationLead + n + " you called " + f + rest;
    assert StartsWith(line, IterationLead) by {
      assert line[..|IterationLead|] == IterationLead;
    }
    assert Before(line[|IterationLead|..], ' ') == n by {
      assert line[|IterationLead|..] == n + tail;
      BeforeFirstSpace(n, tail);
    }
    OccursInMiddle(IterationLead + n + " you called ", f, rest);
  }

  /**
   * The line of a function call names its iteration, which reads back as
   * the number it was written from, and the function it called.
   */
  lemma CallLineNamesIterationAndFunction(iteration: int, p: ActionParams, dumps: Json -> string)
    requires p.FunctionCallActionParams?
    ensures var line := FormatIterationResponse(iteration, "function_call", p, dumps);
            && StartsWith(line, IterationLead)
            && ParseInt(Before(line[|IterationLead|..], ' ')) == Some(iteration)
            && Contains(line, p.funcName)
  {
    var line := FormatIterationResponse(iteration, "function_call", p, dumps);
    var n := IntToString(iteration);
    var rest := CallRest(p, dumps);
    assert line == IterationLead + n + " you called " + p.funcName + rest by {
      CallLineParts(iteration, p, dumps);
    }
    assert Before(line[|IterationLead|..], ' ') == n by {
      SentenceReadsBack(n, p.funcName, rest);
    }
    assert ParseInt(n) == Some(iteration) by {
      IntToStringRoundTrip(iteration);
    }
    SentenceReadsBack(n, p.funcName, rest);
  }

  // ---- format_final_results (action.py lines 139-165) ----

  const ReportHeader := "\n=== Agent Execution Complete ===\n" + "\n# Instagram User Ranking Results\n"

  /** What `for user in ranked_users` iterates over, or the exception when the value cannot be iterated. */
  function Iterated(v: Json): Result<seq<Json>, Fault> {
    match v
    case JArr(items) => Ok(items)
    case JObj(m) =>
      if m == map[] then Ok([]) else Err(TypeError("string indices must be integers, not 'str'"))
    case JStr(s) =>
      if s == [] then Ok([]) else Err(TypeError("string indices must be integers, not 'str'"))
    case _ => Err(TypeError("'" + TypeName(v) + "' object is not iterable"))
  }

  /** An item `user['username']` succeeds on. */
  predicate Reportable(user: Json) {
    user.JObj? && "username" in user.fields
  }

  /** The exception `user['username']` raises on an item that is not reportable. */
  function ItemFault(user: Json): Fault
    requires !Reportable(user)
  {
    match user
    case JObj(_) => KeyError("username")
    case JStr(_) => TypeError("string indices must be integers, not 'str'")
    case JArr(_) => TypeError("list indices must be integers or slices, not str")
    case _ => TypeError("'" + TypeName(user) + "' object is not subscriptable")
  }

  /** `user.get(key, 'N/A')` in an f-string. */
  function FieldOrNA(user: Dict, key: string, str: Json -> string): string {
    if key in user then str(user[key]) else "N/A"
  }

  /** The report section of the `rank`-th user. */
  function Section(rank: int, user: Json, str: Json -> string): string
    requires Reportable(user)
  {
    "\n## " + IntToString(rank) + ". " + str(user.fields["username"])
    + " (Score: " + FieldOrNA(user.fields, "score", str) + ")\n"
    + "- Followers: " + FieldOrNA(user.fields, "followers_count", str) + "\n"
    + "- Engagement Rate: " + FieldOrNA(user.fields, "engagement_rate", str) + "%\n"
    + "- Media Count: " + FieldOrNA(user.fields, "media_count", str) + "\n"
  }

  /** Every item of `users` has a username. */
  predicate AllReportable(users: seq<Json>) {
    forall k :: 0 <= k < |users| ==> Reportable(users[k])
  }

  /** The sections of `users`, numbered from `first` in list order. */
  function Sections(users: seq<Json>, first: int, str: Json -> string): string
    requires AllReportable(users)
  {
    if users == [] then ""
    else Sections(users[..|users| - 1], first, str) + Section(first + |users| - 1, users[|users| - 1], str)
  }

  /** One more user adds one more section, numbered after the ones before it. */
  lemma SectionsSnoc(items: seq<Json>, i: nat, str: Json -> string)
    requires i < |items|
    requires forall k :: 0 <= k <= i ==> Reportable(items[k])
    ensures AllReportable(items[..i + 1])
    ensures Sections(items[..i + 1], 1, str) == Sections(items[..i], 1, str) + Section(i + 1, items[i], str)
    ensures ReportHeader + Sections(items[..i + 1], 1, str) == ReportHeader + Sections(items[..i], 1, str) + Section(i + 1, items[i], str)
  {
    assert items[..i + 1][..i] == items[..i];
  }

  /** The first item that is not reportable, if any. */
  function FirstUnreportable(items: seq<Json>): (r: Option<nat>)
    ensures r.None? <==> AllReportable(items)
    ensures r.Some? ==> r.value < |items| && !Reportable(items[r.value])
    ensures r.Some? ==> forall k :: 0 <= k < r.value ==> Reportable(items[k])
  {
    if items == [] then None
    else if !Reportable(items[0]) then Some(0)
    else match FirstUnreportable(items[1..])
      case None => None
      case Some(k) => Some(k + 1)
  }

  /** The first unreportable item is the one at `i` when every item before it is reportable. */
  lemma {:induction false} FirstUnreportableAt(items: seq<Json>, i: nat)
    requires i < |items| && !Reportable(items[i])
    requires forall k :: 0 <= k < i ==> Reportable(items[k])
    ensures FirstUnreportable(items) == Some(i)
    decreases i
  {
    if i > 0 {
      FirstUnreportableAt(items[1..], i - 1);
    }
  }

  /**
   * The text a verbose `format_final_results` returns: the header and one
   * section per user, numbered from 1 in list order; or the exception of
   * the first item that has no username.
   */
  function FinalReport(rankedUsers: Json, str: Json -> string): Result<string, Fault> {
    match Iterated(rankedUsers)
    case Err(f) => Err(f)
    case Ok(items) =>
      match FirstUnreportable(items)
      case Some(k) => Err(ItemFault(items[k]))
      case None => Ok(ReportHeader + Sections(items, 1, str))
  }

  /** The report of a list of records, each with a username, is the header followed by their sections from 1. */
  lemma ReportOfRecords(users: seq<Dict>, str: Json -> string)
    requires forall k :: 0 <= k < |users| ==> "username" in users[k]
    ensures AllReportable(DictList(users).items)
    ensures FinalReport(DictList(users), str) == Ok(ReportHeader + Sections(DictList(users).items, 1, str))
  {
  }

  /**
   * `format_final_results`: `None` when not verbose; otherwise the report,
   * built one section per user, or the exception of the first bad item.
   */
  method FormatFinalResults(rankedUsers: Json, verbose: bool, str: Json -> string) returns (r: Result<Option<string>, Fault>)
    ensures !verbose ==> r == Ok(None)
    ensures verbose ==> match FinalReport(rankedUsers, str)
                        case Ok(text) => r == Ok(Some(text))
                        case Err(f) => r == Err(f)
  {
    if !verbose {
      return Ok(None);
    }
    var iterated := Iterated(rankedUsers);
    if iterated.Err? {
      return Err(iterated.error);
    }
    var items := iterated.value;
    var output := ReportHeader;
    var i := 0;
    while i < |items|
      invariant 0 <= i <= |items|
      invariant forall k :: 0 <= k < i ==> Reportable(items[k])
      invariant AllReportable(items[..i])
      invariant output == ReportHeader + Sections(items[..i], 1, str)
    {
      var user := items[i];
      if !Reportable(user) {
        FirstUnreportableAt(items, i);
        return Err(ItemFault(user));
      }
      SectionsSnoc(items, i, str);
      output := output + Section(i + 1, user, str);
      i := i + 1;
    }
    assert items[..i] == items;
    return Ok(Some(output));
  }
}

=== FILE: agent.dfy ===
/**
 * The orchestrator, `analyze_instagram_users`: the perceive-decide-act loop
 * over a fresh `AgentMemory`. The language model is the parameter `llm`,
 * a function of the iteration index, the current query and the memory
 * context; the JSON codec, `str()` and the Instagram client come in
 * `host`. One iteration is specified by the function `StepSpec` on a
 * snapshot of the memory; `RunIteration` is proved to perform it on the
 * memory object, and `AnalyzeInstagramUsers` to perform `Run`, the
 * iterations one after another.
 */
module Agent {
  import opened Wrappers
  import opened PyStr
  import opened Models
  import opened Memory
  import Perception
  import Decision
  import opened Action
  import InstagramTools

  /** The model: the reply to a query in a context, at a given iteration. */
  type Llm = (nat, string, MemoryContext) -> LlmReply

  /** What the memory object holds, as a value. */
  datatype Snapshot = Snapshot(
    users: seq<Dict>,
    transcript: seq<string>,
    processed: set<Json>,
    scored: set<Json>,
    rankingCompleted: bool)

  function SnapshotOf(memory: AgentMemory): Snapshot
    reads memory
  {
    Snapshot(memory.usersMetrics, memory.iterationResponses, memory.processedUsernames,
             memory.scoredUsers, memory.rankingCompleted)
  }

  /** The context `get_context_dict` hands to the model. */
  function ContextOf(s: Snapshot): MemoryContext {
    MemoryContext(s.users, s.transcript, s.processed, s.scored)
  }

  const EmptySnapshot := Snapshot([], [], {}, {}, false)

  /** How `analyze_instagram_users` ends: with a list, or with an exception it does not catch. */
  datatype Outcome = Returned(rankedUsers: Json) | Raised(fault: Fault)

  /** After an iteration: go on with the next query and ranking flag, or stop. */
  datatype Control = Continue(currentQuery: string, usersRanked: bool) | Stop(outcome: Outcome)

  datatype Step = Step(after: Snapshot, control: Control)

  // ---- queries ----

  const QueryLead := "Analyze these Instagram users and rank them based on their metrics: "
  const RankingCompletePrompt := "\n\nRanking is already complete. Please verify the results and provide a final answer."
  const ScoreFirstPrompt := "\n\nPlease calculate scores for these users first: "
  const RankNowPrompt := "\n\nAll users have metrics and scores. Please rank the users now."
  const VerifyPrompt := "\n\nAll users have been ranked. Please verify the results and provide a final answer."
  const NextPrompt := "\n\nWhat should I do next?"

  /** The usernames as the Python list of strings they are. */
  function NameList(usernames: seq<string>): (j: Json)
    ensures j.JArr? && |j.items| == |usernames|
    ensures forall k :: 0 <= k < |usernames| ==> j.items[k] == JStr(usernames[k])
  {
    JArr(seq(|usernames|, k requires 0 <= k < |usernames| => JStr(usernames[k])))
  }

  /** The first query: the request followed by the list of usernames. */
  function InitialQuery(usernames: seq<string>, str: Json -> string): (q: string)
    ensures StartsWith(q, QueryLead)
    ensures q[|QueryLead|..] == str(NameList(usernames))
  {
    var q := QueryLead + str(NameList(usernames));
    assert q[..|QueryLead|] == QueryLead;
    q
  }

  /** `[u.get("username") for u in unscored if "username" in u]` */
  function UnscoredNames(unscored: seq<Dict>): (r: seq<Json>)
    ensures |r| <= |unscored|
    ensures forall x :: x in r ==> exists u :: u in unscored && "username" in u && x == u["username"]
    ensures (forall u :: u in unscored ==> "username" in u) ==> |r| == |unscored|
    ensures forall u :: u in unscored && "username" in u ==> u["username"] in r
  {
    if unscored == [] then []
    else
      var rest := UnscoredNames(unscored[1..]);
      assert forall u :: u in unscored[1..] ==> u in unscored;
      if "username" in unscored[0] then
        var r := [unscored[0]["username"]] + rest;
        assert forall x :: x in r ==> x == unscored[0]["username"] || x in rest;
        r
      else rest
  }

  function RedundantRankLine(iteration: nat): string {
    "Iteration " + IntToString(iteration + 1) + ": Skipped redundant ranking, ranking already completed"
  }

  function PrematureRankLine(iteration: nat): string {
    "Iteration " + IntToString(iteration + 1) + ": Skipped premature ranking, waiting for all users to be scored first"
  }

  /**
   * The query for the next iteration at the end of an ordinary iteration:
   * from the second iteration on and until a ranking has succeeded, the
   * generic "what next" prompt; once ranked with every target processed
   * and every record scored, the verification prompt; otherwise the query
   * stays as it is.
   */
  function SteeredQuery(iteration: nat, query: string, currentQuery: string, usersRanked: bool, complete: bool): (q: string)
    ensures iteration > 0 && !usersRanked ==> q == query + NextPrompt
    ensures usersRanked && complete ==> q == query + VerifyPrompt
    ensures (iteration == 0 || usersRanked) && !(usersRanked && complete) ==> q == currentQuery
  {
    if iteration > 0 && !usersRanked then query + NextPrompt
    else if usersRanked && complete then query + VerifyPrompt
    else currentQuery
  }

  /** Every target has a record and every record a score. */
  predicate Complete(s: Snapshot, usernames: seq<string>) {
    AllProcessed(usernames, s.processed) && AllScored(s.users, s.scored)
  }

  // ---- one iteration, as a function of the snapshot ----

  /** The decision made on a reply (perception, then decision), or the exception the decision raises. */
  function Decide(reply: LlmReply, host: Host): Result<DecisionOutput, Fault> {
    Decision.DetermineNextAction(Perception.ProcessInput(reply), host.loads)
  }

  /** `user[key]` on a value that may not be a dict. */
  function Subscript(v: Json, key: string): (r: Result<Json, Fault>)
    ensures v.JObj? && key in v.fields ==> r == Ok(v.fields[key])
    ensures !v.JObj? ==> r.Err?
  {
    match v
    case JObj(m) => if key in m then Ok(m[key]) else Err(KeyError(key))
    case JStr(_) => Err(TypeError("string indices must be integers, not 'str'"))
    case JArr(_) => Err(TypeError("list indices must be integers or slices, not str"))
    case _ => Err(TypeError("'" + TypeName(v) + "' object is not subscriptable"))
  }

  /**
   * `format_final_results(ranked_users, verbose)` followed by `return
   * ranked_users`: the list is returned unless the report raises.
   */
  function Report(rankedUsers: Json, verbose: bool, str: Json -> string): (o: Outcome)
    ensures !verbose ==> o == Returned(rankedUsers)
    ensures verbose ==> (o == Returned(rankedUsers) <==> FinalReport(rankedUsers, str).Ok?)
  {
    if verbose && FinalReport(rankedUsers, str).Err? then Raised(FinalReport(rankedUsers, str).error)
    else Returned(rankedUsers)
  }

  /** Lines 203-212: the transcript line of the iteration, then the steered query. */
  function Finish(s: Snapshot, iteration: nat, query: string, currentQuery: string, usersRanked: bool,
                  usernames: seq<string>, actionType: string, p: ActionParams, dumps: Json -> string): Step
  {
    Step(s.(transcript := s.transcript + [FormatIterationResponse(iteration + 1, actionType, p, dumps)]),
         Continue(SteeredQuery(iteration, query, currentQuery, usersRanked, Complete(s, usernames)), usersRanked))
  }

  /** The tool's result stored after a `calculate_user_score` call (lines 165-171). */
  function ScoreStep(s: Snapshot, iteration: nat, query: string, currentQuery: string, usersRanked: bool,
                     usernames: seq<string>, actionType: string, p: ActionParams, result: Json, dumps: Json -> string): Step
  {
    match PyIn("username", result)
    case Err(f) => Step(s, Stop(Raised(f)))
    case Ok(false) => Finish(s, iteration, query, currentQuery, usersRanked, usernames, actionType, p, dumps)
    case Ok(true) =>
      match Subscript(result, "username")
      case Err(f) => Step(s, Stop(Raised(f)))
      case Ok(username) =>
        var score := GetOr(result.fields, "score", JInt(0));
        var s' := s.(users := AttachScore(s.users, username, score), scored := ScoredAfterStore(s.scored, s.users, username));
        var q := if Complete(s', usernames) then query + RankNowPrompt else currentQuery;
        Finish(s', iteration, query, q, usersRanked, usernames, actionType, p, dumps)
  }

  /**
   * The tool's result stored after a `rank_users` call (lines 172-186), as
   * intended: only a list of records replaces the memory's list and marks
   * the users ranked; an error record leaves both alone. When the ranking
   * covers every target and every record is scored, ranking is completed
   * and the iteration ends without a transcript line.
   */
  function RankStep(s: Snapshot, iteration: nat, query: string, currentQuery: string, usersRanked: bool,
                    usernames: seq<string>, actionType: string, p: ActionParams, result: Json, dumps: Json -> string): Step
  {
    match AsDictList(result)
    case None => Finish(s, iteration, query, currentQuery, usersRanked, usernames, actionType, p, dumps)
    case Some(ranked) =>
      var s' := s.(users := ranked);
      if Complete(s', usernames) then Step(s'.(rankingCompleted := true), Continue(query + VerifyPrompt, true))
      else Finish(s', iteration, query, currentQuery, true, usernames, actionType, p, dumps)
  }

  /**
   * Lines 162-186: the tool's result stored according to the function that
   * produced it. Fetched metrics are upserted, a score is attached, a
   * ranking replaces the list; any other function only ends the iteration.
   */
  function StoreResult(s: Snapshot, iteration: nat, query: string, currentQuery: string, usersRanked: bool,
                       usernames: seq<string>, name: string, actionType: string, p: ActionParams, result: Json,
                       dumps: Json -> string): Step
    requires name == "get_user_metrics" ==> result.JObj?
  {
    if name == "get_user_metrics" then
      var s' := s.(users := UpsertMetrics(s.users, result.fields),
                   processed := ProcessedAfterStore(s.processed, s.users, result.fields));
      Finish(s', iteration, query, currentQuery, usersRanked, usernames, actionType, p, dumps)
    else if name == "calculate_user_score" then
      ScoreStep(s, iteration, query, currentQuery, usersRanked, usernames, actionType, p, result, dumps)
    else if name == "rank_users" then
      RankStep(s, iteration, query, currentQuery, usersRanked, usernames, actionType, p, result, dumps)
    else Finish(s, iteration, query, currentQuery, usersRanked, usernames, actionType, p, dumps)
  }

  /** Lines 129-186: a function call or mixed reply, with the two guards on `rank_users`. */
  function CallStep(s: Snapshot, iteration: nat, query: string, currentQuery: string, usersRanked: bool,
                    usernames: seq<string>, d: DecisionOutput, host: Host): Step
    requires CalledFunction(d).Some?
  {
    var name := d.actionParams.funcName;
    if name == "rank_users" && s.rankingCompleted then
      Step(s.(transcript := s.transcript + [RedundantRankLine(iteration)]), Continue(query + RankingCompletePrompt, usersRanked))
    else if name == "rank_users" && !AllScored(s.users, s.scored) then
      var unscored := Unscored(s.users, s.scored);
      var q := if unscored != [] then query + ScoreFirstPrompt + host.str(JArr(UnscoredNames(unscored))) else currentQuery;
      Step(s.(transcript := s.transcript + [PrematureRankLine(iteration)]), Continue(q, usersRanked))
    else
      var result := ExecuteFunction(name, d.actionParams.params, host);
      StoreResult(s, iteration, query, currentQuery, usersRanked, usernames, name, d.actionType,
                  WithResult(d.actionParams, result), result, host.dumps)
  }

  /**
   * One iteration of the loop on the decision `d`: a call is executed and
   * its result stored; a successful verification returns the memory's
   * list; a final answer returns its decoded list; every other action only
   * adds its transcript line. The query and the ranking flag carry over.
   */
  function StepSpec(s: Snapshot, iteration: nat, query: string, currentQuery: string, usersRanked: bool,
                    usernames: seq<string>, verbose: bool, d: DecisionOutput, host: Host): Step
  {
    if CalledFunction(d).Some? then CallStep(s, iteration, query, currentQuery, usersRanked, usernames, d, host)
    else if d.actionType == "verification_success" then Step(s, Stop(Report(DictList(s.users), verbose, host.str)))
    else if d.actionType == "final_answer" && d.actionParams.FinalAnswerActionParams? then
      Step(s, Stop(Report(d.actionParams.rankedUsers, verbose, host.str)))
    else Finish(s, iteration, query, currentQuery, usersRanked, usernames, d.actionType, d.actionParams, host.dumps)
  }

  /**
   * Lines 116-212: one iteration on the model's reply. A decision that
   * raises ends the run with its exception and changes nothing; otherwise
   * the iteration is `StepSpec` on the decision.
   */
  function Iterate(s: Snapshot, iteration: nat, query: string, currentQuery: string, usersRanked: bool,
                   usernames: seq<string>, verbose: bool, reply: LlmReply, host: Host): Step
  {
    IterateOn(s, iteration, query, currentQuery, usersRanked, usernames, verbose, Decide(reply, host), host)
  }

  /** The iteration once the decision is made: its exception, or `StepSpec` on it. */
  function IterateOn(s: Snapshot, iteration: nat, query: string, currentQuery: string, usersRanked: bool,
                     usernames: seq<string>, verbose: bool, decided: Result<DecisionOutput, Fault>, host: Host): Step
  {
    match decided
    case Err(f) => Step(s, Stop(Raised(f)))
    case Ok(d) => StepSpec(s, iteration, query, currentQuery, usersRanked, usernames, verbose, d, host)
  }

  // ---- the whole run ----

  /** The iterations from `iteration` up to `maxIterations`: the final memory and the outcome. */
  function RunFrom(s: Snapshot, iteration: nat, maxIterations: int, query: string, currentQuery: string,
                   usersRanked: bool, usernames: seq<string>, verbose: bool, llm: Llm, host: Host): (Snapshot, Outcome)
    decreases maxIterations - iteration
  {
    if iteration >= maxIterations then (s, Returned(DictList(s.users)))
    else
      var st := Iterate(s, iteration, query, currentQuery, usersRanked, usernames, verbose,
                        llm(iteration, currentQuery, ContextOf(s)), host);
      match st.control
      case Stop(o) => (st.after, o)
      case Continue(q, ranked) =>
        RunFrom(st.after, iteration + 1, maxIterations, query, q, ranked, usernames, verbose, llm, host)
  }

  /** `analyze_instagram_users` from a fresh memory and the initial query. */
  function Run(usernames: seq<string>, maxIterations: int, verbose: bool, llm: Llm, host: Host): (Snapshot, Outcome) {
    var query := InitialQuery(usernames, host.str);
    RunFrom(EmptySnapshot, 0, maxIterations, query, query, false, usernames, verbose, llm, host)
  }

  // ---- the imperative loop ----

  /** Lines 203-212 on the memory object. */
  method Conclude(memory: AgentMemory, iteration: nat, query: string, currentQuery: string, usersRanked: bool,
                  usernames: seq<string>, actionType: string, p: ActionParams, dumps: Json -> string)
    returns (c: Control)
    modifies memory`iterationResponses
    ensures SnapshotOf(memory)
         == Finish(old(SnapshotOf(memory)), iteration, query, currentQuery, usersRanked, usernames, actionType, p, dumps).after
    ensures c == Finish(old(SnapshotOf(memory)), iteration, query, currentQuery, usersRanked, usernames, actionType, p, dumps).control
  {
    memory.AddIterationResponse(FormatIterationResponse(iteration + 1, actionType, p, dumps));
    var complete := memory.AllUsersProcessed(usernames) && memory.AllUsersScored();
    c := Continue(SteeredQuery(iteration, query, currentQuery, usersRanked, complete), usersRanked);
  }

  /** Lines 116-212 on the memory object: one iteration, as `Iterate` describes it. */
  method RunIteration(memory: AgentMemory, iteration: nat, query: string, currentQuery: string, usersRanked: bool,
                      usernames: seq<string>, verbose: bool, reply: LlmReply, host: Host)
    returns (c: Control)
    modifies memory
    ensures SnapshotOf(memory)
         == Iterate(old(SnapshotOf(memory)), iteration, query, currentQuery, usersRanked, usernames, verbose, reply, host).after
    ensures c == Iterate(old(SnapshotOf(memory)), iteration, query, currentQuery, usersRanked, usernames, verbose, reply, host).control
  {
    var decided := Decide(reply, host);
    if decided.Err? {
      return Stop(Raised(decided.error));
    }
    var d := decided.value;
    if CalledFunction(d).Some? {
      c := CallIteration(memory, iteration, query, currentQuery, usersRanked, usernames, d, host);
      return;
    }
    if d.actionType == "verification_success" {
      var r := FormatFinalResults(DictList(memory.usersMetrics), verbose, host.str);
      c := if r.Err? then Stop(Raised(r.error)) else Stop(Returned(DictList(memory.usersMetrics)));
      return;
    }
    if d.actionType == "final_answer" && d.actionParams.FinalAnswerActionParams? {
      var r := FormatFinalResults(d.actionParams.rankedUsers, verbose, host.str);
      c := if r.Err? then Stop(Raised(r.error)) else Stop(Returned(d.actionParams.rankedUsers));
      return;
    }
    c := Conclude(memory, iteration, query, currentQuery, usersRanked, usernames, d.actionType, d.actionParams, host.dumps);
  }

  /** Lines 129-186 on the memory object. */
  method CallIteration(memory: AgentMemory, iteration: nat, query: string, currentQuery: string, usersRanked: bool,
                       usernames: seq<string>, d: DecisionOutput, host: Host)
    returns (c: Control)
    requires CalledFunction(d).Some?
    modifies memory
    ensures SnapshotOf(memory)
         == CallStep(old(SnapshotOf(memory)), iteration, query, currentQuery, usersRanked, usernames, d, host).after
    ensures c == CallStep(old(SnapshotOf(memory)), iteration, query, currentQuery, usersRanked, usernames, d, host).control
  {
    var name := d.actionParams.funcName;
    if name == "rank_users" {
      if memory.rankingCompleted {
        memory.AddIterationResponse(RedundantRankLine(iteration));
        return Continue(query + RankingCompletePrompt, usersRanked);
      }
      if !memory.AllUsersScored() {
        memory.AddIterationResponse(PrematureRankLine(iteration));
        var unscored := memory.GetUnscoredUsers();
        var q := currentQuery;
        if unscored != [] {
          q := query + ScoreFirstPrompt + host.str(JArr(UnscoredNames(unscored)));
        }
        return Continue(q, usersRanked);
      }
    }
    var result := ExecuteFunction(name, d.actionParams.params, host);
    c := Store(memory, iteration, query, currentQuery, usersRanked, usernames, name, d.actionType,
               WithResult(d.actionParams, result), result, host.dumps);
  }

  /** Lines 162-186 on the memory object. */
  method Store(memory: AgentMemory, iteration: nat, query: string, currentQuery: string, usersRanked: bool,
               usernames: seq<string>, name: string, actionType: string, p: ActionParams, result: Json, dumps: Json -> string)
    returns (c: Control)
    requires name == "get_user_metrics" ==> result.JObj?
    modifies memory
    ensures SnapshotOf(memory)
         == StoreResult(old(SnapshotOf(memory)), iteration, query, currentQuery, usersRanked, usernames, name, actionType, p, result, dumps).after
    ensures c == StoreResult(old(SnapshotOf(memory)), iteration, query, currentQuery, usersRanked, usernames, name, actionType, p, result, dumps).control
  {
    ghost var s := SnapshotOf(memory);
    ghost var st := StoreResult(s, iteration, query, currentQuery, usersRanked, usernames, name, actionType, p, result, dumps);
    if name == "get_user_metrics" {
      memory.StoreUserMetrics(result.fields);
      ghost var s' := s.(users := UpsertMetrics(s.users, result.fields),
                         processed := ProcessedAfterStore(s.processed, s.users, result.fields));
      assert SnapshotOf(memory) == s';
      assert st == Finish(s', iteration, query, currentQuery, usersRanked, usernames, actionType, p, dumps);
      c := Conclude(memory, iteration, query, currentQuery, usersRanked, usernames, actionType, p, dumps);
    } else if name == "calculate_user_score" {
      assert st == ScoreStep(s, iteration, query, currentQuery, usersRanked, usernames, actionType, p, result, dumps);
      c := StoreScore(memory, iteration, query, currentQuery, usersRanked, usernames, actionType, p, result, dumps);
    } else if name == "rank_users" {
      assert st == RankStep(s, iteration, query, currentQuery, usersRanked, usernames, actionType, p, result, dumps);
      c := StoreRanking(memory, iteration, query, currentQuery, usersRanked, usernames, actionType, p, result, dumps);
    } else {
      assert st == Finish(s, iteration, query, currentQuery, usersRanked, usernames, actionType, p, dumps);
      c := Conclude(memory, iteration, query, currentQuery, usersRanked, usernames, actionType, p, dumps);
    }
  }

  /** Lines 165-171 on the memory object. */
  method StoreScore(memory: AgentMemory, iteration: nat, query: string, currentQuery: string, usersRanked: bool,
                    usernames: seq<string>, actionType: string, p: ActionParams, result: Json, dumps: Json -> string)
    returns (c: Control)
    modifies memory
    ensures SnapshotOf(memory)
         == ScoreStep(old(SnapshotOf(memory)), iteration, query, currentQuery, usersRanked, usernames, actionType, p, result, dumps).after
    ensures c == ScoreStep(old(SnapshotOf(memory)), iteration, query, currentQuery, usersRanked, usernames, actionType, p, result, dumps).control
  {
    ghost var s := SnapshotOf(memory);
    ghost var st := ScoreStep(s, iteration, query, currentQuery, usersRanked, usernames, actionType, p, result, dumps);
    var hasName := PyIn("username", result);
    if hasName.Err? {
      assert st == Step(s, Stop(Raised(hasName.error)));
      return Stop(Raised(hasName.error));
    }
    if !hasName.value {
      assert st == Finish(s, iteration, query, currentQuery, usersRanked, usernames, actionType, p, dumps);
      c := Conclude(memory, iteration, query, currentQuery, usersRanked, usernames, actionType, p, dumps);
      return;
    }
    var username := Subscript(result, "username");
    if username.Err? {
      assert st == Step(s, Stop(Raised(username.error)));
      return Stop(Raised(username.error));
    }
    var score := GetOr(result.fields, "score", JInt(0));
    memory.StoreUserScore(username.value, score);
    ghost var s' := s.(users := AttachScore(s.users, username.value, score),
                       scored := ScoredAfterStore(s.scored, s.users, username.value));
    assert SnapshotOf(memory) == s';
    var q := currentQuery;
    if memory.AllUsersProcessed(usernames) && memory.AllUsersScored() {
      q := query + RankNowPrompt;
    }
    assert q == if Complete(s', usernames) then query + RankNowPrompt else currentQuery;
    assert st == Finish(s', iteration, query, q, usersRanked, usernames, actionType, p, dumps);
    c := Conclude(memory, iteration, query, q, usersRanked, usernames, actionType, p, dumps);
  }

  /** Lines 172-186 on the memory object, storing only a list of records. */
  method StoreRanking(memory: AgentMemory, iteration: nat, query: string, currentQuery: string, usersRanked: bool,
                      usernames: seq<string>, actionType: string, p: ActionParams, result: Json, dumps: Json -> string)
    returns (c: Control)
    modifies memory
    ensures SnapshotOf(memory)
         == RankStep(old(SnapshotOf(memory)), iteration, query, currentQuery, usersRanked, usernames, actionType, p, result, dumps).after
    ensures c == RankStep(old(SnapshotOf(memory)), iteration, query, currentQuery, usersRanked, usernames, actionType, p, result, dumps).control
  {
    var ranked := AsDictList(result);
    if ranked.None? {
      c := Conclude(memory, iteration, query, currentQuery, usersRanked, usernames, actionType, p, dumps);
      return;
    }
    memory.UpdateUsersList(ranked.value);
    if memory.AllUsersProcessed(usernames) && memory.AllUsersScored() {
      memory.rankingCompleted := true;
      return Continue(query + VerifyPrompt, true);
    }
    c := Conclude(memory, iteration, query, currentQuery, true, usernames, actionType, p, dumps);
  }

  /**
   * `analyze_instagram_users`: at most `maxIterations` iterations over a
   * fresh memory, each asking `llm` with the current query and the memory's
   * context; it returns what `Run` says.
   */
  method AnalyzeInstagramUsers(usernames: seq<string>, maxIterations: int, verbose: bool, llm: Llm, host: Host)
    returns (r: Outcome)
    ensures r == Run(usernames, maxIterations, verbose, llm, host).1
  {
    var memory := new AgentMemory();
    var query := InitialQuery(usernames, host.str);
    var currentQuery := query;
    var usersRanked := false;
    var iteration: nat := 0;
    while iteration < maxIterations
      invariant RunFrom(SnapshotOf(memory), iteration, maxIterations, query, currentQuery, usersRanked, usernames, verbose, llm, host)
             == Run(usernames, maxIterations, verbose, llm, host)
      decreases maxIterations - iteration
    {
      var reply := llm(iteration, currentQuery, memory.GetContextDict());
      var c := RunIteration(memory, iteration, query, currentQuery, usersRanked, usernames, verbose, reply, host);
      match c
      case Stop(o) =>
        return o;
      case Continue(q, ranked) =>
        currentQuery := q;
        usersRanked := ranked;
      iteration := iteration + 1;
    }
    r := Returned(DictList(memory.usersMetrics));
  }

  // ---- what one iteration guarantees ----

  /** Once ranking is completed, a `rank_users` call is skipped: the records stay as they are and the model is told to verify. */
  lemma RankSkippedOnceCompleted(s: Snapshot, iteration: nat, query: string, currentQuery: string, usersRanked: bool,
                                 usernames: seq<string>, verbose: bool, d: DecisionOutput, host: Host)
    requires CalledFunction(d) == Some("rank_users") && s.rankingCompleted
    ensures var st := StepSpec(s, iteration, query, currentQuery, usersRanked, usernames, verbose, d, host);
            && st.after == s.(transcript := s.transcript + [RedundantRankLine(iteration)])
            && st.control == Continue(query + RankingCompletePrompt, usersRanked)
  {
  }

  /**
   * Before every stored record is scored, a `rank_users` call is skipped:
   * the records stay as they are, and the next query always names the
   * unscored users, since at least one record is unscored.
   */
  lemma RankSkippedUntilAllScored(s: Snapshot, iteration: nat, query: string, currentQuery: string, usersRanked: bool,
                                  usernames: seq<string>, verbose: bool, d: DecisionOutput, host: Host)
    requires CalledFunction(d) == Some("rank_users") && !s.rankingCompleted
    requires !AllScored(s.users, s.scored)
    ensures var st := StepSpec(s, iteration, query, currentQuery, usersRanked, usernames, verbose, d, host);
            && st.after == s.(transcript := s.transcript + [PrematureRankLine(iteration)])
            && Unscored(s.users, s.scored) != []
            && st.control == Continue(query + ScoreFirstPrompt + host.str(JArr(UnscoredNames(Unscored(s.users, s.scored)))), usersRanked)
  {
    AllScoredIffNoneUnscored(s.users, s.scored);
  }

  /**
   * Storing a ranking leaves both sets alone. A value that is not a list
   * of records changes nothing and keeps the ranking flag; a list replaces
   * the records, and completes the ranking exactly when every target is
   * processed and every record is scored.
   */
  lemma RankStepStores(s: Snapshot, iteration: nat, query: string, currentQuery: string, usersRanked: bool,
                       usernames: seq<string>, actionType: string, p: ActionParams, result: Json, dumps: Json -> string)
    ensures var st := RankStep(s, iteration, query, currentQuery, usersRanked, usernames, actionType, p, result, dumps);
            && st.after.processed == s.processed && st.after.scored == s.scored
            && (AsDictList(result).None? ==>
                  && st.after.users == s.users && st.after.rankingCompleted == s.rankingCompleted
                  && st.control.Continue? && st.control.usersRanked == usersRanked)
            && (AsDictList(result).Some? ==> st.after.users == AsDictList(result).value)
            && (st.after.rankingCompleted && !s.rankingCompleted ==>
                  Complete(st.after, usernames) && st.control == Continue(query + VerifyPrompt, true))
  {
    match AsDictList(result)
    case None =>
      assert RankStep(s, iteration, query, currentQuery, usersRanked, usernames, actionType, p, result, dumps)
          == Finish(s, iteration, query, currentQuery, usersRanked, usernames, actionType, p, dumps);
    case Some(ranked) =>
  }

  /** A `rank_users` call that is not skipped stores what the tool returned. */
  lemma RankCallStores(s: Snapshot, iteration: nat, query: string, currentQuery: string, usersRanked: bool,
                       usernames: seq<string>, verbose: bool, d: DecisionOutput, host: Host)
    requires CalledFunction(d) == Some("rank_users")
    requires !s.rankingCompleted && AllScored(s.users, s.scored)
    ensures var result := ExecuteFunction("rank_users", d.actionParams.params, host);
            StepSpec(s, iteration, query, currentQuery, usersRanked, usernames, verbose, d, host)
            == RankStep(s, iteration, query, currentQuery, usersRanked, usernames, d.actionType,
                        WithResult(d.actionParams, result), result, host.dumps)
  {
    var result := ExecuteFunction("rank_users", d.actionParams.params, host);
    assert StepSpec(s, iteration, query, currentQuery, usersRanked, usernames, verbose, d, host)
        == StoreResult(s, iteration, query, currentQuery, usersRanked, usernames, "rank_users", d.actionType,
                       WithResult(d.actionParams, result), result, host.dumps);
  }

  /**
   * A `rank_users` call leaves the processed and scored sets alone and
   * either keeps the records or replaces them by a list in non-increasing
   * score order; it completes the ranking only when every target is
   * processed and every record, before and after, is scored.
   */
  lemma RankStepOrdersRecords(s: Snapshot, iteration: nat, query: string, currentQuery: string, usersRanked: bool,
                              usernames: seq<string>, verbose: bool, d: DecisionOutput, host: Host)
    requires CalledFunction(d) == Some("rank_users")
    ensures var st := StepSpec(s, iteration, query, currentQuery, usersRanked, usernames, verbose, d, host);
            && st.after.processed == s.processed && st.after.scored == s.scored
            && (st.after.users == s.users || NonIncreasing(st.after.users))
            && (st.after.rankingCompleted && !s.rankingCompleted ==>
                  AllScored(s.users, s.scored) && Complete(st.after, usernames)
                  && st.control == Continue(query + VerifyPrompt, true))
  {
    if s.rankingCompleted || !AllScored(s.users, s.scored) {
      assert StepSpec(s, iteration, query, currentQuery, usersRanked, usernames, verbose, d, host)
          == CallStep(s, iteration, query, currentQuery, usersRanked, usernames, d, host);
    } else {
      var params := d.actionParams.params;
      var result := ExecuteFunction("rank_users", params, host);
      RankCallStores(s, iteration, query, currentQuery, usersRanked, usernames, verbose, d, host);
      RankStepStores(s, iteration, query, currentQuery, usersRanked, usernames, d.actionType,
                     WithResult(d.actionParams, result), result, host.dumps);
      if AsDictList(result).Some? {
        assert host.loads(params).Ok? && RankUsers(host.loads(params).value).Ok? by {
          if host.loads(params).Err? || RankUsers(host.loads(params).value).Err? {
            FailedRankIsNotAList(params, host);
          }
        }
        var ranked := RankUsers(host.loads(params).value).value;
        DictListRoundTrip(ranked);
        assert AsDictList(result).value == ranked;
      }
    }
  }

  /**
   * A `rank_users` call whose tool fails (the parameters do not decode, or
   * the list cannot be sorted) changes no record and does not mark the
   * users ranked.
   */
  lemma FailedRankKeepsMemory(s: Snapshot, iteration: nat, query: string, currentQuery: string, usersRanked: bool,
                              usernames: seq<string>, verbose: bool, d: DecisionOutput, host: Host)
    requires CalledFunction(d) == Some("rank_users")
    requires var params := d.actionParams.params;
             host.loads(params).Err? || RankUsers(host.loads(params).value).Err?
    ensures var st := StepSpec(s, iteration, query, currentQuery, usersRanked, usernames, verbose, d, host);
            && st.after.users == s.users && st.after.processed == s.processed && st.after.scored == s.scored
            && st.after.rankingCompleted == s.rankingCompleted
            && st.control.Continue? && st.control.usersRanked == usersRanked
  {
    if s.rankingCompleted || !AllScored(s.users, s.scored) {
      assert StepSpec(s, iteration, query, currentQuery, usersRanked, usernames, verbose, d, host)
          == CallStep(s, iteration, query, currentQuery, usersRanked, usernames, d, host);
    } else {
      var params := d.actionParams.params;
      var result := ExecuteFunction("rank_users", params, host);
      FailedRankIsNotAList(params, host);
      RankCallStores(s, iteration, query, currentQuery, usersRanked, usernames, verbose, d, host);
      RankStepStores(s, iteration, query, currentQuery, usersRanked, usernames, d.actionType,
                     WithResult(d.actionParams, result), result, host.dumps);
    }
  }

  /** Storing a score whose record names a user keeps the memory consistent; nothing else is touched. */
  lemma ScoreStepKeepsConsistent(s: Snapshot, iteration: nat, query: string, currentQuery: string, usersRanked: bool,
                                 usernames: seq<string>, actionType: string, p: ActionParams, result: Json, dumps: Json -> string)
    requires Consistent(s.users, s.processed, s.scored)
    ensures var st := ScoreStep(s, iteration, query, currentQuery, usersRanked, usernames, actionType, p, result, dumps);
            Consistent(st.after.users, st.after.processed, st.after.scored)
  {
    if PyIn("username", result) == Ok(true) && Subscript(result, "username").Ok? {
      var username := Subscript(result, "username").value;
      StoreScoreKeepsConsistent(s.users, s.processed, s.scored, username, GetOr(result.fields, "score", JInt(0)));
    }
  }

  /** Storing fetched metrics or a score keeps the memory consistent. */
  lemma StoreKeepsConsistent(s: Snapshot, iteration: nat, query: string, currentQuery: string, usersRanked: bool,
                             usernames: seq<string>, name: string, actionType: string, p: ActionParams, result: Json,
                             dumps: Json -> string)
    requires name == "get_user_metrics" ==> result.JObj?
    requires Consistent(s.users, s.processed, s.scored)
    requires name != "rank_users"
    ensures var st := StoreResult(s, iteration, query, currentQuery, usersRanked, usernames, name, actionType, p, result, dumps);
            Consistent(st.after.users, st.after.processed, st.after.scored)
  {
    if name == "get_user_metrics" {
      StoreMetricsKeepsConsistent(s.users, s.processed, s.scored, result.fields);
    } else if name == "calculate_user_score" {
      ScoreStepKeepsConsistent(s, iteration, query, currentQuery, usersRanked, usernames, actionType, p, result, dumps);
    }
  }

  /**
   * Fetching a held, scored user again (memory.py lines 39-44 on the record
   * `user_info_by_username` returns): the record is replaced by one without
   * `score`, while the user stays in the scored set.
   */
  lemma RefetchDropsScore(users: seq<Dict>, scored: set<Json>, username: string, fetched: InstagramTools.FetchResult)
    requires username != [] && FindUser(users, JStr(username)).Some? && JStr(username) in scored
    ensures var r := UpsertMetrics(users, InstagramTools.UserInfoByUsername(username, fetched));
            var i := FindUser(users, JStr(username)).value;
            "score" !in r[i] && UsernameOf(r[i]) in scored
  {
    var m := InstagramTools.UserInfoByUsername(username, fetched);
    InstagramTools.FetchedRecordHasNoScore(username, fetched);
    RestoreDropsScoreButKeepsScored(users, scored, m);
  }

  /** Fetching metrics and scoring keep the memory consistent (unique, processed usernames; scored ones among them). */
  lemma StepKeepsConsistent(s: Snapshot, iteration: nat, query: string, currentQuery: string, usersRanked: bool,
                            usernames: seq<string>, verbose: bool, d: DecisionOutput, host: Host)
    requires Consistent(s.users, s.processed, s.scored)
    requires CalledFunction(d) != Some("rank_users")
    ensures var st := StepSpec(s, iteration, query, currentQuery, usersRanked, usernames, verbose, d, host);
            Consistent(st.after.users, st.after.processed, st.after.scored)
  {
    if CalledFunction(d).Some? {
      var name := d.actionParams.funcName;
      var result := ExecuteFunction(name, d.actionParams.params, host);
      var p := WithResult(d.actionParams, result);
      assert StepSpec(s, iteration, query, currentQuery, usersRanked, usernames, verbose, d, host)
          == StoreResult(s, iteration, query, currentQuery, usersRanked, usernames, name, d.actionType, p, result, host.dumps);
      StoreKeepsConsistent(s, iteration, query, currentQuery, usersRanked, usernames, name, d.actionType, p, result, host.dumps);
    }
  }

  /** Storing a result stops the loop only when storing a score raises, and then changes nothing. */
  lemma StoreStops(s: Snapshot, iteration: nat, query: string, currentQuery: string, usersRanked: bool,
                   usernames: seq<string>, name: string, actionType: string, p: ActionParams, result: Json,
                   dumps: Json -> string)
    requires name == "get_user_metrics" ==> result.JObj?
    ensures var st := StoreResult(s, iteration, query, currentQuery, usersRanked, usernames, name, actionType, p, result, dumps);
            st.control.Stop? ==> st.after == s && st.control.outcome.Raised? && name == "calculate_user_score"
  {
    var st := StoreResult(s, iteration, query, currentQuery, usersRanked, usernames, name, actionType, p, result, dumps);
    if name == "get_user_metrics" {
      var s' := s.(users := UpsertMetrics(s.users, result.fields),
                   processed := ProcessedAfterStore(s.processed, s.users, result.fields));
      assert st == Finish(s', iteration, query, currentQuery, usersRanked, usernames, actionType, p, dumps);
    } else if name == "calculate_user_score" {
      assert st == ScoreStep(s, iteration, query, currentQuery, usersRanked, usernames, actionType, p, result, dumps);
      ScoreStepStops(s, iteration, query, currentQuery, usersRanked, usernames, actionType, p, result, dumps);
    } else if name == "rank_users" {
      assert st == RankStep(s, iteration, query, currentQuery, usersRanked, usernames, actionType, p, result, dumps);
      RankStepContinues(s, iteration, query, currentQuery, usersRanked, usernames, actionType, p, result, dumps);
    } else {
      assert st == Finish(s, iteration, query, currentQuery, usersRanked, usernames, actionType, p, dumps);
    }
  }

  /** Storing a score stops the loop only by raising, and then changes nothing. */
  lemma ScoreStepStops(s: Snapshot, iteration: nat, query: string, currentQuery: string, usersRanked: bool,
                       usernames: seq<string>, actionType: string, p: ActionParams, result: Json, dumps: Json -> string)
    ensures var st := ScoreStep(s, iteration, query, currentQuery, usersRanked, usernames, actionType, p, result, dumps);
            st.control.Stop? ==> st.after == s && st.control.outcome.Raised?
  {
    if PyIn("username", result) == Ok(true) && Subscript(result, "username").Ok? {
      var username := Subscript(result, "username").value;
      var score := GetOr(result.fields, "score", JInt(0));
      var s' := s.(users := AttachScore(s.users, username, score), scored := ScoredAfterStore(s.scored, s.users, username));
      var q := if Complete(s', usernames) then query + RankNowPrompt else currentQuery;
      assert ScoreStep(s, iteration, query, currentQuery, usersRanked, usernames, actionType, p, result, dumps)
          == Finish(s', iteration, query, q, usersRanked, usernames, actionType, p, dumps);
    }
  }

  /** Storing a ranking never stops the loop. */
  lemma RankStepContinues(s: Snapshot, iteration: nat, query: string, currentQuery: string, usersRanked: bool,
                          usernames: seq<string>, actionType: string, p: ActionParams, result: Json, dumps: Json -> string)
    ensures RankStep(s, iteration, query, currentQuery, usersRanked, usernames, actionType, p, result, dumps).control.Continue?
  {
  }

  /** A call never returns a list; it stops only when storing a score raises, and then changes nothing. */
  lemma CallStepStops(s: Snapshot, iteration: nat, query: string, currentQuery: string, usersRanked: bool,
                      usernames: seq<string>, d: DecisionOutput, host: Host)
    requires CalledFunction(d).Some?
    ensures var st := CallStep(s, iteration, query, currentQuery, usersRanked, usernames, d, host);
            st.control.Stop? ==> st.after == s && st.control.outcome.Raised? && CalledFunction(d) == Some("calculate_user_score")
  {
    var name := d.actionParams.funcName;
    if !(name == "rank_users" && (s.rankingCompleted || !AllScored(s.users, s.scored))) {
      var result := ExecuteFunction(name, d.actionParams.params, host);
      StoreStops(s, iteration, query, currentQuery, usersRanked, usernames, name, d.actionType,
                 WithResult(d.actionParams, result), result, host.dumps);
    }
  }

  /**
   * The loop returns only on a verified answer, which returns the memory's
   * records, or on a final answer, which returns the decoded list. A
   * stopping iteration changes nothing.
   */
  lemma StepReturnsOnlyOnAnswers(s: Snapshot, iteration: nat, query: string, currentQuery: string, usersRanked: bool,
                             usernames: seq<string>, verbose: bool, d: DecisionOutput, host: Host)
    ensures var st := StepSpec(s, iteration, query, currentQuery, usersRanked, usernames, verbose, d, host);
            && (st.control.Stop? ==> st.after == s)
            && (st.control.Stop? && st.control.outcome.Returned? ==>
                  || (d.actionType == "verification_success" && st.control.outcome.rankedUsers == DictList(s.users))
                  || (d.actionType == "final_answer" && d.actionParams.FinalAnswerActionParams?
                      && st.control.outcome.rankedUsers == d.actionParams.rankedUsers))
  {
    var st := StepSpec(s, iteration, query, currentQuery, usersRanked, usernames, verbose, d, host);
    if CalledFunction(d).Some? {
      assert st == CallStep(s, iteration, query, currentQuery, usersRanked, usernames, d, host);
      CallStepStops(s, iteration, query, currentQuery, usersRanked, usernames, d, host);
    }
  }

  /**
   * An iteration raises only when storing a score fails or when the
   * verbose report fails; thinking, failed verification, error and unknown
   * actions always go on to the next iteration.
   */
  lemma StepRaisesOnlyOnScoresOrReport(s: Snapshot, iteration: nat, query: string, currentQuery: string, usersRanked: bool,
                                   usernames: seq<string>, verbose: bool, d: DecisionOutput, host: Host)
    ensures var st := StepSpec(s, iteration, query, currentQuery, usersRanked, usernames, verbose, d, host);
            && (st.control.Stop? && st.control.outcome.Raised? ==>
                  verbose || CalledFunction(d) == Some("calculate_user_score"))
            && (d.actionType in {"thinking", "verification_failed", "error", "unknown"} ==> st.control.Continue?)
  {
    var st := StepSpec(s, iteration, query, currentQuery, usersRanked, usernames, verbose, d, host);
    if CalledFunction(d).Some? {
      assert st == CallStep(s, iteration, query, currentQuery, usersRanked, usernames, d, host);
      CallStepStops(s, iteration, query, currentQuery, usersRanked, usernames, d, host);
    } else if d.actionType != "verification_success" && d.actionType != "final_answer" {
      assert st == Finish(s, iteration, query, currentQuery, usersRanked, usernames, d.actionType, d.actionParams, host.dumps);
    } else if d.actionType == "verification_success" {
      assert st == Step(s, Stop(Report(DictList(s.users), verbose, host.str)));
    }
  }

  /**
   * On a reply, the loop returns only on a verified answer, with the
   * memory's records, or on a final answer, with the decoded value, which
   * is then a string, a list or a dict. A stopping iteration changes
   * nothing.
   */
  lemma ReturnsOnlyOnAnswers(s: Snapshot, iteration: nat, query: string, currentQuery: string, usersRanked: bool,
                             usernames: seq<string>, verbose: bool, reply: LlmReply, host: Host)
    ensures var st := Iterate(s, iteration, query, currentQuery, usersRanked, usernames, verbose, reply, host);
            var decided := Decide(reply, host);
            && (st.control.Stop? ==> st.after == s)
            && (st.control.Stop? && st.control.outcome.Returned? ==>
                  && decided.Ok?
                  && (|| (decided.value.actionType == "verification_success"
                          && st.control.outcome.rankedUsers == DictList(s.users))
                      || (decided.value.actionType == "final_answer"
                          && decided.value.actionParams == FinalAnswerActionParams(st.control.outcome.rankedUsers)
                          && Decision.HasLen(st.control.outcome.rankedUsers))))
  {
    match Decide(reply, host)
    case Err(_) =>
    case Ok(d) =>
      StepReturnsOnlyOnAnswers(s, iteration, query, currentQuery, usersRanked, usernames, verbose, d, host);
  }

  /**
   * On a reply, an iteration raises only when the final answer has no
   * length, when storing a score fails, or when the verbose report fails;
   * thinking, failed verification, error and unknown actions always go on.
   */
  lemma RaisesOnlyOnScoresOrReport(s: Snapshot, iteration: nat, query: string, currentQuery: string, usersRanked: bool,
                                   usernames: seq<string>, verbose: bool, reply: LlmReply, host: Host)
    ensures var st := Iterate(s, iteration, query, currentQuery, usersRanked, usernames, verbose, reply, host);
            var decided := Decide(reply, host);
            && (decided.Err? ==> st == Step(s, Stop(Raised(decided.error))))
            && (st.control.Stop? && st.control.outcome.Raised? ==>
                  || decided.Err?
                  || verbose
                  || CalledFunction(decided.value) == Some("calculate_user_score"))
            && (decided.Ok? && decided.value.actionType in {"thinking", "verification_failed", "error", "unknown"} ==>
                  st.control.Continue?)
  {
    match Decide(reply, host)
    case Err(_) =>
    case Ok(d) =>
      StepRaisesOnlyOnScoresOrReport(s, iteration, query, currentQuery, usersRanked, usernames, verbose, d, host);
  }

  /** The transcript is kept and grows by at most one line; a completed ranking and the ranked flag stay set. */
  predicate Grows(s: Snapshot, usersRanked: bool, st: Step) {
    && |s.transcript| <= |st.after.transcript| <= |s.transcript| + 1
    && st.after.transcript[..|s.transcript|] == s.transcript
    && (s.rankingCompleted ==> st.after.rankingCompleted)
    && (st.control.Continue? && usersRanked ==> st.control.usersRanked)
  }

  lemma FinishGrows(s: Snapshot, iteration: nat, query: string, currentQuery: string, usersRanked: bool,
                    usernames: seq<string>, actionType: string, p: ActionParams, dumps: Json -> string)
    ensures Grows(s, usersRanked, Finish(s, iteration, query, currentQuery, usersRanked, usernames, actionType, p, dumps))
  {
    var line := FormatIterationResponse(iteration + 1, actionType, p, dumps);
    assert (s.transcript + [line])[..|s.transcript|] == s.transcript;
  }

  lemma ScoreStepGrows(s: Snapshot, iteration: nat, query: string, currentQuery: string, usersRanked: bool,
                       usernames: seq<string>, actionType: string, p: ActionParams, result: Json, dumps: Json -> string)
    ensures Grows(s, usersRanked, ScoreStep(s, iteration, query, currentQuery, usersRanked, usernames, actionType, p, result, dumps))
  {
    if PyIn("username", result) == Ok(false) {
      FinishGrows(s, iteration, query, currentQuery, usersRanked, usernames, actionType, p, dumps);
    } else if PyIn("username", result) == Ok(true) && Subscript(result, "username").Ok? {
      var username := Subscript(result, "username").value;
      var score := GetOr(result.fields, "score", JInt(0));
      var s' := s.(users := AttachScore(s.users, username, score), scored := ScoredAfterStore(s.scored, s.users, username));
      var q := if Complete(s', usernames) then query + RankNowPrompt else currentQuery;
      FinishGrows(s', iteration, query, q, usersRanked, usernames, actionType, p, dumps);
    } else {
      assert s.transcript[..|s.transcript|] == s.transcript;
    }
  }

  lemma RankStepGrows(s: Snapshot, iteration: nat, query: string, currentQuery: string, usersRanked: bool,
                      usernames: seq<string>, actionType: string, p: ActionParams, result: Json, dumps: Json -> string)
    ensures Grows(s, usersRanked, RankStep(s, iteration, query, currentQuery, usersRanked, usernames, actionType, p, result, dumps))
  {
    match AsDictList(result)
    case None =>
      FinishGrows(s, iteration, query, currentQuery, usersRanked, usernames, actionType, p, dumps);
    case Some(ranked) =>
      assert s.transcript[..|s.transcript|] == s.transcript;
      FinishGrows(s.(users := ranked), iteration, query, currentQuery, true, usernames, actionType, p, dumps);
  }

  lemma StoreGrows(s: Snapshot, iteration: nat, query: string, currentQuery: string, usersRanked: bool,
                   usernames: seq<string>, name: string, actionType: string, p: ActionParams, result: Json,
                   dumps: Json -> string)
    requires name == "get_user_metrics" ==> result.JObj?
    ensures Grows(s, usersRanked, StoreResult(s, iteration, query, currentQuery, usersRanked, usernames, name, actionType, p, result, dumps))
  {
    if name == "get_user_metrics" {
      var s' := s.(users := UpsertMetrics(s.users, result.fields),
                   processed := ProcessedAfterStore(s.processed, s.users, result.fields));
      FinishGrows(s', iteration, query, currentQuery, usersRanked, usernames, actionType, p, dumps);
    } else if name == "calculate_user_score" {
      ScoreStepGrows(s, iteration, query, currentQuery, usersRanked, usernames, actionType, p, result, dumps);
    } else if name == "rank_users" {
      RankStepGrows(s, iteration, query, currentQuery, usersRanked, usernames, actionType, p, result, dumps);
    } else {
      FinishGrows(s, iteration, query, currentQuery, usersRanked, usernames, actionType, p, dumps);
    }
  }

  lemma CallStepGrows(s: Snapshot, iteration: nat, query: string, currentQuery: string, usersRanked: bool,
                      usernames: seq<string>, d: DecisionOutput, host: Host)
    requires CalledFunction(d).Some?
    ensures Grows(s, usersRanked, CallStep(s, iteration, query, currentQuery, usersRanked, usernames, d, host))
  {
    var name := d.actionParams.funcName;
    if name == "rank_users" && s.rankingCompleted {
      assert (s.transcript + [RedundantRankLine(iteration)])[..|s.transcript|] == s.transcript;
    } else if name == "rank_users" && !AllScored(s.users, s.scored) {
      assert (s.transcript + [PrematureRankLine(iteration)])[..|s.transcript|] == s.transcript;
    } else {
      var result := ExecuteFunction(name, d.actionParams.params, host);
      StoreGrows(s, iteration, query, currentQuery, usersRanked, usernames, name, d.actionType,
                 WithResult(d.actionParams, result), result, host.dumps);
    }
  }

  /**
   * Every iteration keeps the transcript and adds at most one line to it,
   * and a completed ranking is never undone.
   */
  lemma StepMonotone(s: Snapshot, iteration: nat, query: string, currentQuery: string, usersRanked: bool,
                     usernames: seq<string>, verbose: bool, d: DecisionOutput, host: Host)
    ensures Grows(s, usersRanked, StepSpec(s, iteration, query, currentQuery, usersRanked, usernames, verbose, d, host))
  {
    if CalledFunction(d).Some? {
      CallStepGrows(s, iteration, query, currentQuery, usersRanked, usernames, d, host);
    } else if d.actionType == "verification_success" || (d.actionType == "final_answer" && d.actionParams.FinalAnswerActionParams?) {
      assert s.transcript[..|s.transcript|] == s.transcript;
    } else {
      FinishGrows(s, iteration, query, currentQuery, usersRanked, usernames, d.actionType, d.actionParams, host.dumps);
    }
  }

  /** The line an iteration formats: its action type and its parameters, with the call's result filled in. */
  function IterationLine(s: Snapshot, iteration: nat, d: DecisionOutput, host: Host): string {
    var p := if CalledFunction(d).Some?
             then WithResult(d.actionParams, ExecuteFunction(d.actionParams.funcName, d.actionParams.params, host))
             else d.actionParams;
    FormatIterationResponse(iteration + 1, d.actionType, p, host.dumps)
  }

  /** A score that is stored and goes on adds exactly the iteration's line. */
  lemma ScoreStepAddsItsLine(s: Snapshot, iteration: nat, query: string, currentQuery: string, usersRanked: bool,
                             usernames: seq<string>, actionType: string, p: ActionParams, result: Json, dumps: Json -> string)
    ensures var st := ScoreStep(s, iteration, query, currentQuery, usersRanked, usernames, actionType, p, result, dumps);
            st.control.Continue? ==> st.after.transcript == s.transcript + [FormatIterationResponse(iteration + 1, actionType, p, dumps)]
  {
    if PyIn("username", result) == Ok(true) && Subscript(result, "username").Ok? {
      var username := Subscript(result, "username").value;
      var score := GetOr(result.fields, "score", JInt(0));
      var s' := s.(users := AttachScore(s.users, username, score), scored := ScoredAfterStore(s.scored, s.users, username));
      var q := if Complete(s', usernames) then query + RankNowPrompt else currentQuery;
      assert ScoreStep(s, iteration, query, currentQuery, usersRanked, usernames, actionType, p, result, dumps)
          == Finish(s', iteration, query, q, usersRanked, usernames, actionType, p, dumps);
    }
  }

  /** A stored result that goes on without completing the ranking adds exactly the iteration's line. */
  lemma StoreAddsItsLine(s: Snapshot, iteration: nat, query: string, currentQuery: string, usersRanked: bool,
                         usernames: seq<string>, name: string, actionType: string, p: ActionParams, result: Json,
                         dumps: Json -> string)
    requires name == "get_user_metrics" ==> result.JObj?
    requires name == "rank_users" ==> !s.rankingCompleted
    ensures var st := StoreResult(s, iteration, query, currentQuery, usersRanked, usernames, name, actionType, p, result, dumps);
            st.control.Continue? && st.after.rankingCompleted == s.rankingCompleted ==>
              st.after.transcript == s.transcript + [FormatIterationResponse(iteration + 1, actionType, p, dumps)]
  {
    var st := StoreResult(s, iteration, query, currentQuery, usersRanked, usernames, name, actionType, p, result, dumps);
    if name == "get_user_metrics" {
      var s' := s.(users := UpsertMetrics(s.users, result.fields),
                   processed := ProcessedAfterStore(s.processed, s.users, result.fields));
      assert st == Finish(s', iteration, query, currentQuery, usersRanked, usernames, actionType, p, dumps);
    } else if name == "calculate_user_score" {
      assert st == ScoreStep(s, iteration, query, currentQuery, usersRanked, usernames, actionType, p, result, dumps);
      ScoreStepAddsItsLine(s, iteration, query, currentQuery, usersRanked, usernames, actionType, p, result, dumps);
    } else if name == "rank_users" {
      assert st == RankStep(s, iteration, query, currentQuery, usersRanked, usernames, actionType, p, result, dumps);
    } else {
      assert st == Finish(s, iteration, query, currentQuery, usersRanked, usernames, actionType, p, dumps);
    }
  }

  /**
   * Lines 203-205: an iteration that goes on, whose ranking call is not
   * skipped and which does not complete the ranking, adds exactly one line
   * to the transcript: its own formatted line.
   */
  lemma StepAddsItsLine(s: Snapshot, iteration: nat, query: string, currentQuery: string, usersRanked: bool,
                        usernames: seq<string>, verbose: bool, d: DecisionOutput, host: Host)
    ensures var st := StepSpec(s, iteration, query, currentQuery, usersRanked, usernames, verbose, d, host);
            var skipped := CalledFunction(d) == Some("rank_users") && (s.rankingCompleted || !AllScored(s.users, s.scored));
            st.control.Continue? && !skipped && st.after.rankingCompleted == s.rankingCompleted ==>
              st.after.transcript == s.transcript + [IterationLine(s, iteration, d, host)]
  {
    var st := StepSpec(s, iteration, query, currentQuery, usersRanked, usernames, verbose, d, host);
    if CalledFunction(d).Some? {
      var name := d.actionParams.funcName;
      if !(name == "rank_users" && (s.rankingCompleted || !AllScored(s.users, s.scored))) {
        var result := ExecuteFunction(name, d.actionParams.params, host);
        assert st == StoreResult(s, iteration, query, currentQuery, usersRanked, usernames, name, d.actionType,
                                 WithResult(d.actionParams, result), result, host.dumps);
        StoreAddsItsLine(s, iteration, query, currentQuery, usersRanked, usernames, name, d.actionType,
                         WithResult(d.actionParams, result), result, host.dumps);
      }
    } else if !(d.actionType == "verification_success" || (d.actionType == "final_answer" && d.actionParams.FinalAnswerActionParams?)) {
      assert st == Finish(s, iteration, query, currentQuery, usersRanked, usernames, d.actionType, d.actionParams, host.dumps);
    }
  }

  /** An iteration on a reply keeps the transcript and adds at most one line to it. */
  lemma IterateMonotone(s: Snapshot, iteration: nat, query: string, currentQuery: string, usersRanked: bool,
                        usernames: seq<string>, verbose: bool, reply: LlmReply, host: Host)
    ensures Grows(s, usersRanked, Iterate(s, iteration, query, currentQuery, usersRanked, usernames, verbose, reply, host))
  {
    IterateOnMonotone(s, iteration, query, currentQuery, usersRanked, usernames, verbose, Decide(reply, host), host);
  }

  /** The same once the decision is made, whether it raised or not. */
  lemma IterateOnMonotone(s: Snapshot, iteration: nat, query: string, currentQuery: string, usersRanked: bool,
                          usernames: seq<string>, verbose: bool, decided: Result<DecisionOutput, Fault>, host: Host)
    ensures Grows(s, usersRanked, IterateOn(s, iteration, query, currentQuery, usersRanked, usernames, verbose, decided, host))
  {
    var st := IterateOn(s, iteration, query, currentQuery, usersRanked, usernames, verbose, decided, host);
    match decided
    case Err(f) =>
      assert st == Step(s, Stop(Raised(f)));
      assert s.transcript[..|s.transcript|] == s.transcript;
    case Ok(d) =>
      assert st == StepSpec(s, iteration, query, currentQuery, usersRanked, usernames, verbose, d, host);
      StepMonotone(s, iteration, query, currentQuery, usersRanked, usernames, verbose, d, host);
  }

  /**
   * After the first iteration and until a ranking succeeds, the prompt to
   * rank that scoring sets is replaced by the generic one before the next
   * query is asked.
   */
  lemma RankPromptIsOverwritten(s: Snapshot, iteration: nat, query: string, currentQuery: string,
                                usernames: seq<string>, verbose: bool, d: DecisionOutput, host: Host)
    requires iteration > 0
    requires CalledFunction(d) == Some("calculate_user_score")
    ensures var st := StepSpec(s, iteration, query, currentQuery, false, usernames, verbose, d, host);
            st.control.Continue? ==> st.control.currentQuery == query + NextPrompt
  {
    var result := ExecuteFunction("calculate_user_score", d.actionParams.params, host);
    var p := WithResult(d.actionParams, result);
    assert StepSpec(s, iteration, query, currentQuery, false, usernames, verbose, d, host)
        == ScoreStep(s, iteration, query, currentQuery, false, usernames, d.actionType, p, result, host.dumps);
  }

  // ---- what the whole run guarantees ----

  /** The run adds at most one transcript line per iteration and never undoes a completed ranking. */
  lemma {:induction false} RunMonotone(s: Snapshot, iteration: nat, maxIterations: int, query: string, currentQuery: string,
                                       usersRanked: bool, usernames: seq<string>, verbose: bool, llm: Llm, host: Host)
    requires iteration <= maxIterations
    ensures var (final, _) := RunFrom(s, iteration, maxIterations, query, currentQuery, usersRanked, usernames, verbose, llm, host);
            && |s.transcript| <= |final.transcript| <= |s.transcript| + (maxIterations - iteration)
            && final.transcript[..|s.transcript|] == s.transcript
            && (s.rankingCompleted ==> final.rankingCompleted)
    decreases maxIterations - iteration
  {
    if iteration < maxIterations {
      var reply := llm(iteration, currentQuery, ContextOf(s));
      var st := Iterate(s, iteration, query, currentQuery, usersRanked, usernames, verbose, reply, host);
      IterateMonotone(s, iteration, query, currentQuery, usersRanked, usernames, verbose, reply, host);
      match st.control
      case Stop(o) =>
        assert RunFrom(s, iteration, maxIterations, query, currentQuery, usersRanked, usernames, verbose, llm, host)
            == (st.after, o);
      case Continue(q, ranked) =>
        assert RunFrom(s, iteration, maxIterations, query, currentQuery, usersRanked, usernames, verbose, llm, host)
            == RunFrom(st.after, iteration + 1, maxIterations, query, q, ranked, usernames, verbose, llm, host);
        RunMonotone(st.after, iteration + 1, maxIterations, query, q, ranked, usernames, verbose, llm, host);
        var final := RunFrom(st.after, iteration + 1, maxIterations, query, q, ranked, usernames, verbose, llm, host).0;
        PrefixOfPrefix(final.transcript, st.after.transcript, s.transcript);
    }
  }

  /** A prefix of a prefix is a prefix. */
  lemma PrefixOfPrefix(a: seq<string>, b: seq<string>, c: seq<string>)
    requires |c| <= |b| <= |a| && a[..|b|] == b && b[..|c|] == c
    ensures a[..|c|] == c
  {
    assert a[..|c|] == a[..|b|][..|c|];
  }

  /** With no iterations allowed, the agent returns the empty list without asking the model. */
  lemma NoIterationsReturnsEmpty(usernames: seq<string>, maxIterations: int, verbose: bool, llm: Llm, host: Host)
    requires maxIterations <= 0
    ensures Run(usernames, maxIterations, verbose, llm, host) == (EmptySnapshot, Returned(JArr([])))
  {
  }

  /** A whole run leaves at most one transcript line per allowed iteration. */
  lemma RunTranscriptBound(usernames: seq<string>, maxIterations: int, verbose: bool, llm: Llm, host: Host)
    ensures |Run(usernames, maxIterations, verbose, llm, host).0.transcript| <= if maxIterations < 0 then 0 else maxIterations
  {
    if maxIterations >= 0 {
      var query := InitialQuery(usernames, host.str);
      RunMonotone(EmptySnapshot, 0, maxIterations, query, query, false, usernames, verbose, llm, host);
    }
  }

  // ---- update_users_list with whatever rank_users returned, as written ----

  /**
   * `all(u.get("username") in scored_users for u in users_metrics)` over the
   * value the list was replaced with: iterating a dict or a string yields
   * strings, which have no `get`.
   */
  function AllScoredOver(v: Json, scored: set<Json>): Result<bool, Fault> {
    match v
    case JArr(items) => AllItemsScored(items, scored)
    case JObj(m) => if m == map[] then Ok(true) else Err(AttributeError("'str' object has no attribute 'get'"))
    case JStr(t) => if t == [] then Ok(true) else Err(AttributeError("'str' object has no attribute 'get'"))
    case _ => Err(TypeError("'" + TypeName(v) + "' object is not iterable"))
  }

  /** `all` over list items, stopping at the first unscored record or the first item without `get`. */
  function AllItemsScored(items: seq<Json>, scored: set<Json>): Result<bool, Fault> {
    if items == [] then Ok(true)
    else if !items[0].JObj? then Err(AttributeError("'" + TypeName(items[0]) + "' object has no attribute 'get'"))
    else if UsernameOf(items[0].fields) !in scored then Ok(false)
    else AllItemsScored(items[1..], scored)
  }

  /** On a real list of records the test agrees with `AllScored`. */
  lemma {:induction false} AllScoredOverRecords(users: seq<Dict>, scored: set<Json>)
    ensures AllScoredOver(DictList(users), scored) == Ok(AllScored(users, scored))
    decreases |users|
  {
    var items := DictList(users).items;
    if users != [] {
      AllScoredOverRecords(users[1..], scored);
      assert items[0] == JObj(users[0]);
      assert items[1..] == DictList(users[1..]).items;
      assert AllScored(users, scored) <==> UsernameOf(users[0]) in scored && AllScored(users[1..], scored) by {
        if UsernameOf(users[0]) in scored && AllScored(users[1..], scored) {
          forall i | 0 < i < |users| ensures UsernameOf(users[i]) in scored {
            assert users[i] == users[1..][i - 1];
          }
        }
      }
    }
  }

  /**
   * Lines 172-177 as written: `update_users_list(result)` stores the
   * call's value whatever it is, `users_ranked` is set, and the completion
   * test evaluates `all_users_processed` and then `all_users_scored` on the
   * stored value. The result is whether ranking is completed, or the
   * exception the test raises.
   */
  function RankStepAsWritten(s: Snapshot, result: Json, usernames: seq<string>): Result<bool, Fault> {
    if !AllProcessed(usernames, s.processed) then Ok(false)
    else AllScoredOver(result, s.scored)
  }

  /**
   * As written, a `rank_users` call whose tool fails, once every target is
   * processed, stores the error record as the list, and the completion
   * test then raises instead of leaving the memory as it was.
   */
  lemma FailedRankRaisesAsWritten(s: Snapshot, usernames: seq<string>, params: string, host: Host)
    requires AllProcessed(usernames, s.processed)
    requires host.loads(params).Err? || RankUsers(host.loads(params).value).Err?
    ensures RankStepAsWritten(s, ExecuteFunction("rank_users", params, host), usernames)
         == Err(AttributeError("'str' object has no attribute 'get'"))
  {
    FailedRankIsNotAList(params, host);
  }

  /** As written and as corrected, a successful ranking reaches the same completion test. */
  lemma SuccessfulRankAgrees(s: Snapshot, usernames: seq<string>, ranked: seq<Dict>)
    ensures RankStepAsWritten(s, DictList(ranked), usernames) == Ok(Complete(s.(users := ranked), usernames))
  {
    AllScoredOverRecords(ranked, s.scored);
  }

  /**
   * The input that shows it: one target "a", fetched and scored, and a
   * ranking call whose parameters are not JSON.
   */
  lemma FailedRankExample()
    ensures var s := Snapshot([map["username" := JStr("a"), "score" := JReal(1.0)]], [], {JStr("a")}, {JStr("a")}, false);
            var host := Host(t => Err("Expecting value: line 1 column 1 (char 0)"), j => "", j => "", u => InstagramTools.FetchFailed(""));
            RankStepAsWritten(s, ExecuteFunction("rank_users", "not json", host), ["a"])
              == Err(AttributeError("'str' object has no attribute 'get'"))
  {
    var s := Snapshot([map["username" := JStr("a"), "score" := JReal(1.0)]], [], {JStr("a")}, {JStr("a")}, false);
    var host := Host(t => Err("Expecting value: line 1 column 1 (char 0)"), j => "", j => "", u => InstagramTools.FetchFailed(""));
    assert AllProcessed(["a"], s.processed);
    FailedRankRaisesAsWritten(s, ["a"], "not json", host);
  }
}

=== FILE: decision.dfy ===
/**
 * The decision layer: the verifier of a final answer embedded in a
 * verification reply, the dispatch from a parsed reply to an action, and
 * the progress summary over the memory. JSON decoding is the parameter
 * `loads`, standing for `json.loads`.
 */
module Decision {
  import opened Wrappers
  import opened PyStr
  import opened Models
  import opened ProfileSchema
  import opened Memory
  import Perception

  /** `json.loads`: the decoded value, or the decoder's error message. */
  type Loads = string -> Result<Json, string>

  /** Where the regex `FINAL_ANSWER: (\[.*\])` must start matching: the marker and the opening bracket. */
  const AnswerOpening := "FINAL_ANSWER: ["

  /**
   * The group that `re.search(r"FINAL_ANSWER: (\[.*\])", content, re.DOTALL)`
   * captures: from the bracket after the first marker up to and including
   * the last `]` of the content (the `.*` is greedy and matches line
   * breaks); `None` when there is no such span.
   */
  function FinalAnswerSpan(content: string): (r: Option<string>)
    ensures r.None? <==> match Find(content, AnswerOpening)
                         case None => true
                         case Some(p) => ']' !in content[p + 15..]
    ensures r.Some? ==> |r.value| >= 2 && r.value[0] == '[' && r.value[|r.value| - 1] == ']'
    ensures r.Some? ==> exists p :: && OccursAt(content, AnswerOpening, p)
                                    && p + 14 + |r.value| <= |content|
                                    && content[p + 14..p + 14 + |r.value|] == r.value
                                    && ']' !in content[p + 14 + |r.value|..]
  {
    match Find(content, AnswerOpening)
    case None => None
    case Some(p) =>
      match LastIndexOfChar(content, ']')
      case None =>
        NoCharInSuffix(content, ']', p + 15);
        None
      case Some(q) =>
        if q <= p + 14 then
          NoCharInSuffix(content[q + 1..], ']', p + 14 - q);
          assert content[q + 1..][p + 14 - q..] == content[p + 15..];
          None
        else
          SpanAt(content, p, q);
          Some(content[p + 14..q + 1])
  }

  /** A character absent from a text is absent from each of its suffixes. */
  lemma NoCharInSuffix(s: string, c: char, i: nat)
    requires c !in s
    ensures i <= |s| ==> c !in s[i..]
  {
  }

  /** The span from the bracket after the marker at `p` to the last `]` at `q`. */
  lemma SpanAt(content: string, p: nat, q: nat)
    requires OccursAt(content, AnswerOpening, p) && p + 14 < q < |content|
    requires content[q] == ']' && ']' !in content[q + 1..]
    ensures var span := content[p + 14..q + 1];
            && |span| >= 2 && span[0] == '[' && span[|span| - 1] == ']'
            && p + 14 + |span| <= |content| && content[p + 14..p + 14 + |span|] == span
            && ']' !in content[p + 14 + |span|..]
            && ']' in content[p + 15..]
  {
    assert content[p..p + 15] == AnswerOpening;
    assert content[p + 14] == content[p..p + 15][14];
    assert content[p + 15..][q - p - 15] == ']';
  }

  /**
   * `verify_json_output`: true exactly when there is a final-answer span,
   * it decodes, the decoded value is a non-empty list, and its first
   * element passes the card schema. Every other case, including an empty
   * list, is false.
   */
  predicate VerifyJsonOutput(content: string, loads: Loads) {
    match FinalAnswerSpan(content)
    case None => false
    case Some(span) =>
      match loads(span)
      case Err(_) => false
      case Ok(v) => v.JArr? && |v.items| > 0 && ValidProfile(v.items[0])
  }

  /** The verifier fails closed: a passing content has a span that decodes to a list whose first record is valid. */
  lemma VerifyJsonOutputSound(content: string, loads: Loads)
    requires VerifyJsonOutput(content, loads)
    ensures FinalAnswerSpan(content).Some?
    ensures var v := loads(FinalAnswerSpan(content).value);
            v.Ok? && v.value.JArr? && |v.value.items| > 0 && ValidProfile(v.value.items[0])
  {
  }

  /** Only the first decoded element is checked: the rest of the list does not matter. */
  lemma VerifyJsonOutputReadsFirstOnly(content: string, loads: Loads)
    requires FinalAnswerSpan(content).Some?
    requires loads(FinalAnswerSpan(content).value).Ok?
    requires loads(FinalAnswerSpan(content).value).value.JArr?
    ensures var items := loads(FinalAnswerSpan(content).value).value.items;
            VerifyJsonOutput(content, loads) <==> |items| > 0 && ValidProfile(items[0])
  {
  }

  /** The action types the decision layer can produce. */
  const ActionTypes: set<string> := {
    "thinking", "verification_success", "verification_failed", "function_call",
    "final_answer", "error", "mixed", "unknown"}

  /** The error text of a final answer that does not decode. */
  const FinalAnswerDecodeError := "Could not parse final result as JSON"

  /** `len(v)` is defined: the value is a string, a list or a dict. */
  predicate HasLen(v: Json) {
    v.JStr? || v.JArr? || v.JObj?
  }

  /** The exception `len(v)` raises on a value without a length. */
  function NoLenError(v: Json): Fault {
    TypeError("object of type '" + TypeName(v) + "' has no len()")
  }

  /**
   * `determine_next_action`, returning the `DecisionOutput` shape the
   * orchestrator reads. The memory and the target list it receives are
   * never read, so they are not parameters here. A final answer is logged
   * with `len` of the decoded value, outside the `except` for decoding
   * errors: a decoded number, boolean or null raises `TypeError`, the only
   * way this function raises.
   */
  function DetermineNextAction(parsed: PerceptionResponse, loads: Loads): (r: Result<DecisionOutput, Fault>)
    ensures r.Ok? ==> r.value.actionType in ActionTypes
    ensures r.Err? <==> parsed.FinalAnswerResponse? && loads(parsed.content).Ok? && !HasLen(loads(parsed.content).value)
    ensures r.Ok? && r.value.actionParams.FinalAnswerActionParams? ==> HasLen(r.value.actionParams.rankedUsers)
  {
    match parsed
    case ThinkingResponse(content) => Ok(DecisionOutput("thinking", ThinkingActionParams(content)))
    case VerificationResponse(content) =>
      if VerifyJsonOutput(content, loads) then Ok(DecisionOutput("verification_success", VerificationActionParams(content)))
      else Ok(DecisionOutput("verification_failed", VerificationActionParams(content)))
    case FunctionCallResponse(name, params) => Ok(DecisionOutput("function_call", FunctionCallActionParams(name, params, None)))
    case FinalAnswerResponse(content) =>
      (match loads(content)
       case Ok(rankedUsers) =>
         if HasLen(rankedUsers) then Ok(DecisionOutput("final_answer", FinalAnswerActionParams(rankedUsers)))
         else Err(NoLenError(rankedUsers))
       case Err(_) => Ok(DecisionOutput("error", ErrorActionParams(FinalAnswerDecodeError))))
    case MixedResponse(thinking, functionCall) =>
      var call := Perception.SplitCall(functionCall);
      Ok(DecisionOutput("mixed", MixedActionParams(thinking, call.0, call.1, None)))
    case ErrorResponse(content) => Ok(DecisionOutput("unknown", UnknownActionParams(content)))
    case UnknownResponse(content) => Ok(DecisionOutput("unknown", UnknownActionParams(content)))
  }

  /** A decision asks for a function exactly when the reply was a function call or a mixed reply. */
  lemma CallsOnlyForCallReplies(parsed: PerceptionResponse, loads: Loads)
    ensures var r := DetermineNextAction(parsed, loads);
            r.Ok? ==> (CalledFunction(r.value).Some? <==> parsed.FunctionCallResponse? || parsed.MixedResponse?)
    ensures var r := DetermineNextAction(parsed, loads);
            r.Ok? && CalledFunction(r.value).Some? ==> r.value.actionParams.result.None?
    ensures parsed.FunctionCallResponse? || parsed.MixedResponse? ==> DetermineNextAction(parsed, loads).Ok?
  {
  }

  /** A function call is passed through as it is: same name, same parameters, no redirect. */
  lemma FunctionCallPassedThrough(parsed: PerceptionResponse, loads: Loads)
    requires parsed.FunctionCallResponse?
    ensures DetermineNextAction(parsed, loads)
         == Ok(DecisionOutput("function_call", FunctionCallActionParams(parsed.funcName, parsed.params, None)))
  {
  }

  /** Thinking text is passed through; error and unknown replies both become `unknown`, keeping their text. */
  lemma ContentPassedThrough(parsed: PerceptionResponse, loads: Loads)
    requires parsed.ThinkingResponse? || parsed.ErrorResponse? || parsed.UnknownResponse?
    ensures var r := DetermineNextAction(parsed, loads);
            && r.Ok?
            && r.value.actionType == (if parsed.ThinkingResponse? then "thinking" else "unknown")
            && r.value.actionParams == (if parsed.ThinkingResponse? then ThinkingActionParams(parsed.content)
                                        else UnknownActionParams(parsed.content))
  {
  }

  /** A verification reply succeeds exactly when its content verifies; the content is kept either way. */
  lemma VerificationOutcome(parsed: PerceptionResponse, loads: Loads)
    requires parsed.VerificationResponse?
    ensures var r := DetermineNextAction(parsed, loads);
            && r.Ok?
            && r.value.actionParams == VerificationActionParams(parsed.content)
            && (r.value.actionType == "verification_success" <==> VerifyJsonOutput(parsed.content, loads))
            && (r.value.actionType == "verification_failed" <==> !VerifyJsonOutput(parsed.content, loads))
  {
  }

  /**
   * A final answer that decodes to a string, list or dict carries the
   * decoded value; one that decodes to anything else raises the `TypeError`
   * of `len`; one that does not decode is an error action, not an
   * exception.
   */
  lemma FinalAnswerOutcome(parsed: PerceptionResponse, loads: Loads)
    requires parsed.FinalAnswerResponse?
    ensures var r := DetermineNextAction(parsed, loads);
            var v := loads(parsed.content);
            && (v.Ok? && HasLen(v.value) ==> r == Ok(DecisionOutput("final_answer", FinalAnswerActionParams(v.value))))
            && (v.Ok? && !HasLen(v.value) ==> r == Err(NoLenError(v.value)))
            && (v.Err? ==> r == Ok(DecisionOutput("error", ErrorActionParams(FinalAnswerDecodeError))))
  {
  }

  /** Only a final answer without a length raises, and then with the text Python gives. */
  lemma DecisionRaisesOnlyOnLen(parsed: PerceptionResponse, loads: Loads)
    ensures var r := DetermineNextAction(parsed, loads);
            r.Err? ==> && parsed.FinalAnswerResponse? && loads(parsed.content).Ok?
                       && r.error == TypeError("object of type '" + TypeName(loads(parsed.content).value) + "' has no len()")
                       && TypeName(loads(parsed.content).value) in {"int", "float", "bool", "NoneType"}
  {
  }

  /**
   * A mixed reply calls the same function with the same parameters as the
   * plain function-call reply made of its call line would, and keeps the
   * thinking text.
   */
  lemma MixedCallsLikeItsCallLine(responseText: string, loads: Loads)
    requires Perception.ParseLlmResponse(responseText).MixedResponse?
    ensures var t := Strip(responseText);
            var m := Perception.ParseLlmResponse(responseText);
            var d := DetermineNextAction(m, loads);
            && Contains(t, Perception.FunctionCallMarker)
            && var plain := Perception.ParseStripped(Perception.CallLine(t));
               && plain.FunctionCallResponse?
               && d == Ok(DecisionOutput("mixed", MixedActionParams(m.thinking, plain.funcName, plain.params, None)))
  {
    var t := Strip(responseText);
    Perception.ParseClassification(responseText);
    Perception.MixedShape(responseText);
    Perception.CallLineParsesAsCall(t);
  }

  /** `evaluate_progress`'s summary. */
  datatype Progress = Progress(
    totalUsers: nat,
    processedUsers: nat,
    unprocessedUsers: seq<string>,
    unscoredUsers: seq<Json>,
    allProcessed: bool,
    allScored: bool,
    readyForRanking: bool)

  /**
   * `evaluate_progress`: the targets not yet processed, the usernames of
   * the records not yet scored, and whether ranking may start, which is
   * exactly when neither list has anything left.
   */
  function EvaluateProgress(memory: AgentMemory, allUsernames: seq<string>): (r: Progress)
    reads memory
    ensures r.totalUsers == |allUsernames| && r.processedUsers == |memory.usersMetrics|
    ensures r.readyForRanking == (r.allProcessed && r.allScored)
    ensures r.allProcessed <==> r.unprocessedUsers == []
    ensures r.allScored <==> r.unscoredUsers == []
    ensures r.readyForRanking <==> r.unprocessedUsers == [] && r.unscoredUsers == []
    ensures forall u :: u in r.unprocessedUsers <==> u in allUsernames && JStr(u) !in memory.processedUsernames
    ensures forall i :: 0 <= i < |r.unscoredUsers| ==> r.unscoredUsers[i] !in memory.scoredUsers
    ensures r.allProcessed == AllProcessed(allUsernames, memory.processedUsernames)
    ensures r.allScored == AllScored(memory.usersMetrics, memory.scoredUsers)
    ensures r.unprocessedUsers == Unprocessed(allUsernames, memory.processedUsernames)
    ensures var unscored := Unscored(memory.usersMetrics, memory.scoredUsers);
            && |r.unscoredUsers| == |unscored|
            && forall k :: 0 <= k < |unscored| ==> r.unscoredUsers[k] == UsernameOf(unscored[k])
  {
    var unprocessed := memory.GetUnprocessedUsernames(allUsernames);
    var unscored := memory.GetUnscoredUsers();
    var allProcessed := memory.AllUsersProcessed(allUsernames);
    var allScored := memory.AllUsersScored();
    AllProcessedIffNoneUnprocessed(allUsernames, memory.processedUsernames);
    AllScoredIffNoneUnscored(memory.usersMetrics, memory.scoredUsers);
    var names := seq(|unscored|, k requires 0 <= k < |unscored| => UsernameOf(unscored[k]));
    assert forall k :: 0 <= k < |unscored| ==> unscored[k] in unscored;
    Progress(|allUsernames|, |memory.usersMetrics|, unprocessed, names,
             allProcessed, allScored, allProcessed && allScored)
  }
}

=== FILE: instagram_tools.dfy ===
/**
 * The parts of `InstagramTools` the agent core depends on: the profile
 * picture URL cleaner, and the record `user_info_by_username` builds from
 * what the Instagram client returned, including the placeholder it returns
 * when the client fails.
 */
module InstagramTools {
  import opened Wrappers
  import opened PyStr
  import opened Models
  import opened ProfileSchema

  /** The thumbnail size token in Instagram CDN URLs, and the size it is replaced with. */
  const SmallSize := "s150x150"
  const LargeSize := "s1080x1080"

  /**
   * `convert_instagram_profile_pic_url`: an empty URL or one not on
   * instagram.com is returned as it is; otherwise the query string is cut
   * off and every thumbnail size token is replaced by the large size.
   */
  function ConvertInstagramProfilePicUrl(originalUrl: string): (r: string)
    ensures originalUrl == [] || !Contains(originalUrl, "instagram.com") ==> r == originalUrl
    ensures originalUrl != [] && Contains(originalUrl, "instagram.com") ==>
              && r == ReplaceAll(Before(originalUrl, '?'), SmallSize, LargeSize)
              && '?' !in r && !Contains(r, SmallSize)
  {
    if originalUrl == [] || !Contains(originalUrl, "instagram.com") then originalUrl
    else
      var clean := Before(originalUrl, '?');
      ReplaceLeavesNoSmallSize(clean);
      ReplaceAll(clean, SmallSize, LargeSize)
  }

  /** A window that differs from the thumbnail token at one position is not that token. */
  lemma MismatchAt(x: string, p: nat, k: nat)
    requires p + 8 <= |x| && k < 8 && x[p + k] != SmallSize[k]
    ensures !OccursAt(x, SmallSize, p)
  {
    assert x[p..p + 8][k] == x[p + k];
  }

  /** No thumbnail token starts at `p` in the large token surrounded by text free of it. */
  lemma NoSmallSizeAt(a: string, b: string, p: nat)
    requires !Contains(a, SmallSize) && !Contains(b, SmallSize)
    requires p + 8 <= |a + LargeSize + b|
    ensures !OccursAt(a + LargeSize + b, SmallSize, p)
  {
    var x := a + LargeSize + b;
    if p + 8 <= |a| {
      assert x[p..p + 8] == a[p..p + 8];
      assert !OccursAt(a, SmallSize, p);
    } else if p < |a| {
      // the large token's leading 's' would sit inside the match, where the thumbnail token has none
      assert x[|a|] == 's';
      MismatchAt(x, p, |a| - p);
    } else if p == |a| {
      // "s10" cannot match "s15"
      assert x[p + 2] == '0';
      MismatchAt(x, p, 2);
    } else if p < |a| + 10 {
      // the large token has no other 's'
      assert x[p] == LargeSize[p - |a|];
      MismatchAt(x, p, 0);
    } else {
      var q := p - |a| - 10;
      assert x[p..p + 8] == b[q..q + 8];
      assert !OccursAt(b, SmallSize, q);
    }
  }

  /** The large size token cannot create a thumbnail token with the text around it. */
  lemma NoSmallSizeAcross(a: string, b: string)
    requires !Contains(a, SmallSize) && !Contains(b, SmallSize)
    ensures !Contains(a + LargeSize + b, SmallSize)
  {
    var x := a + LargeSize + b;
    forall p | 0 <= p && p + 8 <= |x|
      ensures !OccursAt(x, SmallSize, p)
    {
      NoSmallSizeAt(a, b, p);
    }
  }

  /** After `replace('s150x150', 's1080x1080')` no thumbnail token is left. */
  lemma {:induction false} ReplaceLeavesNoSmallSize(s: string)
    ensures !Contains(ReplaceAll(s, SmallSize, LargeSize), SmallSize)
    decreases |s|
  {
    match Find(s, SmallSize)
    case None =>
    case Some(i) =>
      var rest := s[i + |SmallSize|..];
      ReplaceLeavesNoSmallSize(rest);
      NoSmallSizeBeforeFirst(s, i);
      NoSmallSizeAcross(s[..i], ReplaceAll(rest, SmallSize, LargeSize));
      assert ReplaceAll(s, SmallSize, LargeSize) == s[..i] + LargeSize + ReplaceAll(rest, SmallSize, LargeSize);
  }

  /** The text before the first thumbnail token holds none. */
  lemma NoSmallSizeBeforeFirst(s: string, i: nat)
    requires i <= |s| && forall j :: 0 <= j < i ==> !OccursAt(s, SmallSize, j)
    ensures !Contains(s[..i], SmallSize)
  {
    var a := s[..i];
    forall j | 0 <= j <= |a| && OccursAt(a, SmallSize, j)
      ensures false
    {
      assert a[j..j + 8] == s[j..j + 8];
      assert OccursAt(s, SmallSize, j);
    }
  }

  /** Cleaning a cleaned URL changes nothing. */
  lemma ConvertIdempotent(url: string)
    ensures ConvertInstagramProfilePicUrl(ConvertInstagramProfilePicUrl(url)) == ConvertInstagramProfilePicUrl(url)
  {
    var r := ConvertInstagramProfilePicUrl(url);
    if r != [] && Contains(r, "instagram.com") {
      assert url != [] && Contains(url, "instagram.com");
      assert Before(r, '?') == r;
    }
  }

  /**
   * What the Instagram client gave for a user: the profile, its engagement
   * rate (none when computing it raised), or the exception's text.
   */
  datatype FetchedProfile = FetchedProfile(
    followerCount: int,
    followingCount: int,
    mediaCount: int,
    isPrivate: bool,
    isVerified: bool,
    engagementRate: Option<real>,
    profilePicUrl: string)

  /** The stored rate: the computed float, or the int 0 when computing it raised. */
  function RateValue(rate: Option<real>): (j: Json)
    ensures j.JInt? || j.JReal?
    ensures rate.None? <==> j == JInt(0)
    ensures rate.Some? ==> j == JReal(rate.value)
  {
    match rate
    case None => JInt(0)
    case Some(x) => JReal(x)
  }

  datatype FetchResult = Fetched(profile: FetchedProfile) | FetchFailed(message: string)

  /** A record with the eight card fields, each of its schema type. */
  function ProfileRecord(username: string, followers: int, following: int, media: int,
                         isPrivate: bool, isVerified: bool, rate: Json, url: string): (d: Dict)
    requires rate.JInt? || rate.JReal?
    ensures ValidProfile(JObj(d)) && "error" !in d
    ensures && d["username"] == JStr(username) && d["profile_picture_url"] == JStr(url)
            && d["followers_count"] == JInt(followers) && d["following_count"] == JInt(following)
            && d["media_count"] == JInt(media) && d["engagement_rate"] == rate
            && d["is_private"] == JBool(isPrivate) && d["is_verified"] == JBool(isVerified)
  {
    map[
      "username" := JStr(username),
      "followers_count" := JInt(followers),
      "following_count" := JInt(following),
      "media_count" := JInt(media),
      "is_private" := JBool(isPrivate),
      "is_verified" := JBool(isVerified),
      "engagement_rate" := rate,
      "profile_picture_url" := JStr(url)
    ]
  }

  /** The record returned instead of raising when the client fails: zero counts, no flags, no picture, and the error. */
  function PlaceholderMetrics(username: string, message: string): (d: Dict)
    ensures "username" in d && d["username"] == JStr(username)
    ensures ValidProfile(JObj(d)) && "error" in d
    ensures && d["error"] == JStr("Failed to retrieve user data: " + message)
            && d["followers_count"] == d["following_count"] == d["media_count"] == d["engagement_rate"] == JInt(0)
            && d["is_private"] == d["is_verified"] == JBool(false)
            && d["profile_picture_url"] == JStr("")
    ensures d.Keys == (set k | k in SchemaFields) + {"error"}
  {
    var record := ProfileRecord(username, 0, 0, 0, false, false, JInt(0), "");
    ExtraKeyKeepsProfile(record, "error", JStr("Failed to retrieve user data: " + message));
    record["error" := JStr("Failed to retrieve user data: " + message)]
  }

  /**
   * `user_info_by_username`: the metrics record for a fetched profile, with
   * its picture URL cleaned, or the placeholder when the fetch failed.
   * Either way the record names the user and passes the card schema; only
   * the placeholder carries an `error` key.
   */
  function UserInfoByUsername(username: string, fetched: FetchResult): (d: Dict)
    ensures "username" in d && d["username"] == JStr(username)
    ensures ValidProfile(JObj(d))
    ensures "error" in d <==> fetched.FetchFailed?
    ensures fetched.FetchFailed? ==>
              && d["error"] == JStr("Failed to retrieve user data: " + fetched.message)
              && d["followers_count"] == d["following_count"] == d["media_count"] == d["engagement_rate"] == JInt(0)
              && d["is_private"] == d["is_verified"] == JBool(false)
              && d["profile_picture_url"] == JStr("")
    ensures fetched.Fetched? ==>
              && d["followers_count"] == JInt(fetched.profile.followerCount)
              && d["following_count"] == JInt(fetched.profile.followingCount)
              && d["media_count"] == JInt(fetched.profile.mediaCount)
              && d["is_private"] == JBool(fetched.profile.isPrivate)
              && d["is_verified"] == JBool(fetched.profile.isVerified)
              && d["engagement_rate"] == RateValue(fetched.profile.engagementRate)
              && d["profile_picture_url"] == JStr(ConvertInstagramProfilePicUrl(fetched.profile.profilePicUrl))
    ensures d.Keys == (set k | k in SchemaFields) + (if fetched.FetchFailed? then {"error"} else {})
  {
    match fetched
    case FetchFailed(message) => PlaceholderMetrics(username, message)
    case Fetched(p) => FetchedMetrics(username, p)
  }

  /** The record for a fetched profile: its counts, flags, rate and cleaned picture URL. */
  function FetchedMetrics(username: string, p: FetchedProfile): (d: Dict)
    ensures "username" in d && d["username"] == JStr(username)
    ensures ValidProfile(JObj(d)) && "error" !in d
    ensures && d["followers_count"] == JInt(p.followerCount) && d["following_count"] == JInt(p.followingCount)
            && d["media_count"] == JInt(p.mediaCount)
            && d["is_private"] == JBool(p.isPrivate) && d["is_verified"] == JBool(p.isVerified)
            && d["engagement_rate"] == RateValue(p.engagementRate)
    ensures d["profile_picture_url"] == JStr(ConvertInstagramProfilePicUrl(p.profilePicUrl))
    ensures d.Keys == set k | k in SchemaFields
  {
    ProfileRecord(username, p.followerCount, p.followingCount, p.mediaCount, p.isPrivate, p.isVerified,
                  RateValue(p.engagementRate), ConvertInstagramProfilePicUrl(p.profilePicUrl))
  }

  /** A fetched record, placeholder or not, carries no `score`. */
  lemma FetchedRecordHasNoScore(username: string, fetched: FetchResult)
    ensures "score" !in UserInfoByUsername(username, fetched)
  {
    assert "score" !in SchemaFields;
  }
}

=== FILE: memory.dfy ===
/**
 * The agent's session memory (`AgentMemory`): the list of per-user metric
 * records, the transcript of iteration responses, and the sets of
 * processed and scored usernames. The list operations are specified by
 * pure functions on the old list; the class's methods are proved to
 * compute them.
 */
module Memory {
  import opened Wrappers
  import opened Models

  /** The `username` entry of a record, `None` when it has none (`record.get("username")`). */
  function UsernameOf(record: Dict): Json {
    Get(record, "username")
  }

  /** The index of the first record whose username equals `username`. */
  function FindUser(users: seq<Dict>, username: Json): (r: Option<nat>)
    ensures r.Some? ==> r.value < |users| && UsernameOf(users[r.value]) == username
    ensures r.Some? ==> forall j :: 0 <= j < r.value ==> UsernameOf(users[j]) != username
    ensures r.None? <==> forall j :: 0 <= j < |users| ==> UsernameOf(users[j]) != username
  {
    if users == [] then None
    else if UsernameOf(users[0]) == username then Some(0)
    else match FindUser(users[1..], username)
      case None => None
      case Some(k) => Some(k + 1)
  }

  /**
   * The list after `store_user_metrics(metrics)`: unchanged when the record
   * has no truthy username; the first record with that username replaced
   * in place; otherwise the record appended at the end.
   */
  function UpsertMetrics(users: seq<Dict>, metrics: Dict): (r: seq<Dict>)
    ensures !Truthy(UsernameOf(metrics)) ==> r == users
    ensures Truthy(UsernameOf(metrics)) && FindUser(users, UsernameOf(metrics)).Some? ==>
              var i := FindUser(users, UsernameOf(metrics)).value;
              |r| == |users| && r[i] == metrics && forall j :: 0 <= j < |users| && j != i ==> r[j] == users[j]
    ensures Truthy(UsernameOf(metrics)) && FindUser(users, UsernameOf(metrics)).None? ==>
              |r| == |users| + 1 && r[..|users|] == users && r[|users|] == metrics
  {
    var username := UsernameOf(metrics);
    if !Truthy(username) then users
    else match FindUser(users, username)
      case Some(i) => users[i := metrics]
      case None => users + [metrics]
  }

  /** The processed set after `store_user_metrics(metrics)`: only a new user is added. */
  function ProcessedAfterStore(processed: set<Json>, users: seq<Dict>, metrics: Dict): (r: set<Json>)
    ensures !Truthy(UsernameOf(metrics)) || FindUser(users, UsernameOf(metrics)).Some? ==> r == processed
    ensures Truthy(UsernameOf(metrics)) && FindUser(users, UsernameOf(metrics)).None? ==>
              r == processed + {UsernameOf(metrics)}
  {
    var username := UsernameOf(metrics);
    if Truthy(username) && FindUser(users, username).None? then processed + {username} else processed
  }

  /**
   * The list after `store_user_score(username, score)`: `score` set on the
   * first record with that username, every other record unchanged; an
   * unknown username changes nothing.
   */
  function AttachScore(users: seq<Dict>, username: Json, score: Json): (r: seq<Dict>)
    ensures |r| == |users|
    ensures FindUser(users, username).None? ==> r == users
    ensures FindUser(users, username).Some? ==>
              var i := FindUser(users, username).value;
              r[i] == users[i]["score" := score] && forall j :: 0 <= j < |users| && j != i ==> r[j] == users[j]
  {
    match FindUser(users, username)
    case None => users
    case Some(i) => users[i := users[i]["score" := score]]
  }

  /** The scored set after `store_user_score(username, score)`: the username is added only when it is held. */
  function ScoredAfterStore(scored: set<Json>, users: seq<Dict>, username: Json): (r: set<Json>)
    ensures FindUser(users, username).Some? ==> r == scored + {username}
    ensures FindUser(users, username).None? ==> r == scored
  {
    if FindUser(users, username).Some? then scored + {username} else scored
  }

  /** `[u for u in all_usernames if u not in processed_usernames]` */
  function Unprocessed(all: seq<string>, processed: set<Json>): (r: seq<string>)
    ensures |r| <= |all|
    ensures forall u :: u in r <==> u in all && JStr(u) !in processed
  {
    if all == [] then []
    else if JStr(all[0]) !in processed then [all[0]] + Unprocessed(all[1..], processed)
    else Unprocessed(all[1..], processed)
  }

  /** The unprocessed filter keeps the order of the targets: it distributes over concatenation. */
  lemma {:induction false} UnprocessedAppend(a: seq<string>, b: seq<string>, processed: set<Json>)
    ensures Unprocessed(a + b, processed) == Unprocessed(a, processed) + Unprocessed(b, processed)
  {
    if a != [] {
      assert (a + b)[1..] == a[1..] + b;
      UnprocessedAppend(a[1..], b, processed);
    } else {
      assert a + b == b;
    }
  }

  /** `all(u in processed_usernames for u in all_usernames)` */
  predicate AllProcessed(all: seq<string>, processed: set<Json>) {
    forall i :: 0 <= i < |all| ==> JStr(all[i]) in processed
  }

  /** Every target is processed exactly when none is left unprocessed. */
  lemma AllProcessedIffNoneUnprocessed(all: seq<string>, processed: set<Json>)
    ensures AllProcessed(all, processed) <==> Unprocessed(all, processed) == []
  {
    if !AllProcessed(all, processed) {
      var i :| 0 <= i < |all| && JStr(all[i]) !in processed;
      assert all[i] in Unprocessed(all, processed);
    }
  }

  /** `[u for u in users_metrics if u.get("username") not in scored_users]` */
  function Unscored(users: seq<Dict>, scored: set<Json>): (r: seq<Dict>)
    ensures |r| <= |users|
    ensures forall u :: u in r <==> u in users && UsernameOf(u) !in scored
  {
    if users == [] then []
    else if UsernameOf(users[0]) !in scored then [users[0]] + Unscored(users[1..], scored)
    else Unscored(users[1..], scored)
  }

  /** The unscored filter keeps the order of the records: it distributes over concatenation. */
  lemma {:induction false} UnscoredAppend(a: seq<Dict>, b: seq<Dict>, scored: set<Json>)
    ensures Unscored(a + b, scored) == Unscored(a, scored) + Unscored(b, scored)
  {
    if a != [] {
      assert (a + b)[1..] == a[1..] + b;
      UnscoredAppend(a[1..], b, scored);
    } else {
      assert a + b == b;
    }
  }

  /** `all(u.get("username") in scored_users for u in users_metrics)`: only held records count. */
  predicate AllScored(users: seq<Dict>, scored: set<Json>) {
    forall i :: 0 <= i < |users| ==> UsernameOf(users[i]) in scored
  }

  /** Every held record is scored exactly when none is unscored; an empty list is vacuously all scored. */
  lemma AllScoredIffNoneUnscored(users: seq<Dict>, scored: set<Json>)
    ensures AllScored(users, scored) <==> Unscored(users, scored) == []
    ensures users == [] ==> AllScored(users, scored)
  {
    if !AllScored(users, scored) {
      var i :| 0 <= i < |users| && UsernameOf(users[i]) !in scored;
      assert users[i] in Unscored(users, scored);
    }
  }

  /** The usernames of the held records. */
  function Usernames(users: seq<Dict>): set<Json> {
    set i | 0 <= i < |users| :: UsernameOf(users[i])
  }

  /**
   * The memory as `store_user_metrics` and `store_user_score` alone keep
   * it: every record has a truthy username, no two records share one, the
   * processed set is exactly the held usernames, and every scored user is
   * a processed one.
   */
  predicate Consistent(users: seq<Dict>, processed: set<Json>, scored: set<Json>) {
    && (forall i :: 0 <= i < |users| ==> Truthy(UsernameOf(users[i])))
    && (forall i, j :: 0 <= i < j < |users| ==> UsernameOf(users[i]) != UsernameOf(users[j]))
    && processed == Usernames(users)
    && scored <= processed
  }

  /** The empty memory is consistent. */
  lemma EmptyConsistent()
    ensures Consistent([], {}, {})
  {
    assert Usernames([]) == {};
  }

  /** Storing metrics keeps the memory consistent: usernames stay unique. */
  lemma StoreMetricsKeepsConsistent(users: seq<Dict>, processed: set<Json>, scored: set<Json>, metrics: Dict)
    requires Consistent(users, processed, scored)
    ensures Consistent(UpsertMetrics(users, metrics), ProcessedAfterStore(processed, users, metrics), scored)
  {
    var r := UpsertMetrics(users, metrics);
    var username := UsernameOf(metrics);
    if Truthy(username) {
      match FindUser(users, username)
      case Some(i) =>
        forall k | 0 <= k < |r|
          ensures UsernameOf(r[k]) == UsernameOf(users[k])
        {
        }
        assert Usernames(r) == Usernames(users);
      case None =>
        forall k | 0 <= k < |users|
          ensures r[k] == users[k]
        {
          assert r[..|users|][k] == users[k];
        }
        assert Usernames(r) == Usernames(users) + {username} by {
          forall x | x in Usernames(r)
            ensures x in Usernames(users) + {username}
          {
            var k :| 0 <= k < |r| && UsernameOf(r[k]) == x;
            if k < |users| {
              assert x in Usernames(users);
            }
          }
          assert UsernameOf(r[|users|]) == username;
        }
    }
  }

  /** Attaching a score keeps the memory consistent: only a held user becomes scored. */
  lemma StoreScoreKeepsConsistent(users: seq<Dict>, processed: set<Json>, scored: set<Json>, username: Json, score: Json)
    requires Consistent(users, processed, scored)
    ensures Consistent(AttachScore(users, username, score), processed, ScoredAfterStore(scored, users, username))
  {
    var r := AttachScore(users, username, score);
    forall k | 0 <= k < |r|
      ensures UsernameOf(r[k]) == UsernameOf(users[k])
    {
    }
    assert Usernames(r) == Usernames(users);
    match FindUser(users, username)
    case None =>
    case Some(i) =>
      assert username in Usernames(users);
  }

  /**
   * Storing a fresh record for an already scored user replaces the record
   * whole, so the user keeps its place in the scored set while its record
   * no longer carries the score.
   */
  lemma RestoreDropsScoreButKeepsScored(users: seq<Dict>, scored: set<Json>, metrics: Dict)
    requires Truthy(UsernameOf(metrics)) && "score" !in metrics
    requires FindUser(users, UsernameOf(metrics)).Some? && UsernameOf(metrics) in scored
    ensures var r := UpsertMetrics(users, metrics);
            var i := FindUser(users, UsernameOf(metrics)).value;
            "score" !in r[i] && UsernameOf(r[i]) in scored
  {
  }

  /** `AgentMemory`. `rankingCompleted` is the flag the orchestrator sets on it once ranking is done. */
  class AgentMemory {
    var usersMetrics: seq<Dict>
    var iterationResponses: seq<string>
    var processedUsernames: set<Json>
    var scoredUsers: set<Json>
    var rankingCompleted: bool

    /** `AgentMemory()`: every collection empty, ranking not completed. */
    constructor()
      ensures usersMetrics == [] && iterationResponses == []
      ensures processedUsernames == {} && scoredUsers == {}
      ensures !rankingCompleted
    {
      usersMetrics := [];
      iterationResponses := [];
      processedUsernames := {};
      scoredUsers := {};
      rankingCompleted := false;
    }

    /** `store_user_metrics`: upsert by username; a new user is also marked processed. */
    method StoreUserMetrics(metrics: Dict)
      modifies this`usersMetrics, this`processedUsernames
      ensures usersMetrics == UpsertMetrics(old(usersMetrics), metrics)
      ensures processedUsernames == ProcessedAfterStore(old(processedUsernames), old(usersMetrics), metrics)
    {
      var username := UsernameOf(metrics);
      if !Truthy(username) {
        return;
      }
      var i := 0;
      while i < |usersMetrics|
        invariant 0 <= i <= |usersMetrics|
        invariant usersMetrics == old(usersMetrics) && processedUsernames == old(processedUsernames)
        invariant forall j :: 0 <= j < i ==> UsernameOf(usersMetrics[j]) != username
      {
        if UsernameOf(usersMetrics[i]) == username {
          assert FindUser(usersMetrics, username) == Some(i);
          usersMetrics := usersMetrics[i := metrics];
          return;
        }
        i := i + 1;
      }
      usersMetrics := usersMetrics + [metrics];
      processedUsernames := processedUsernames + {username};
    }

    /** `store_user_score`: set `score` on the first record of that user and mark the user scored. */
    method StoreUserScore(username: Json, score: Json)
      modifies this`usersMetrics, this`scoredUsers
      ensures usersMetrics == AttachScore(old(usersMetrics), username, score)
      ensures scoredUsers == ScoredAfterStore(old(scoredUsers), old(usersMetrics), username)
    {
      var i := 0;
      while i < |usersMetrics|
        invariant 0 <= i <= |usersMetrics|
        invariant usersMetrics == old(usersMetrics) && scoredUsers == old(scoredUsers)
        invariant forall j :: 0 <= j < i ==> UsernameOf(usersMetrics[j]) != username
      {
        if UsernameOf(usersMetrics[i]) == username {
          assert FindUser(usersMetrics, username) == Some(i);
          usersMetrics := usersMetrics[i := usersMetrics[i]["score" := score]];
          scoredUsers := scoredUsers + {username};
          return;
        }
        i := i + 1;
      }
    }

    /** `update_users_list`: the list is replaced wholesale; neither set is touched. */
    method UpdateUsersList(usersList: seq<Dict>)
      modifies this`usersMetrics
      ensures usersMetrics == usersList
    {
      usersMetrics := usersList;
    }

    /** `add_iteration_response`: the transcript grows by one line at the end. */
    method AddIterationResponse(response: string)
      modifies this`iterationResponses
      ensures iterationResponses == old(iterationResponses) + [response]
    {
      iterationResponses := iterationResponses + [response];
    }

    /** `get_user_metrics`: the first record of that user, if any. */
    function GetUserMetrics(username: Json): (r: Option<Dict>)
      reads this
      ensures r.Some? <==> exists i :: 0 <= i < |usersMetrics| && UsernameOf(usersMetrics[i]) == username
      ensures r.Some? ==> r.value in usersMetrics && UsernameOf(r.value) == username
    {
      match FindUser(usersMetrics, username)
      case None => None
      case Some(i) => Some(usersMetrics[i])
    }

    /** `get_all_users_metrics` */
    function GetAllUsersMetrics(): seq<Dict>
      reads this
    {
      usersMetrics
    }

    /** `get_iteration_responses` */
    function GetIterationResponses(): seq<string>
      reads this
    {
      iterationResponses
    }

    /** `get_unprocessed_usernames` */
    function GetUnprocessedUsernames(allUsernames: seq<string>): seq<string>
      reads this
    {
      Unprocessed(allUsernames, processedUsernames)
    }

    /** `get_unscored_users` */
    function GetUnscoredUsers(): seq<Dict>
      reads this
    {
      Unscored(usersMetrics, scoredUsers)
    }

    /** `all_users_processed` */
    predicate AllUsersProcessed(allUsernames: seq<string>)
      reads this
    {
      AllProcessed(allUsernames, processedUsernames)
    }

    /** `all_users_scored` */
    predicate AllUsersScored()
      reads this
    {
      AllScored(usersMetrics, scoredUsers)
    }

    /** `get_context_dict`: the memory as the context handed to the perception layer. */
    function GetContextDict(): MemoryContext
      reads this
    {
      MemoryContext(usersMetrics, iterationResponses, processedUsernames, scoredUsers)
    }
  }
}

=== FILE: models.dfy ===
/**
 * The values the agent passes between its layers: the Python values that
 * JSON can carry, the dict helpers the layers use on them, the exceptions
 * the core can raise, and the record and union types of
 * ai/agents/instagram_tools/models.py.
 */
module Models {
  import opened Wrappers
  import opened PyStr

  /** A Python value of the kinds JSON carries: None, bool, int, float, str, list, dict. */
  datatype Json =
    | JNull
    | JBool(b: bool)
    | JInt(i: int)
    | JReal(r: real)
    | JStr(s: string)
    | JArr(items: seq<Json>)
    | JObj(fields: map<string, Json>)

  /** A Python `Dict[str, Any]`. */
  type Dict = map<string, Json>

  /** `d.get(key, default)` */
  function GetOr(d: Dict, key: string, default: Json): (v: Json)
    ensures key in d ==> v == d[key]
    ensures key !in d ==> v == default
  {
    if key in d then d[key] else default
  }

  /** `d.get(key)`: `None` for a missing key. */
  function Get(d: Dict, key: string): Json {
    GetOr(d, key, JNull)
  }

  /** Python truthiness (`if v:`). */
  predicate Truthy(v: Json) {
    match v
    case JNull => false
    case JBool(b) => b
    case JInt(i) => i != 0
    case JReal(r) => r != 0.0
    case JStr(s) => s != []
    case JArr(a) => a != []
    case JObj(m) => m != map[]
  }

  /** The numeric value of an int, float or bool (Python's `True == 1`); `None` for anything else. */
  function NumberValue(v: Json): Option<real> {
    match v
    case JInt(i) => Some(i as real)
    case JReal(r) => Some(r)
    case JBool(b) => Some(if b then 1.0 else 0.0)
    case _ => None
  }

  /** `type(v).__name__` */
  function TypeName(v: Json): string {
    match v
    case JNull => "NoneType"
    case JBool(_) => "bool"
    case JInt(_) => "int"
    case JReal(_) => "float"
    case JStr(_) => "str"
    case JArr(_) => "list"
    case JObj(_) => "dict"
  }

  /** A list of records as the Python list of dicts it is. */
  function DictList(users: seq<Dict>): (j: Json)
    ensures j.JArr? && |j.items| == |users|
    ensures forall k :: 0 <= k < |users| ==> j.items[k] == JObj(users[k])
  {
    JArr(seq(|users|, k requires 0 <= k < |users| => JObj(users[k])))
  }

  /** The list of dicts a Python list holds, or `None` when it is not a list of dicts. */
  function AsDictList(j: Json): (r: Option<seq<Dict>>)
    ensures r.Some? ==> DictList(r.value) == j
    ensures r.None? ==> !j.JArr? || exists k :: 0 <= k < |j.items| && !j.items[k].JObj?
  {
    if j.JArr? && forall k :: 0 <= k < |j.items| ==> j.items[k].JObj? then
      var users := seq(|j.items|, k requires 0 <= k < |j.items| => j.items[k].fields);
      assert DictList(users).items == j.items;
      Some(users)
    else None
  }

  /** Converting a record list to a Python list and back is the identity. */
  lemma DictListRoundTrip(users: seq<Dict>)
    ensures AsDictList(DictList(users)) == Some(users)
  {
    var j := DictList(users);
    assert AsDictList(j).Some?;
    var r := AsDictList(j).value;
    assert DictList(r) == j;
    assert |r| == |users|;
    forall k | 0 <= k < |users|
      ensures r[k] == users[k]
    {
      assert JObj(r[k]) == DictList(r).items[k] == j.items[k] == JObj(users[k]);
    }
    assert r == users;
  }

  /** An exception the core can raise, with the text `str(e)` gives. */
  datatype Fault =
    | KeyError(key: string)
    | TypeError(message: string)
    | AttributeError(message: string)
    | DecodeError(message: string)

  /** `str(e)` */
  function FaultText(f: Fault): string {
    match f
    case KeyError(k) => "'" + k + "'"
    case TypeError(m) => m
    case AttributeError(m) => m
    case DecodeError(m) => m
  }

  /**
   * Python's `item in container` for a string `item`: a key of a dict, an
   * element of a list, a substring of a str; any other value raises.
   */
  function PyIn(item: string, container: Json): (r: Result<bool, Fault>)
    ensures r.Err? <==> !(container.JObj? || container.JArr? || container.JStr?)
    ensures container.JObj? ==> r == Ok(item in container.fields)
  {
    match container
    case JObj(m) => Ok(item in m)
    case JArr(a) => Ok(JStr(item) in a)
    case JStr(s) => Ok(Contains(s, item))
    case _ => Err(TypeError("argument of type '" + TypeName(container) + "' is not iterable"))
  }

  // ---- Perception layer (models.py lines 20-73) ----

  /** The raw reply of the language model, or the text of the exception the call raised. */
  datatype LlmReply = Replied(text: string) | CallFailed(message: string)

  /** What the perception layer makes of one reply; the seven variants of `PerceptionResponse`. */
  datatype PerceptionResponse =
    | ThinkingResponse(content: string)
    | FunctionCallResponse(funcName: string, params: string)
    | VerificationResponse(content: string)
    | FinalAnswerResponse(content: string)
    | MixedResponse(thinking: string, functionCall: string)
    | ErrorResponse(content: string)
    | UnknownResponse(content: string)

  /** The literal `type` field of each variant. */
  function TypeTag(p: PerceptionResponse): (tag: string)
    ensures tag in {"thinking", "function_call", "verification", "final_answer", "mixed", "error", "unknown"}
  {
    match p
    case ThinkingResponse(_) => "thinking"
    case FunctionCallResponse(_, _) => "function_call"
    case VerificationResponse(_) => "verification"
    case FinalAnswerResponse(_) => "final_answer"
    case MixedResponse(_, _) => "mixed"
    case ErrorResponse(_) => "error"
    case UnknownResponse(_) => "unknown"
  }

  /** Each variant has its own tag, so the tag determines the variant. */
  lemma TypeTagDeterminesVariant(p: PerceptionResponse, q: PerceptionResponse)
    requires TypeTag(p) == TypeTag(q)
    ensures p.ThinkingResponse? == q.ThinkingResponse? && p.FunctionCallResponse? == q.FunctionCallResponse?
    ensures p.VerificationResponse? == q.VerificationResponse? && p.FinalAnswerResponse? == q.FinalAnswerResponse?
    ensures p.MixedResponse? == q.MixedResponse? && p.ErrorResponse? == q.ErrorResponse?
    ensures p.UnknownResponse? == q.UnknownResponse?
  {
  }

  // ---- Decision layer (models.py lines 76-107) ----

  /**
   * The parameter records of an action. The first four are models.py's;
   * the last three are the dicts the decision layer builds for mixed,
   * error and unknown replies, for which models.py has no record.
   * `result` is `None` until the orchestrator has executed the call.
   */
  datatype ActionParams =
    | ThinkingActionParams(content: string)
    | FunctionCallActionParams(funcName: string, params: string, result: Option<Json>)
    | VerificationActionParams(content: string)
    | FinalAnswerActionParams(rankedUsers: Json)
    | MixedActionParams(thinking: string, funcName: string, params: string, result: Option<Json>)
    | ErrorActionParams(message: string)
    | UnknownActionParams(content: string)

  /** `DecisionOutput`: an action type and its parameters. */
  datatype DecisionOutput = DecisionOutput(actionType: string, actionParams: ActionParams)

  /** The function a decision asks to run, when it is a function call or a mixed reply. */
  function CalledFunction(d: DecisionOutput): Option<string> {
    if (d.actionType == "function_call" || d.actionType == "mixed")
       && (d.actionParams.FunctionCallActionParams? || d.actionParams.MixedActionParams?)
    then Some(d.actionParams.funcName)
    else None
  }

  /** The same parameters with the call's result filled in (`action_params.result = result`). */
  function WithResult(p: ActionParams, result: Json): (q: ActionParams)
    requires p.FunctionCallActionParams? || p.MixedActionParams?
    ensures q.FunctionCallActionParams? == p.FunctionCallActionParams?
    ensures q.FunctionCallActionParams? || q.MixedActionParams?
    ensures q.funcName == p.funcName && q.params == p.params && q.result == Some(result)
  {
    match p
    case FunctionCallActionParams(f, ps, _) => FunctionCallActionParams(f, ps, Some(result))
    case MixedActionParams(t, f, ps, _) => MixedActionParams(t, f, ps, Some(result))
  }

  // ---- Memory layer (models.py lines 110-136) ----

  /** `UserMetrics`: the typed form of one user's record. */
  datatype UserMetrics = UserMetrics(
    username: string,
    followersCount: int,
    followingCount: int,
    mediaCount: int,
    engagementRate: real,
    isPrivate: bool,
    isVerified: bool,
    profilePictureUrl: Option<string>,
    score: Option<real>)

  /** `UserMetrics.dict()`: every field, an absent optional one as `None`. */
  function UserMetricsToDict(u: UserMetrics): Dict {
    map[
      "username" := JStr(u.username),
      "followers_count" := JInt(u.followersCount),
      "following_count" := JInt(u.followingCount),
      "media_count" := JInt(u.mediaCount),
      "engagement_rate" := JReal(u.engagementRate),
      "is_private" := JBool(u.isPrivate),
      "is_verified" := JBool(u.isVerified),
      "profile_picture_url" := (match u.profilePictureUrl case Some(p) => JStr(p) case None => JNull),
      "score" := (match u.score case Some(s) => JReal(s) case None => JNull)
    ]
  }

  /** An optional float field: missing or `None` is absent; an int or float is present. */
  function OptionalFloat(d: Dict, key: string): Option<Option<real>> {
    match Get(d, key)
    case JNull => Some(None)
    case JInt(i) => Some(Some(i as real))
    case JReal(r) => Some(Some(r))
    case _ => None
  }

  /** An optional str field: missing or `None` is absent. */
  function OptionalStr(d: Dict, key: string): Option<Option<string>> {
    match Get(d, key)
    case JNull => Some(None)
    case JStr(s) => Some(Some(s))
    case _ => None
  }

  /**
   * `UserMetrics.model_validate(d)` with exact types: the seven required
   * fields must be present with their types; `profile_picture_url` and
   * `score` may be missing or `None`. `None` stands for a validation error.
   */
  function ParseUserMetrics(d: Dict): (r: Option<UserMetrics>)
    ensures r.Some? ==> "username" in d && d["username"] == JStr(r.value.username)
    ensures r.Some? ==> forall k :: (k in ["followers_count", "following_count", "media_count",
                                            "engagement_rate", "is_private", "is_verified"]) ==> k in d
  {
    if && "username" in d && d["username"].JStr?
       && "followers_count" in d && d["followers_count"].JInt?
       && "following_count" in d && d["following_count"].JInt?
       && "media_count" in d && d["media_count"].JInt?
       && "engagement_rate" in d && (d["engagement_rate"].JInt? || d["engagement_rate"].JReal?)
       && "is_private" in d && d["is_private"].JBool?
       && "is_verified" in d && d["is_verified"].JBool?
       && OptionalStr(d, "profile_picture_url").Some?
       && OptionalFloat(d, "score").Some?
    then
      Some(UserMetrics(
        d["username"].s, d["followers_count"].i, d["following_count"].i, d["media_count"].i,
        if d["engagement_rate"].JInt? then d["engagement_rate"].i as real else d["engagement_rate"].r,
        d["is_private"].b, d["is_verified"].b,
        OptionalStr(d, "profile_picture_url").value, OptionalFloat(d, "score").value))
    else None
  }

  /** Validating the dict of a `UserMetrics` gives it back: the optional fields default to `None`. */
  lemma UserMetricsRoundTrip(u: UserMetrics)
    ensures ParseUserMetrics(UserMetricsToDict(u)) == Some(u)
  {
  }

  /** `MemoryState`: the typed snapshot of the memory. */
  datatype MemoryState = MemoryState(
    usersMetrics: seq<UserMetrics>,
    iterationResponses: seq<string>,
    processedUsernames: seq<string>,
    scoredUsers: seq<string>)

  /** `MemoryState()` with every list at its default. */
  function DefaultMemoryState(): (s: MemoryState)
    ensures s.usersMetrics == [] && s.iterationResponses == []
    ensures s.processedUsernames == [] && s.scoredUsers == []
  {
    MemoryState([], [], [], [])
  }

  /**
   * `MemoryContext`: the memory as handed to the perception layer. The two
   * name lists are built from sets, whose order Python leaves open, so
   * they are sets here.
   */
  datatype MemoryContext = MemoryContext(
    usersMetricsList: seq<Dict>,
    iterationResponses: seq<string>,
    processedUsernames: set<Json>,
    scoredUsers: set<Json>)
}

=== FILE: perception.dfy ===
/**
 * The perception layer: the marker parser that turns the language model's
 * reply into one of the tagged `PerceptionResponse` variants, and the
 * wrapper that turns a failed model call into an error response.
 */
module Perception {
  import opened Wrappers
  import opened PyStr
  import opened Models

  const ThinkingMarker := "THINKING:"
  const FunctionCallMarker := "FUNCTION_CALL:"
  const VerificationMarker := "VERIFICATION:"
  const FinalAnswerMarker := "FINAL_ANSWER:"

  /** A text starts with at most one of the four markers. */
  lemma MarkersExclusive(t: string)
    ensures StartsWith(t, ThinkingMarker) ==>
              !StartsWith(t, FunctionCallMarker) && !StartsWith(t, VerificationMarker) && !StartsWith(t, FinalAnswerMarker)
    ensures StartsWith(t, FunctionCallMarker) ==> !StartsWith(t, VerificationMarker) && !StartsWith(t, FinalAnswerMarker)
    ensures StartsWith(t, VerificationMarker) ==> !StartsWith(t, FinalAnswerMarker)
  {
    if StartsWith(t, ThinkingMarker) {
      assert t[0] == t[..9][0] == 'T';
    }
    if StartsWith(t, FunctionCallMarker) {
      assert t[1] == t[..14][1] == 'U';
    }
    if StartsWith(t, VerificationMarker) {
      assert t[0] == t[..13][0] == 'V';
    }
  }

  /** The text up to the first line break (`s.split("\n")[0]`). */
  function FirstLine(s: string): (r: string)
    ensures '\n' !in r && StartsWith(s, r)
  {
    Before(s, '\n')
  }

  /** A marker without a line break survives the cut to the first line. */
  lemma FirstLineKeepsPrefix(s: string, p: string)
    requires StartsWith(s, p) && '\n' !in p
    ensures StartsWith(FirstLine(s), p)
  {
    var r := FirstLine(s);
    assert forall k :: 0 <= k < |p| ==> s[k] == p[k];
    assert |p| <= |r|;
    assert r[..|p|] == s[..|p|];
  }

  /** The function name and parameters of a call text, split on the first `|` and stripped. */
  function SplitCall(info: string): (r: (string, string))
    ensures '|' !in r.0
    ensures '|' !in info ==> r.1 == []
    ensures forall c :: c in r.0 || c in r.1 ==> c in info
    ensures Strip(r.0) == r.0 && Strip(r.1) == r.1
  {
    var (name, rest) := SplitOnce(info, '|');
    StripIdempotent(name);
    match rest
    case None => (Strip(name), "")
    case Some(after) =>
      assert info == name + ['|'] + after;
      StripIdempotent(after);
      (Strip(name), Strip(after))
  }

  /** The prefix rules applied to one stripped text. */
  function ParseByPrefix(t: string): PerceptionResponse {
    if StartsWith(t, ThinkingMarker) then ThinkingResponse(Strip(ReplaceAll(t, ThinkingMarker, "")))
    else if StartsWith(t, FunctionCallMarker) then
      var call := SplitCall(Strip(ReplaceAll(t, FunctionCallMarker, "")));
      FunctionCallResponse(call.0, call.1)
    else if StartsWith(t, VerificationMarker) then VerificationResponse(Strip(ReplaceAll(t, VerificationMarker, "")))
    else if StartsWith(t, FinalAnswerMarker) then FinalAnswerResponse(Strip(ReplaceAll(t, FinalAnswerMarker, "")))
    else UnknownResponse(t)
  }

  /** The stripped first line from an occurrence of the function-call marker keeps the marker. */
  lemma MarkerLineKeepsMarker(t: string, i: nat)
    requires OccursAt(t, FunctionCallMarker, i)
    ensures var line := Strip(FirstLine(t[i..]));
            StartsWith(line, FunctionCallMarker) && '\n' !in line
  {
    OccursAtStartsSuffix(t, FunctionCallMarker, i);
    FirstLineKeepsPrefix(t[i..], FunctionCallMarker);
    StripKeepsPrefix(FirstLine(t[i..]), FunctionCallMarker);
  }

  /** The stripped first line of `t` from the first function-call marker on. */
  function CallLine(t: string): (line: string)
    requires Contains(t, FunctionCallMarker)
    ensures StartsWith(line, FunctionCallMarker) && '\n' !in line
  {
    var i := Find(t, FunctionCallMarker).value;
    MarkerLineKeepsMarker(t, i);
    Strip(FirstLine(t[i..]))
  }

  /** The call text of the function-call marker's line: the line without the marker, stripped. */
  function CallText(t: string): (r: string)
    requires Contains(t, FunctionCallMarker)
    ensures '\n' !in r
  {
    Strip(ReplaceAll(CallLine(t), FunctionCallMarker, ""))
  }

  /** The parser on a reply that is already stripped. */
  function ParseStripped(t: string): (r: PerceptionResponse)
    ensures !r.ErrorResponse?
    ensures r.UnknownResponse? ==> r.content == t
  {
    if Contains(t, FunctionCallMarker) && !StartsWith(t, FunctionCallMarker) then
      var i := Find(t, FunctionCallMarker).value;
      var line := CallLine(t);
      if StartsWith(t, ThinkingMarker) then
        MixedResponse(Strip(ReplaceAll(t[..i], ThinkingMarker, "")), CallText(t))
      else
        MarkersExclusive(line);
        ParseByPrefix(line)
    else ParseByPrefix(t)
  }

  /**
   * `parse_llm_response`. A stripped reply that carries the function-call
   * marker somewhere after its start is cut down to the first line from
   * that marker on, unless it starts with the thinking marker, in which
   * case it is a mixed reply. Every marker is removed by replacing all its
   * occurrences, and the rest is stripped.
   */
  function ParseLlmResponse(responseText: string): (r: PerceptionResponse)
    ensures !r.ErrorResponse?
    ensures r.UnknownResponse? ==> r.content == Strip(responseText)
  {
    ParseStripped(Strip(responseText))
  }

  /** Which variant a reply parses to, in terms of its stripped text. */
  lemma ParseClassification(responseText: string)
    ensures var t := Strip(responseText);
            var r := ParseLlmResponse(responseText);
            && (r.MixedResponse? <==> StartsWith(t, ThinkingMarker) && Contains(t, FunctionCallMarker))
            && (r.FunctionCallResponse? <==> Contains(t, FunctionCallMarker) && !StartsWith(t, ThinkingMarker))
            && (r.ThinkingResponse? <==> StartsWith(t, ThinkingMarker) && !Contains(t, FunctionCallMarker))
            && (r.VerificationResponse? <==> StartsWith(t, VerificationMarker) && !Contains(t, FunctionCallMarker))
            && (r.FinalAnswerResponse? <==> StartsWith(t, FinalAnswerMarker) && !Contains(t, FunctionCallMarker))
            && (r.UnknownResponse? <==>
                  && !Contains(t, FunctionCallMarker) && !StartsWith(t, ThinkingMarker)
                  && !StartsWith(t, VerificationMarker) && !StartsWith(t, FinalAnswerMarker))
  {
    var t := Strip(responseText);
    MarkersExclusive(t);
    if StartsWith(t, FunctionCallMarker) {
      assert OccursAt(t, FunctionCallMarker, 0);
    }
    if Contains(t, FunctionCallMarker) && !StartsWith(t, FunctionCallMarker) {
      MarkersExclusive(CallLine(t));
    }
  }

  /** The six tags a parsed reply can carry: never `error`. */
  lemma ParseTagIsOneOfSix(responseText: string)
    ensures TypeTag(ParseLlmResponse(responseText)) in {"thinking", "function_call", "verification", "final_answer", "mixed", "unknown"}
  {
  }

  /** The call text of a line that starts with the function-call marker, split into its two parts. */
  lemma CallOfLine(line: string)
    requires StartsWith(line, FunctionCallMarker)
    ensures var r := ParseByPrefix(line);
            && r == FunctionCallResponse(SplitCall(Strip(ReplaceAll(line, FunctionCallMarker, ""))).0,
                                         SplitCall(Strip(ReplaceAll(line, FunctionCallMarker, ""))).1)
            && ('\n' !in line ==> '\n' !in r.funcName && '\n' !in r.params)
  {
    MarkersExclusive(line);
    var info := Strip(ReplaceAll(line, FunctionCallMarker, ""));
    if '\n' !in line {
      assert '\n' !in info;
    }
  }

  /**
   * A function call keeps no `|` in its name and both parts stripped; when
   * the marker was not at the start of the reply, only its line is used,
   * so neither part holds a line break.
   */
  lemma FunctionCallShape(responseText: string)
    requires ParseLlmResponse(responseText).FunctionCallResponse?
    ensures var r := ParseLlmResponse(responseText);
            && '|' !in r.funcName
            && Strip(r.funcName) == r.funcName && Strip(r.params) == r.params
            && (!StartsWith(Strip(responseText), FunctionCallMarker) ==> '\n' !in r.funcName && '\n' !in r.params)
  {
    var t := Strip(responseText);
    if Contains(t, FunctionCallMarker) && !StartsWith(t, FunctionCallMarker) {
      var line := CallLine(t);
      assert !StartsWith(t, ThinkingMarker);
      assert ParseStripped(t) == ParseByPrefix(line);
      CallOfLine(line);
    } else {
      MarkersExclusive(t);
      assert StartsWith(t, FunctionCallMarker);
      CallOfLine(t);
    }
  }

  /**
   * A mixed reply keeps the thinking text before the first function-call
   * marker and, as its call, only the rest of that marker's line.
   */
  lemma MixedShape(responseText: string)
    requires ParseLlmResponse(responseText).MixedResponse?
    ensures var t := Strip(responseText);
            var r := ParseLlmResponse(responseText);
            && Find(t, FunctionCallMarker).Some?
            && r.thinking == Strip(ReplaceAll(t[..Find(t, FunctionCallMarker).value], ThinkingMarker, ""))
            && r.functionCall == CallText(t)
            && '\n' !in r.functionCall
  {
    ParseClassification(responseText);
  }

  /** The call line of a reply, parsed on its own, is a function call made of its call text. */
  lemma CallLineParsesAsCall(t: string)
    requires Contains(t, FunctionCallMarker)
    ensures ParseStripped(CallLine(t)) == FunctionCallResponse(SplitCall(CallText(t)).0, SplitCall(CallText(t)).1)
  {
    var line := CallLine(t);
    assert OccursAt(line, FunctionCallMarker, 0);
    CallOfLine(line);
  }

  /** Parsing is insensitive to whitespace around the reply. */
  lemma ParseIgnoresSurroundingSpace(responseText: string)
    ensures ParseLlmResponse(Strip(responseText)) == ParseLlmResponse(responseText)
  {
    StripIdempotent(responseText);
  }

  /**
   * `process_input` with the model call abstracted to its reply: a failed
   * call gives an error response with the exception's text instead of
   * raising; a reply is stripped and parsed.
   */
  function ProcessInput(reply: LlmReply): (r: PerceptionResponse)
    ensures r.ErrorResponse? <==> reply.CallFailed?
    ensures reply.CallFailed? ==> r.content == reply.message
    ensures reply.Replied? ==> r == ParseLlmResponse(reply.text)
  {
    match reply
    case CallFailed(message) => ErrorResponse(message)
    case Replied(text) =>
      ParseIgnoresSurroundingSpace(text);
      ParseLlmResponse(Strip(text))
  }
}

=== FILE: pystr.dfy ===
/**
 * The Python `str` operations the agent's parsers and formatters use
 * (`strip`, `startswith`, `find`, `in`, `replace`, `split`, `str(int)`),
 * written out over `seq<char>`.
 */
module PyStr {
  import opened Wrappers

  /** The characters `str.isspace()` accepts, which `str.strip()` removes by default. */
  predicate IsSpace(c: char) {
    c == ' ' || ('\t' <= c <= '\r') || ('\U{1c}' <= c <= '\U{1f}') || c == '\U{85}' || c == '\U{a0}'
    || c == '\U{1680}' || ('\U{2000}' <= c <= '\U{200a}') || c == '\U{2028}' || c == '\U{2029}'
    || c == '\U{202f}' || c == '\U{205f}' || c == '\U{3000}'
  }

  /** `s.lstrip()` */
  function TrimLeft(s: string): (r: string)
    ensures |r| <= |s| && r == s[|s| - |r|..]
    ensures r == [] || !IsSpace(r[0])
    ensures forall k :: 0 <= k < |s| - |r| ==> IsSpace(s[k])
  {
    if s != [] && IsSpace(s[0]) then TrimLeft(s[1..]) else s
  }

  /** `s.rstrip()` */
  function TrimRight(s: string): (r: string)
    ensures |r| <= |s| && r == s[..|r|]
    ensures r == [] || !IsSpace(r[|r| - 1])
    ensures forall k :: |r| <= k < |s| ==> IsSpace(s[k])
  {
    if s != [] && IsSpace(s[|s| - 1]) then TrimRight(s[..|s| - 1]) else s
  }

  /** `s.strip()`: `s` without its leading and trailing whitespace. */
  function Strip(s: string): (r: string)
    ensures |r| <= |s|
    ensures r == [] || (!IsSpace(r[0]) && !IsSpace(r[|r| - 1]))
    ensures forall c :: c in r ==> c in s
  {
    TrimRight(TrimLeft(s))
  }

  /** Stripping twice is stripping once. */
  lemma StripIdempotent(s: string)
    ensures Strip(Strip(s)) == Strip(s)
  {
    var r := Strip(s);
    if r != [] {
      assert TrimLeft(r) == r;
      assert TrimRight(r) == r;
    }
  }

  /** `s.startswith(p)` */
  predicate StartsWith(s: string, p: string) {
    |p| <= |s| && s[..|p|] == p
  }

  /** `p` occurs in `s` starting at index `i`. */
  predicate OccursAt(s: string, p: string, i: int) {
    0 <= i && i + |p| <= |s| && s[i..i + |p|] == p
  }

  /** `p in s` */
  predicate Contains(s: string, p: string) {
    exists i :: 0 <= i <= |s| && OccursAt(s, p, i)
  }

  /** An occurrence at `i` is a prefix of the suffix from `i`. */
  lemma OccursAtStartsSuffix(s: string, p: string, i: nat)
    requires OccursAt(s, p, i)
    ensures StartsWith(s[i..], p)
  {
    assert s[i..][..|p|] == s[i..i + |p|];
  }

  /** A prefix that neither starts nor ends with whitespace survives `strip()`. */
  lemma {:induction false} StripKeepsPrefix(s: string, p: string)
    requires p != [] && !IsSpace(p[0]) && !IsSpace(p[|p| - 1])
    requires StartsWith(s, p)
    ensures StartsWith(Strip(s), p)
  {
    assert s[0] == p[0];
    assert TrimLeft(s) == s;
    var r := TrimRight(s);
    assert s[|p| - 1] == p[|p| - 1];
    assert |p| <= |r|;
    assert r[..|p|] == s[..|p|];
  }

  /** First index at or after `i` where `p` occurs in `s`. */
  function FindFrom(s: string, p: string, i: nat): (r: Option<nat>)
    ensures r.Some? ==> i <= r.value && OccursAt(s, p, r.value)
    ensures r.Some? ==> forall j :: i <= j < r.value ==> !OccursAt(s, p, j)
    ensures r.None? ==> forall j :: i <= j ==> !OccursAt(s, p, j)
    decreases |s| - i
  {
    if i + |p| > |s| then None
    else if s[i..i + |p|] == p then Some(i)
    else FindFrom(s, p, i + 1)
  }

  /** `s.find(p)`, with `None` standing for Python's -1: the first occurrence of `p`. */
  function Find(s: string, p: string): (r: Option<nat>)
    ensures r.Some? ==> OccursAt(s, p, r.value) && forall j :: 0 <= j < r.value ==> !OccursAt(s, p, j)
    ensures r.None? <==> !Contains(s, p)
  {
    FindFrom(s, p, 0)
  }

  /** `c in s` for one character, as an index search: the first index of `c`. */
  function FindChar(s: string, c: char): (r: Option<nat>)
    ensures r.Some? ==> r.value < |s| && s[r.value] == c && c !in s[..r.value]
    ensures r.None? <==> c !in s
  {
    if s == [] then None
    else if s[0] == c then Some(0)
    else match FindChar(s[1..], c)
      case None => None
      case Some(k) => assert s[1..][..k] == s[1..k + 1]; Some(k + 1)
  }

  /** The first occurrence of `c` is the index where it occurs with none before it. */
  lemma {:induction false} FindCharAt(s: string, c: char, i: nat)
    requires i < |s| && s[i] == c && c !in s[..i]
    ensures FindChar(s, c) == Some(i)
    decreases i
  {
    if i > 0 {
      assert s[0] == s[..i][0];
      assert s[1..][i - 1] == s[i];
      assert s[1..][..i - 1] == s[1..i];
      assert forall k :: 0 <= k < i - 1 ==> s[1..i][k] == s[..i][k + 1];
      FindCharAt(s[1..], c, i - 1);
    }
  }

  /** `s.rfind(c)`: the last index of `c`. */
  function LastIndexOfChar(s: string, c: char): (r: Option<nat>)
    ensures r.Some? ==> r.value < |s| && s[r.value] == c && c !in s[r.value + 1..]
    ensures r.None? <==> c !in s
  {
    if s == [] then None
    else if s[|s| - 1] == c then Some(|s| - 1)
    else
      assert s == s[..|s| - 1] + [s[|s| - 1]];
      LastIndexOfChar(s[..|s| - 1], c)
  }

  /**
   * `s.replace(pat, rep)`: every occurrence of `pat`, found left to right
   * without overlapping, is replaced by `rep`.
   */
  function ReplaceAll(s: string, pat: string, rep: string): (r: string)
    requires pat != []
    ensures !Contains(s, pat) ==> r == s
    ensures forall c :: c in r ==> c in s || c in rep
    decreases |s|
  {
    match Find(s, pat)
    case None => s
    case Some(i) =>
      var rest := ReplaceAll(s[i + |pat|..], pat, rep);
      assert forall c :: c in rest ==> c in s || c in rep;
      s[..i] + rep + rest
  }

  /** `s.split(sep)[0]` for a one-character separator: the text before the first `sep`. */
  function Before(s: string, sep: char): (r: string)
    ensures sep !in r && StartsWith(s, r)
    ensures |r| < |s| ==> s[|r|] == sep
  {
    match FindChar(s, sep)
    case None => s
    case Some(i) => s[..i]
  }

  /** The text before the first `sep` is the longest prefix of `s` without `sep`. */
  lemma BeforeIsLongestPrefix(s: string, sep: char, k: nat)
    requires k <= |s| && sep !in s[..k]
    ensures k <= |Before(s, sep)|
  {
  }

  /**
   * `s.split(sep, 1)` for a one-character separator: the text before the first
   * `sep` and, when there is one, the text after it.
   */
  function SplitOnce(s: string, sep: char): (r: (string, Option<string>))
    ensures sep !in r.0
    ensures r.1.None? <==> sep !in s
    ensures r.1.Some? ==> s == r.0 + [sep] + r.1.value
    ensures r.1.None? ==> r.0 == s
  {
    match FindChar(s, sep)
    case None => (s, None)
    case Some(i) =>
      assert s == s[..i] + [sep] + s[i + 1..];
      (s[..i], Some(s[i + 1..]))
  }

  /** The decimal digit for `d`. */
  function DigitChar(d: nat): (c: char)
    requires d < 10
    ensures '0' <= c <= '9'
  {
    ('0' as int + d) as char
  }

  predicate AllDigits(s: string) {
    forall k :: 0 <= k < |s| ==> '0' <= s[k] <= '9'
  }

  predicate IsDigits(s: string) {
    s != [] && AllDigits(s)
  }

  /** `str(n)` for a non-negative int. */
  function NatToString(n: nat): (r: string)
    ensures IsDigits(r)
    decreases n
  {
    if n < 10 then [DigitChar(n)] else NatToString(n / 10) + [DigitChar(n % 10)]
  }

  /** `str(i)` for an int. */
  function IntToString(i: int): (r: string)
    ensures r != [] && ' ' !in r
  {
    if i < 0 then "-" + NatToString(-i) else NatToString(i)
  }

  /** The value of a string of decimal digits (`int(s)`). */
  function DigitsValue(s: string): nat
    requires AllDigits(s)
  {
    if s == [] then 0
    else DigitsValue(s[..|s| - 1]) * 10 + (s[|s| - 1] as int - '0' as int)
  }

  /** `int(s)` for an optionally signed decimal numeral; `None` where Python would raise. */
  function ParseInt(s: string): Option<int> {
    if s != [] && s[0] == '-' && IsDigits(s[1..]) then Some(0 - DigitsValue(s[1..]) as int)
    else if IsDigits(s) then Some(DigitsValue(s))
    else None
  }

  lemma {:induction false} DigitsValueOfNatToString(n: nat)
    ensures DigitsValue(NatToString(n)) == n
    decreases n
  {
    if n >= 10 {
      DigitsValueOfNatToString(n / 10);
      var s := NatToString(n);
      assert s[..|s| - 1] == NatToString(n / 10);
    }
  }

  /** Reading back `str(i)` gives `i`. */
  lemma IntToStringRoundTrip(i: int)
    ensures ParseInt(IntToString(i)) == Some(i)
  {
    if i < 0 {
      var t := NatToString(-i);
      DigitsValueOfNatToString(-i);
      var s := "-" + t;
      assert s[1..] == t;
      assert IntToString(i) == s;
    } else {
      var s := NatToString(i);
      DigitsValueOfNatToString(i);
      assert '0' <= s[0] <= '9';
      assert IntToString(i) == s;
    }
  }
}

=== FILE: schema.dfy ===
/**
 * `InstagramCardProfileSchema`, the record shape the verification step
 * checks the first ranked user against, as a validity predicate on values.
 */
module ProfileSchema {
  import opened Wrappers
  import opened Models

  /** The eight fields the schema declares; every one is required. */
  const SchemaFields: seq<string> := [
    "username", "followers_count", "following_count", "media_count",
    "is_private", "is_verified", "engagement_rate", "profile_picture_url"]

  /** The schema's type for each of its fields: str, int, bool or float (an int is a float too). */
  predicate FieldHasSchemaType(key: string, v: Json) {
    if key == "username" || key == "profile_picture_url" then v.JStr?
    else if key == "followers_count" || key == "following_count" || key == "media_count" then v.JInt?
    else if key == "is_private" || key == "is_verified" then v.JBool?
    else if key == "engagement_rate" then v.JInt? || v.JReal?
    else true
  }

  /** `InstagramCardProfileSchema.model_validate(v)` succeeds: `v` is a dict with every field, well typed. */
  predicate ValidProfile(v: Json) {
    && v.JObj?
    && HasTypedField(v.fields, "username")
    && HasTypedField(v.fields, "followers_count")
    && HasTypedField(v.fields, "following_count")
    && HasTypedField(v.fields, "media_count")
    && HasTypedField(v.fields, "is_private")
    && HasTypedField(v.fields, "is_verified")
    && HasTypedField(v.fields, "engagement_rate")
    && HasTypedField(v.fields, "profile_picture_url")
  }

  predicate HasTypedField(d: Dict, key: string) {
    key in d && FieldHasSchemaType(key, d[key])
  }

  /** Validity is exactly: every schema field present and well typed. */
  lemma ValidProfileIffAllFields(v: Json)
    ensures ValidProfile(v) <==> v.JObj? && forall k :: k in SchemaFields ==> HasTypedField(v.fields, k)
  {
  }

  /** A dict that lacks any schema field fails validation. */
  lemma MissingFieldFails(d: Dict, key: string)
    requires key in SchemaFields && key !in d
    ensures !ValidProfile(JObj(d))
  {
  }

  /** A schema field of the wrong type fails validation. */
  lemma MistypedFieldFails(d: Dict, key: string)
    requires key in SchemaFields && key in d && !FieldHasSchemaType(key, d[key])
    ensures !ValidProfile(JObj(d))
  {
  }

  /** Only dicts validate. */
  lemma NonDictFails(v: Json)
    requires !v.JObj?
    ensures !ValidProfile(v)
  {
  }

  /** A key outside the schema is ignored: setting it does not change validity. */
  lemma ExtraKeyKeepsProfile(d: Dict, key: string, v: Json)
    requires key !in SchemaFields
    ensures ValidProfile(JObj(d)) <==> ValidProfile(JObj(d[key := v]))
  {
  }

  /** `score` is not a schema field: adding, changing or removing it does not change validity. */
  lemma ScoreIsIrrelevant(d: Dict, score: Json)
    ensures ValidProfile(JObj(d)) <==> ValidProfile(JObj(d["score" := score]))
    ensures ValidProfile(JObj(d)) <==> ValidProfile(JObj(d - {"score"}))
  {
    assert "score" !in SchemaFields;
  }

  /** The dict of a typed `UserMetrics` record passes the schema exactly when it has a picture URL. */
  lemma UserMetricsValidIffPicture(u: UserMetrics)
    ensures ValidProfile(JObj(UserMetricsToDict(u))) <==> u.profilePictureUrl.Some?
  {
    var d := UserMetricsToDict(u);
    if u.profilePictureUrl.None? {
      assert !FieldHasSchemaType("profile_picture_url", d["profile_picture_url"]);
    }
  }
}

=== FILE: wrappers.dfy ===
/** The two failure-carrying shapes the model uses for Python's `None` and for raised exceptions. */
module Wrappers {

  /** `None` or a value, as Python's `Optional[T]`. */
  datatype Option<+T> = None | Some(value: T)

  /** A value, or the error a Python call would have raised instead of returning. */
  datatype Result<+T, +E> = Ok(value: T) | Err(error: E)
}
